=== FILE: README.md ===
# Multimodal-DeepResearcher: a Dafny model of the record-processing core

Multimodal-DeepResearcher turns a topic into a research report in stages:

1. A **research agent** asks a language model for search queries. It fans
   every query out to the Google, arXiv and Wikipedia search adapters. It
   merges the hits, removes duplicates by URL, ranks them with the model
   when there are many, and counts them per source.
2. A **planning agent** builds the report outline, the visualisation plan
   and the word distribution.
3. A **generation agent** picks the relevant charts for each section,
   writes the sections, assembles the report, and computes word counts,
   chart references and reading time.

The repository also ships:

- a first version of the agents with mock search and keyword themes
  (`agents/`);
- a self-contained example pipeline built the same way (`example.py`);
- a batch script that runs many topics and summarises the outcomes
  (`scripts/batch_generate.py`).

This project models those parts as pure Dafny functions over immutable
data. Every call to the language model, every HTTP request and every
JSON or XML decode becomes an input to the model:

- a model reply is an `Option<string>`, where `None` means the request failed;
- a decoded body is a small datatype whose cases include "could not be decoded";
- a float parser is a `string -> Option<real>` function.

Python dicts are insertion-ordered association lists (module `OrderedMap`).
Python's `str.lower`, `strip`, `split`, `isalnum` and `title` are modelled on
ASCII (module `Text`). `sorted(set(xs))` on strings is module `SortedSet`.
`list.sort(key=..., reverse=True)` is a stable descending insertion sort
(module `StableSort`).

The search adapters swallow their errors. Module `Collect` models how:
each response item is a step that skips, emits a record, or raises. A
raising step ends the walk, and the adapter returns what it collected
before that step.

Modules, in dependency order:

- `Wrappers`, `Text`, `Seqs` and `OrderedMap` hold the generic helpers.
- `StableSort`, `SortedSet`, `Collect` and `Records` hold the shared
  algorithms and the record type.
- `Sources` models the three search adapters (`src/data/sources.py`).
- `Researcher` models the research stage (`src/agents/researcher.py`).
- `Planner` models the planning stage (`src/agents/planner.py`).
- `Generator` models the report helpers and the generation stage
  (`src/agents/generator.py`).
- `LegacyAgents` models the first-version mock agents (`agents/`).
- `ExamplePipeline` models `example.py`.
- `Batch` models `scripts/batch_generate.py`.

Behaviours of the code worth knowing:

- **Empty URLs are dropped.** Deduplication drops every record whose URL
  is empty or missing. It does not keep them.
- **Score lists are truncated, not rejected.** A score list of the wrong
  length goes through `zip`. It is not rejected and the input order is not
  restored: the ranking keeps only the first `min(records, scores)`
  records.
- **The cap applies only after ranking.** The `max_sources` cap is applied
  only when ranking ran, which happens above ten unique records. With a
  cap below ten, a list of up to ten records can exceed the cap.
- **Query generation has no fallback.** A failed request propagates out
  of the stage. The stage does not fall back to a topic-only query list.
- **The topic is not guaranteed in the query list.** If the model lists
  it only in eighth place or later, the cut to seven removes it.

## Model

| member | source | states |
|---|---|---|
| Researcher.QueryLines | src/agents/researcher.py:89 | every query line is non-empty and already stripped |
| Researcher.QueryLinesOfJoin | src/agents/researcher.py:89 | stripped, non-blank queries written one per line are read back exactly, in order |
| Researcher.QueriesFrom | src/agents/researcher.py:89-95 | at most seven queries, each the topic or one of the reply lines |
| Researcher.QueriesFromShape | src/agents/researcher.py:89-95 | the topic is put first exactly when the lines lack it, followed by the first six lines; otherwise the list is the first seven lines |
| Researcher.GenerateQueries | src/agents/researcher.py:88-95 | at most seven queries, each the topic or a stripped reply line |
| Researcher.GenerateQueriesShape | src/agents/researcher.py:89-95 | the topic is put first exactly when the reply lacks it, followed by the first six lines; otherwise the list is the first seven lines, repeats kept |
| Researcher.TopicPresence | src/agents/researcher.py:89-95 | the topic is in the query list iff the reply lines lack it or list it among their first seven |
| Researcher.Tasks | src/agents/researcher.py:30-34 | one task per query and source pair |
| Researcher.TaskAt | src/agents/researcher.py:30-34 | task `i*n+j` searches query `i` with source `j`, for `n` sources (query-major, source-minor) |
| Researcher.GuardAll | src/agents/researcher.py:115-121 | each task's contribution is its records, or `[]` when its search raised |
| Researcher.MergeAppend | src/agents/researcher.py:44-46 | the merged list of two task runs is the concatenation of their merged lists |
| Researcher.MergeIsolatesFailure | src/agents/researcher.py:115-121 | a raising task removes only its own records; the others' records stay, in order |
| Researcher.MergeMember | src/agents/researcher.py:44-46 | every merged record was returned by some task |
| Researcher.Gather | src/agents/researcher.py:42 | whatever order the tasks complete in, the gathered results are in submission order |
| Researcher.DedupeFrom | src/agents/researcher.py:127-134 | with URLs already seen, the result has only new non-empty URLs, pairwise distinct, drawn from the input, covering every new URL |
| Researcher.Dedupe | src/agents/researcher.py:127-134 | only records with non-empty URLs, pairwise distinct URLs, every input URL except `""` still present |
| Researcher.DedupeIsKeepFirsts | src/agents/researcher.py:127-134 | the loop equals the reference definition: keep a record iff its URL is non-empty and no earlier record has it |
| Researcher.DedupeOfDistinct | src/agents/researcher.py:127-134 | a list with distinct non-empty unseen URLs passes unchanged |
| Researcher.DedupeIdempotent | src/agents/researcher.py:127-134 | deduplicating twice equals deduplicating once |
| Researcher.ParseAll | src/agents/researcher.py:172 | the scores parse iff every piece parses; then score `i` is piece `i`'s value |
| Researcher.ScoredRanking | src/agents/researcher.py:175-176 | the zip of records and scores, sorted by score descending, is a permutation of the zip, `min` of the two lengths long, and keeps equal scores in input order |
| Researcher.SortIsStableForAll | src/agents/researcher.py:176 | for every score value, the records with that score keep their relative order |
| Researcher.RankByRelevance | src/agents/researcher.py:170-182 | a failed request or an unparsable reply leaves the input unchanged; otherwise the result is the records of the sorted zip |
| Researcher.RankedPairsKept | src/agents/researcher.py:175-178 | each sorted score pair holds an input record, and pairs of records with distinct URLs keep distinct URLs |
| Researcher.RankKeepsRecords | src/agents/researcher.py:170-182 | ranking only reorders or drops records, so distinct URLs stay distinct |
| Researcher.RankedFirstHasTopScore | src/agents/researcher.py:176 | the first ranked pair has a score at least that of any paired record |
| Researcher.ShortScoreListTruncates | src/agents/researcher.py:175 | fewer scores than records yields fewer records than the input |
| Researcher.FilterAndRank | src/agents/researcher.py:127-141 | distinct non-empty URLs from the input; at most ten unique records come back unchanged and uncapped; above ten, the first `max_sources` of the ranked unique records |
| Researcher.FilterAndRankKeepsTop | src/agents/researcher.py:137-141 | above ten unique records, a unique record that scores higher than some kept record is itself kept: nothing dropped outscores anything kept |
| Researcher.ScoredTopKept | src/agents/researcher.py:175-176 | among the first `n` of the sorted pairs is every pair scoring higher than one of them |
| Researcher.FilterAndRankBounded | src/agents/researcher.py:137-141 | with the default cap of ten the result never exceeds ten records |
| Researcher.CapSkippedWithoutRanking | src/agents/researcher.py:137-141 | a cap below the number of at most ten unique records is not applied |
| Researcher.Tags | src/agents/researcher.py:219 | the i-th tag is record i's `source`, or `unknown` |
| Researcher.Increment | src/agents/researcher.py:220 | one more for the tag, which becomes a key if it was not one; every other count unchanged; the sum grows by one |
| Researcher.CountInto | src/agents/researcher.py:217-221 | after the loop each count has grown by the tag's multiplicity, the keys are the old keys plus the tags, and the sum has grown by the number of tags |
| Researcher.PutEffect | src/agents/researcher.py:220 | an assignment leaves other keys' values alone, adds its key, and changes the sum by the value difference |
| Researcher.CountSources | src/agents/researcher.py:215-221 | a key per distinct tag; each count equals the tag's multiplicity, and the counts sum to the list length |
| Researcher.ActiveAdapters | src/agents/researcher.py:97-113 | arXiv then Wikipedia always close the list; Google leads it iff both credentials are set and non-empty |
| Researcher.SearchAll | src/agents/researcher.py:115-118 | every task returns the adapter's records for five results |
| Researcher.Process | src/agents/researcher.py:17-61 | succeeds iff the query and synthesis requests succeed; then the topic and synthesis reply are kept, the queries are those generated from the reply, the records are the filtered merge of every query-source search, the breakdown counts those records, and `source_count` equals both the record count and the breakdown's sum; URLs are non-empty and distinct |
| Researcher.SearchTags | src/agents/researcher.py:17-61 | every merged search record is tagged with the name of the adapter that found it |
| Researcher.ProcessSourceTags | src/agents/researcher.py:17-61 | every reported record is tagged google, arxiv or wikipedia |
| Collect.Emits | src/data/sources.py:43-49 | no more records than items |
| Collect.FirstRaise | src/data/sources.py:31-53 | the first raising item, or the end when none raises |
| Collect.RunIsEmitsBeforeRaise | src/data/sources.py:29-54 | the adapter returns exactly the records of the items before the first raising one |
| Collect.RunIsPrefixOfEmits | src/data/sources.py:29-54 | what is returned is a prefix of what a raise-free walk would give |
| Collect.RunWithoutRaise | src/data/sources.py:29-54 | with no raising item every record is returned |
| Collect.RunAppend | src/data/sources.py:43-49 | a raise-free stretch of items is walked completely before the rest |
| Collect.RunWithoutSkip | src/data/sources.py:43-49 | without skipped items, record i comes from item i (record order follows item order) |
| Collect.RunSkipsItem | src/data/sources.py:130-142 | a skipped item can be removed from anywhere in the walk |
| Collect.RunPrefixSkip | src/data/sources.py:141-142 | a skipped step changes nothing, whatever precedes it |
| Collect.EmitPositions | src/data/sources.py:43-49 | the positions of the items that contribute a record: increasing, and containing every such position |
| Collect.EmitsAtPositions | src/data/sources.py:43-49 | the i-th record comes from the i-th contributing item |
| Sources.GoogleRequest | src/data/sources.py:32-37 | the request carries the key, engine id and query, and asks for `min(max_results, 10)` results |
| Sources.GoogleSearch | src/data/sources.py:27-54 | the result is exactly the records of the items before the first non-object item, one per item in order, so its length is that item's index; records are tagged google; all items are objects ⟹ one record per item |
| Sources.GoogleStopsAtNonObject | src/data/sources.py:43-49 | an item that is not an object ends the walk; every object item before it gives its record, in order |
| Sources.ArxivRequest | src/data/sources.py:68-74 | the query is `all:` plus the query, from 0, by relevance descending |
| Sources.ArxivSnippet | src/data/sources.py:91 | the snippet is the first `min(len, 300)` characters of the stripped summary followed by `...`; a short summary is kept whole |
| Sources.ArxivSearch | src/data/sources.py:63-98 | the result is exactly the records of the entries before the first one whose title or summary element is empty; record i is the record of the i-th entry with a title and a summary that have text: stripped title, the id text (`""` without an id element), the cut summary, tagged arxiv; snippets of at most 303 characters |
| Sources.ArxivRecordsAt | src/data/sources.py:81-96 | any prefix of the entries' records holds, at place i, the record of the i-th entry with a title and a summary that have text |
| Sources.ArxivSkipsIncompleteEntry | src/data/sources.py:87 | an entry without a title or summary element leaves the result unchanged |
| Sources.ArxivStopsAtEmptyElement | src/data/sources.py:87-96 | a summary element without text ends the walk, returning the records of the entries before it |
| Sources.ArxivCompleteFeed | src/data/sources.py:83-96 | when no entry has an empty title or summary element, every entry with both gives its record, so there is one record per such entry |
| Sources.Candidates | src/data/sources.py:124 | no candidates when the array has at most one element; otherwise element 1's titles |
| Sources.WikipediaTitles | src/data/sources.py:121-127 | for a 200 reply whose body is an array, the titles are the first `min(n, max_results)` candidates taken from element 1; otherwise there are none |
| Sources.WikipediaSteps | src/data/sources.py:127-142 | one step per candidate, from that candidate's own summary fetch |
| Sources.WikipediaSearch | src/data/sources.py:107-147 | at most `max_results` records, all tagged wikipedia, from the candidates whose fetch succeeded |
| Sources.WikipediaAllFetched | src/data/sources.py:127-140 | when every fetch succeeds, there is one record per candidate, in order, titled by the summary or else by the candidate |
| Sources.AdapterSearch | src/data/sources.py:27-147 | never raises; every record carries its adapter's source name |
| StableSort.Sort | src/agents/researcher.py:176 | a permutation of the input, sorted by key descending |
| StableSort.SortIsStable | src/agents/generator.py:116 | elements with equal keys keep their input order |
| StableSort.SortHeadIsMax | src/agents/generator.py:116 | the first element has the greatest key |
| StableSort.SortTopKept | src/agents/generator.py:116-117 | an element left out of the first `n` of a sort does not have a greater key than any element kept |
| StableSort.WithKeyTake | src/agents/generator.py:116-117 | the elements with a given key that survive a cut are a prefix of those before the cut |
| Planner.CreateOutline | src/agents/planner.py:64-88 | a non-list reply gives `[]`; a list reply is the outline; a decode error gives three titled sections with word estimates |
| Planner.FallbackOutlineShape | src/agents/planner.py:69-88 | the fallback is Introduction 300, Analysis 500, Conclusion 250 words, 1050 in total |
| Planner.FirstMissingKey | src/agents/planner.py:93 | no key is missing iff every section has a title and a description |
| Planner.PlanVisualizations | src/agents/planner.py:90-130 | a section without a title or description raises first; then a failed request fails; a list reply is the plan; any other reply gives `[]` |
| Planner.Breakdown | src/agents/planner.py:143-149 | a key per title, with no other keys; the entry of the last section with a title is that section's words (default 300) and priority |
| Planner.ContentDistribution | src/agents/planner.py:132-151 | a non-empty outline with zero total raises division by zero; a missing title raises; otherwise the total is the sum of the section words, every last-of-its-title section has its entry, and no priorities are listed |
| Planner.TotalWordsAppend | src/agents/planner.py:135 | the total of two outlines joined is the sum of their totals |
| Planner.BreakdownAccountsForTotal | src/agents/planner.py:143-146 | with distinct titles there is one entry per section, and the entries' words add up to the words so far |
| Planner.BreakdownSumsToTotal | src/agents/planner.py:135-146 | with distinct titles the breakdown's words equal `total_estimated_words` |
| Planner.PriorityEnds | src/agents/planner.py:148 | priority is High iff the section is first or last; a single section is High |
| Planner.Process | src/agents/planner.py:8-30 | a failed outline request fails the stage. Otherwise it succeeds iff the visualization plan and the content distribution of `_create_outline`'s outline both succeed; their errors are reported in that order. On success the topic is kept, the outline is `_create_outline`'s, the visualization plan and content plan are those two steps' values, and the section and chart estimates are the lengths |
| Planner.FallbackPlanSucceeds | src/agents/planner.py:15-30 | an undecodable outline reply still gives a plan with three sections |
| Generator.SectionKeywords | src/agents/generator.py:103 | the words of the lowercased title, then of the lowercased description, split at exactly the title's word count |
| Generator.KeywordScore | src/agents/generator.py:105-112 | at most 3; positive iff the keyword is longer than three characters and occurs in the chart's title, description or section; 3 iff it occurs in the title, 2 iff in the description but not the title, 1 iff only in the section |
| Generator.RelevanceScore | src/agents/generator.py:104-112 | at most 3 per keyword, repeats included; positive iff some keyword scores; a single keyword scores its own score |
| Generator.RelevanceScoreAppend | src/agents/generator.py:105-112 | the score of two keyword lists joined is the sum of their scores |
| Generator.ScoredCharts | src/agents/generator.py:113-115 | exactly the charts with a positive score, each carrying that score as `relevance_score` |
| Generator.ScoredChartsInOrder | src/agents/generator.py:99-115 | the scored charts are the positively scoring charts in input order, each with its score |
| Generator.FindRelevantCharts | src/agents/generator.py:96-117 | the first `min(2, n)` of the scored charts sorted by score descending; all positively scored |
| Generator.RelevantChartsHaveTopScore | src/agents/generator.py:116-117 | if any chart scores, the first returned has the top score |
| Generator.RelevantChartsAreTop | src/agents/generator.py:113-117 | a scored chart with a higher score than some returned chart is itself returned |
| Generator.RelevantChartsTiesInInputOrder | src/agents/generator.py:116-117 | the returned charts with one score are a prefix of the scored charts with that score, in input order |
| Generator.ScoreNeedsLongKeyword | src/agents/generator.py:106 | a chart scores only through a keyword longer than three characters |
| Generator.UnreferencedCharts | src/agents/generator.py:152-158 | exactly the charts with a non-empty title whose `[See Chart: title]` marker is absent |
| Generator.UnreferencedAppend | src/agents/generator.py:154-157 | the check is per chart, so it distributes over concatenation (input order kept) |
| Generator.CountWords | src/agents/generator.py:173-174 | zero iff the text is empty or all whitespace |
| Generator.CountWordsOfJoin | src/agents/generator.py:173-174 | space-joined words count as their number |
| Generator.CountWordsAppend | src/agents/generator.py:173-174 | the word count of two texts joined by a space is the sum of their counts |
| Text.Words | src/agents/generator.py:174 | every piece is a word (non-empty, no whitespace); none iff the text is all whitespace |
| Text.WordsAppend | src/agents/generator.py:174 | splitting a text joined at a whitespace boundary gives the words of each side in turn |
| Text.WordsOfJoin | src/agents/generator.py:174 | splitting space-joined words gives the words back |
| Generator.CountChartReferences | src/agents/generator.py:176-177 | positive iff `[See Chart:` occurs; occurrences do not overlap |
| Generator.MarkerIsCounted | src/agents/generator.py:176-177 | a text with a chart marker has a positive reference count |
| Generator.CountAfterPrefix | src/agents/generator.py:176-177 | a text opening with `[See Chart:` counts one more reference than the rest |
| Generator.CountReferencesAppend | src/agents/generator.py:176-177 | counts add up across a point where a reference starts |
| Text.CountAppend | src/agents/generator.py:177 | non-overlapping counts add up across a point where an occurrence starts, for a pattern whose first character does not recur in it |
| Generator.CountRepeatedReferences | src/agents/generator.py:177 | k back-to-back prefixes count as k |
| Generator.ReadingMinutes | src/agents/generator.py:170 | at least one minute; from 200 words on, the largest m with 200·m ≤ words |
| Generator.Anchor | src/agents/generator.py:127 | character i is `-` where the title has a space and the lower-case title character elsewhere; so no spaces and no capitals |
| Generator.AnchorIdempotent | src/agents/generator.py:127 | an anchor is its own anchor |
| Generator.TocLineShape | src/agents/generator.py:127 | the contents line starts with a number that reads back as i+1, followed by the linked title |
| Generator.TocLines | src/agents/generator.py:124-127 | one contents line per section, numbered in order |
| Generator.GenerateSection | src/agents/generator.py:32-50 | succeeds iff the plan has a title and description and the model replied; the missing title, then the missing description, then the failed request is the error; the index and title are kept, the content is the reply, the charts are the relevant charts of the title and description, and the word count is the content's |
| Generator.FirstError | src/agents/generator.py:15-19 | succeeds iff every section does, keeping their values; otherwise the first failure |
| Generator.SectionResults | src/agents/generator.py:15-19 | result i is `_generate_section` of outline entry i with model reply i and index i |
| Generator.SectionsInOrder | src/agents/generator.py:15-19 | the generated sections follow the outline, numbered from zero |
| Generator.GenerateSections | src/agents/generator.py:14-19 | succeeds iff every outline entry's `_generate_section` succeeds, and then section i is exactly that call's section; otherwise the error is that of the first failing entry, every earlier entry having succeeded |
| Generator.ChartBlocks | src/agents/generator.py:129-132 | fails with a missing `title` iff some chart has a file but no title |
| Generator.ChartBlocksInOrder | src/agents/generator.py:129-132 | the image text is the image blocks of every chart, each computed alone, joined in chart order |
| Generator.SectionMarkdown | src/agents/generator.py:128-132 | the heading, the content, then the image blocks of the section's charts joined in chart order; fails with a missing `title` iff some chart has a file but no title |
| Generator.SectionsMarkdown | src/agents/generator.py:126-133 | succeeds iff every section's markdown does, and then block i is section i's markdown; a failure is the missing chart `title` |
| Generator.AppendixEntry | src/agents/generator.py:139-142 | a chart gets an entry iff it has a file and a title, and the entry starts with its title heading and image line |
| Generator.AppendixEntriesInOrder | src/agents/generator.py:138-142 | the appendix body is the entries of its charts joined in order |
| Generator.ContentBlocks | src/agents/generator.py:135-143 | succeeds iff the section markdown does; the first blocks are the sections' markdown in order; a last block is added iff some chart is unreferenced by the joined section blocks, and it is the appendix heading followed by the entries of the unreferenced charts in order |
| Generator.CreateMetadata | src/agents/generator.py:160-171 | topic, source count and source breakdown are passed through; the word count is the report's; reading time is at least one minute and derived from it; the section and chart counts are the lengths |
| Generator.Process | src/agents/generator.py:9-30 | a failing section fails the stage with the error of the first failing outline entry (by GenerateSections); success iff every section and the content blocks succeed. On success the sections are `GenerateSections`'; the report renders the TOC lines of those sections and the content blocks (block i being section i's markdown, then the appendix); the metadata is `_create_metadata` of that report; the word counts agree with the report; the references are counted in the report |
| SortedSet.SortedDistinct | agents/researcher.py:30-31 | strictly ascending (so no duplicates) with exactly the input's elements; as long as the input when that has no repeats |
| SortedSet.SortedUnique | example.py:29 | two strictly sorted lists with the same elements are equal |
| SortedSet.SortedDistinctIdempotent | agents/researcher.py:30-31 | filtering twice equals filtering once |
| SortedSet.SortedDistinctOfSameElements | example.py:29 | only the set of elements matters, not their order or repeats |
| LegacyAgents.ResultLine | agents/researcher.py:26 | a result line starts with the engine and carries its number right after `" result "` |
| LegacyAgents.ResultLineMentions | agents/researcher.py:26 | a result line contains both the engine name and the topic |
| LegacyAgents.ResultLinesDiffer | agents/researcher.py:26 | result lines of engines with different initials differ, and so do the two numbered lines of one engine |
| LegacyAgents.MockSearch | agents/researcher.py:22-26 | exactly two results, each naming the engine and the topic |
| LegacyAgents.SearchEngines | agents/researcher.py:13-15 | results concatenated per engine in order: result 1 then 2 of engine i sit at 2i and 2i+1 |
| LegacyAgents.SearchEnginesAt | agents/researcher.py:13-15 | the p-th collected result is result 1 or 2, by parity, of engine p / 2 |
| LegacyAgents.SearchEnginesDistinct | agents/researcher.py:13-26 | engines with distinct first letters give pairwise different results |
| LegacyAgents.MockResultsDistinct | agents/researcher.py:6-26 | the mock results of google, arxiv and wikipedia are pairwise different |
| LegacyAgents.FilterAndRank | agents/researcher.py:28-32 | strictly ascending, with exactly the elements of the input |
| LegacyAgents.ResearchTopic | agents/researcher.py:8-20 | six sorted distinct results, holding both results of each engine and nothing else |
| LegacyAgents.TitleCase | agents/planner.py:35 | character i is upper-cased at the start or after a non-letter and lower-cased after a letter; letters exactly where the input has them, non-letters unchanged |
| LegacyAgents.TitleCaseIdempotent | agents/planner.py:35 | title-casing twice equals once |
| LegacyAgents.TitleCaseTwoWords | agents/planner.py:33-35 | two lower-case words joined by a space both get a capital first letter, as "medical imaging" becomes "Medical Imaging" |
| LegacyAgents.TitleCaseAtNonLetter | agents/planner.py:33-35 | a non-letter splits the string into parts that are title-cased independently |
| LegacyAgents.TitleCaseLowerWord | agents/planner.py:33-35 | a lower-case word is title-cased by capitalising its first letter only |
| LegacyAgents.KeywordTitlesDistinct | agents/planner.py:33-37 | the keywords' title forms differ from each other and from the fallback theme |
| LegacyAgents.MatchingThemes | agents/planner.py:35 | the title forms of the keywords the text contains, in keyword-list order; a title form is present iff its keyword occurs; no repeats |
| LegacyAgents.TitledMatches | agents/planner.py:35 | for any keyword list whose title forms differ, the title forms of the contained keywords in list order, exactly those, without repeats |
| LegacyAgents.IdentifyThemes | agents/planner.py:25-38 | never empty, no repeats; a title form is present iff its keyword is in the lowercased joined data; the fallback alone iff nothing matches; otherwise the matching themes in keyword order |
| LegacyAgents.MatchAcrossResults | agents/planner.py:32 | a keyword split across two results still matches, because the results are joined first |
| LegacyAgents.AnalysisSections | agents/planner.py:12-13 | section i is "Analysis of " followed by theme i; distinct for distinct themes |
| LegacyAgents.Outline | agents/planner.py:9-15 | Introduction, the analysis sections, Conclusions: two more sections than themes |
| LegacyAgents.ChartFile | agents/planner.py:48 | character i is `_` for a space and the lower-case section character otherwise, then `_chart.png`; so no spaces and no capitals |
| LegacyAgents.Placements | agents/planner.py:45-49 | a section has a chart iff it is listed and wanted, and the chart is its file name |
| LegacyAgents.PlacementKeys | agents/planner.py:46-48 | without repeated wanted sections, the keys are the wanted sections in order |
| LegacyAgents.OutlinePlacements | agents/planner.py:9-18 | when exactly the analysis sections are wanted, they are the placement keys in order |
| LegacyAgents.PlanVisualizations | agents/planner.py:40-49 | a chart exactly for the sections whose lowercase contains "analysis", named by `ChartFile` |
| LegacyAgents.CreateReportOutline | agents/planner.py:2-23 | the sections are the outline of the identified themes, two more than themes, and the plan is that of those sections |
| LegacyAgents.OneChartPerTheme | agents/planner.py:2-23 | the placement keys are exactly the analysis sections: one chart per theme |
| ExamplePipeline.ResearchTopic | example.py:14-29 | six sorted distinct "about" results, holding both results of each engine and nothing else |
| ExamplePipeline.KeywordsDistinct | example.py:37-39 | the keywords are distinct and none is the fallback |
| ExamplePipeline.IdentifyThemes | example.py:36-39 | never empty, no repeats; a keyword is present, in its own case, iff some single result contains it ignoring case; the fallback alone iff none does; otherwise the mentioned keywords in list order |
| ExamplePipeline.MentionedKeywords | example.py:38 | the keywords some result mentions, exactly those, in keyword-list order |
| ExamplePipeline.NoMatchAcrossResults | example.py:38 | a keyword split across two results is not found |
| ExamplePipeline.PlanVisualizations | example.py:41-46 | a chart exactly for the sections containing "Analysis" as written, named by the lowercase, underscored file name |
| ExamplePipeline.CreateReportOutline | example.py:48-52 | the sections are the outline of the identified themes, two more than themes, and the plan is that of those sections |
| ExamplePipeline.OneChartPerTheme | example.py:48-52 | the chart keys are exactly the analysis sections, one per theme |
| ExamplePipeline.GenerateReport | example.py:64-71 | the topic is returned unchanged; the research data is the topic's six research results; the outline is planned from that data, with one chart per theme |
| ExamplePipeline.TopicKeywordsBecomeThemes | example.py:26-38 | every keyword the topic contains, ignoring case, becomes a theme |
| Batch.SafeTopic | scripts/batch_generate.py:30-31 | at most 50 characters, each alphanumeric, `-` or `_` (no spaces) |
| Batch.SafeTopicOfName | scripts/batch_generate.py:30-31 | a topic of at most 50 letters, digits, `-` and `_` is its own name |
| Batch.SafeTopicDropsUnsafe | scripts/batch_generate.py:30 | an unsafe character changes nothing, wherever it stands |
| Batch.NamesAreStripped | scripts/batch_generate.py:30 | a name of such characters has no trailing whitespace |
| Batch.SafeTopicIdempotent | scripts/batch_generate.py:30-31 | sanitising a sanitised topic changes nothing |
| Batch.SafeTopicTrailingSpace | scripts/batch_generate.py:30-31 | a trailing space leaves no trailing `_` |
| Batch.SafeTopicEnd | scripts/batch_generate.py:30-31 | without truncation, a trailing `_` came from a `_` in the topic |
| Batch.TopicOutput | scripts/batch_generate.py:32 | the base, `/`, then the safe topic: one level below the base, with no `/` or `.` after it |
| Batch.LoadTopics | scripts/batch_generate.py:102-112 | fails with 1 iff the file is missing or every line is blank; otherwise the topics are the stripped non-blank lines in order |
| Text.StrippedNonEmpty | scripts/batch_generate.py:107 | no more entries than lines, each stripped and non-empty |
| Text.StrippedNonEmptyAppend | scripts/batch_generate.py:107 | the topics of two blocks of lines are those of the first followed by those of the second |
| Text.StrippedNonEmptyOfStripped | scripts/batch_generate.py:107 | lines that are already stripped and non-blank are kept unchanged |
| Batch.NoTopics | scripts/batch_generate.py:108-110 | there are no topics iff every line is blank |
| Batch.ProcessTopic | scripts/batch_generate.py:19-60 | the topic is kept; success iff the pipeline succeeded and saving did; the error is the exception's message, the result's error (defaulting to "Unknown error"), or the save's exception message |
| Batch.RunBatch | scripts/batch_generate.py:136 | one result per topic, in topic order, result i being the processing of topic i with its own outcome |
| Batch.SummaryPartitions | scripts/batch_generate.py:142-143 | successes and failures are all of the results, each exactly once |
| Batch.SummaryAppend | scripts/batch_generate.py:142-143 | both lists keep the original order (they distribute over concatenation) |
| Batch.SumOverSuccesses | scripts/batch_generate.py:153-154 | summing over the successes equals summing over all results when failures add nothing |
| Batch.TotalsOverAll | scripts/batch_generate.py:153-154 | total words and charts count every result, with failures adding zero |

## Left out

- **Language-model requests** (`_make_llm_request`) are inputs: a reply or
  `None` for a failed request. The prompts built for them are not modelled.
  Neither is the `results[:15]` cut of the synthesis prompt. The synthesis
  text is passed through as given.
- **HTTP, JSON and XML decoding** (aiohttp, `response.json()`,
  `ET.fromstring`, `json.loads`) are inputs: a decoded body or a
  "could not be decoded" case. Request parameters other than the ones
  `GoogleRequest` and `ArxivRequest` state are not modelled. That includes
  the Wikipedia opensearch `limit`. URL quoting of Wikipedia titles is left
  out as well; the Sources.WikipediaSearch line below says how quoting can
  end the walk.
- **Concurrency.** The `asyncio` semaphore and concurrency limit are left
  out. Only the order-preserving result of `gather` is modelled, by
  `Gather` and `RunBatch`.
- **Floats.** Ranking scores are reals from an abstract parser, so NaN and
  infinities are not modelled. The planner's rounded percentage is left out.
- **Side effects.**
  - Timestamps (`generation_date`, the batch output-base default and
    `generation_time`), jinja rendering (a function parameter of
    `Generator.Process`), logging and printing are left out.
  - So are `save_results` and the file I/O of the example, and the example's
    argparse and config loading.
  - So is reading the topics file, which is given as its lines.
- **Chart rendering**, the pipeline orchestration, the cache, config
  loading and the web interface are not part of this model.
- **Text handling is ASCII only.** Python's Unicode case mapping and
  whitespace classes are not modelled.
- Generator.ScoredCharts: does not model that the source writes
  `relevance_score` into the caller's chart dicts (aliasing); the model
  returns scored copies.
- Planner.ContentDistribution: states the entries only for the last
  section carrying each title; the rounded percentage is not modelled.
- Batch.ProcessTopic: a result whose `error` key is present but `None`
  is not distinguished from a missing key.
- Planner.ContentDistribution: a JSON `null` `estimated_words` (a
  TypeError in the sum) is not distinguished from a missing one.
- Generator.FindRelevantCharts: a chart field holding JSON `null` (whose
  `.lower()` raises) is treated as a missing field, that is as `""`.
- Sources.WikipediaStep: a summary whose `title` is JSON `null` gets the
  candidate title rather than `None`; a `content_urls` or `desktop` value
  that is not an object (whose `.get` raises and skips the candidate) is
  not modelled; only missing keys are.
- Sources.WikipediaTitles: an opensearch body that is a top-level JSON
  string is treated as not an array (no candidates); in the source a
  string longer than one character gives its second character as the one
  candidate.
- Planner.PlanVisualizations: outline entries that are not JSON objects
  (where `section['title']` raises) are not modelled; an entry is a
  section whose fields may be missing.
- Planner.ContentDistribution: outline entries that are not JSON objects
  (where `section.get` raises) are not modelled.
- Sources.GoogleSearch: a field of an item that holds a non-string JSON
  value is not modelled; only a missing field and a non-object item are.
- Sources.WikipediaSearch: opensearch candidates are modelled as strings
  only. In the source `quote_plus(title)` runs outside the per-title
  `try`, so a candidate that is a number or `null` raises into the outer
  handler and ends the walk with the records collected so far. The model
  does not promise that stop; with string candidates it always reaches the
  last one.
- Sources.WikipediaStep: a summary whose `extract` is JSON `null` gets the
  snippet `""` in the model. The source stores `None`.
- Researcher.Process: does not model the failure that a `None` snippet
  (see the Sources.WikipediaStep line above) causes when more than ten
  unique records are ranked. Building the ranking prompt slices the
  snippet with `[:200]` outside any handler, so the source's research
  stage raises there, while the model's succeeds.
- Planner.PlanVisualizations: a section whose `title` is JSON `null` is
  treated as a missing title and fails with `MissingKey("title")`. In the
  source the outline text formats it as `None` and the step succeeds.
- Planner.ContentDistribution: a section whose `title` is JSON `null` is
  treated as a missing title and fails with `MissingKey("title")`. In the
  source the breakdown is keyed by `None` and the planning stage succeeds.

=== FILE: batch.dfy ===
/** The pure parts of the batch script: the directory name derived from a
    topic, reading the topic list, the per-topic outcome, and the summary
    that splits outcomes into successes and failures. */
module Batch {
  import opened Wrappers
  import opened Text
  import opened Seqs

  /** Longest directory name derived from a topic. */
  const MaxSafeTopicLength := 50

  /** Characters a topic keeps: letters, digits, space, '-' and '_'. */
  predicate SafeChar(c: char) {
    IsAlnum(c) || c == ' ' || c == '-' || c == '_'
  }

  /** Characters of a finished directory name. */
  predicate NameChar(c: char) {
    IsAlnum(c) || c == '-' || c == '_'
  }

  /** The sanitised topic: unsafe characters dropped, trailing spaces
      stripped, the remaining spaces turned into '_', cut to 50. */
  function SafeTopic(topic: string): (r: string)
    ensures |r| <= MaxSafeTopicLength
    ensures forall c <- r :: NameChar(c)
  {
    var kept := RStrip(Filter(topic, SafeChar));
    var named := ReplaceChar(kept, ' ', '_');
    assert forall i | 0 <= i < |named| :: NameChar(named[i]) by {
      forall i | 0 <= i < |named| ensures NameChar(named[i]) {
        assert kept[i] == Filter(topic, SafeChar)[i];
        assert kept[i] in Filter(topic, SafeChar);
      }
    }
    Take(named, MaxSafeTopicLength)
  }

  /** A string of name characters has no trailing whitespace. */
  lemma NamesAreStripped(s: string)
    requires forall c <- s :: NameChar(c)
    ensures RStrip(s) == s
  {
    assert |s| > 0 ==> s[|s| - 1] in s;
  }

  /** A topic of at most 50 name characters is its own directory name. */
  lemma SafeTopicOfName(topic: string)
    requires |topic| <= MaxSafeTopicLength
    requires forall c <- topic :: NameChar(c)
    ensures SafeTopic(topic) == topic
  {
    assert Filter(topic, SafeChar) == topic by {
      assert forall c <- topic :: SafeChar(c);
      FilterKeepsAll(topic, SafeChar);
    }
    assert RStrip(topic) == topic by {
      NamesAreStripped(topic);
    }
    assert ' ' !in topic by {
      assert !NameChar(' ');
    }
    ReplaceAbsent(topic, ' ', '_');
    assert Take(topic, MaxSafeTopicLength) == topic;
  }

  /** An unsafe character is dropped wherever it stands, so it cannot
      change the name. */
  lemma SafeTopicDropsUnsafe(a: string, c: char, b: string)
    requires !SafeChar(c)
    ensures SafeTopic(a + [c] + b) == SafeTopic(a + b)
  {
    assert Filter(a + [c], SafeChar) == Filter(a, SafeChar) by {
      FilterSnoc(a, c, SafeChar);
    }
    assert Filter(a + [c] + b, SafeChar) == Filter(a + b, SafeChar) by {
      FilterAppend(a + [c], b, SafeChar);
      FilterAppend(a, b, SafeChar);
    }
  }

  /** Sanitising a sanitised topic changes nothing. */
  lemma SafeTopicIdempotent(topic: string)
    ensures SafeTopic(SafeTopic(topic)) == SafeTopic(topic)
  {
    var r := SafeTopic(topic);
    FilterKeepsAll(r, SafeChar);
    NamesAreStripped(r);
    assert ReplaceChar(r, ' ', '_') == r;
  }

  /** A trailing space is stripped before spaces become '_', so it leaves
      no trailing '_'. */
  lemma SafeTopicTrailingSpace(topic: string)
    ensures SafeTopic(topic + " ") == SafeTopic(topic)
  {
    FilterSnoc(topic, ' ', SafeChar);
    var f := Filter(topic, SafeChar);
    assert (f + " ")[..|f|] == f;
  }

  /** Without truncation, a '_' at the end of the name was a '_' of the
      topic, never a space. */
  lemma SafeTopicEnd(topic: string)
    requires |RStrip(Filter(topic, SafeChar))| <= MaxSafeTopicLength
    requires |SafeTopic(topic)| > 0
    ensures SafeTopic(topic)[|SafeTopic(topic)| - 1] == '_' ==> '_' in topic
  {
    var kept := RStrip(Filter(topic, SafeChar));
    var r := SafeTopic(topic);
    assert r == ReplaceChar(kept, ' ', '_');
    assert kept[|kept| - 1] == Filter(topic, SafeChar)[|kept| - 1];
    assert kept[|kept| - 1] in Filter(topic, SafeChar);
  }

  /** The output directory of a topic, `f"{output_base}/{safe_topic}"`:
      one directory directly below the base, whose name has no '/' and no
      '.', so it cannot leave the base. */
  function TopicOutput(base: string, topic: string): (p: string)
    ensures |p| == |base| + 1 + |SafeTopic(topic)|
    ensures p[..|base| + 1] == base + "/"
    ensures p[|base| + 1..] == SafeTopic(topic)
    ensures forall i | |base| + 1 <= i < |p| :: p[i] != '/' && p[i] != '.'
  {
    var name := SafeTopic(topic);
    var p := base + "/" + name;
    forall i | |base| + 1 <= i < |p| ensures p[i] != '/' && p[i] != '.' {
      assert p[i] == name[i - |base| - 1] && p[i] in name;
    }
    p
  }

  /** The topics of a topics file: its stripped, non-empty lines. The file
      is `None` when it does not exist; either that or an empty list makes
      the script end with status 1. */
  function LoadTopics(file: Option<seq<string>>): (r: Result<seq<string>, int>)
    ensures r.Failure? ==> r.error == 1
    ensures r.Success? <==> file.Some? && exists l <- file.value :: !AllSpace(l)
    ensures r.Success? ==> r.value == StrippedNonEmpty(file.value)
    ensures r.Success? ==> forall t <- r.value :: |t| > 0 && Strip(t) == t
  {
    if file.None? then Failure(1)
    else
      var topics := StrippedNonEmpty(file.value);
      NoTopics(file.value);
      if |topics| == 0 then Failure(1) else Success(topics)
  }

  /** There are no topics exactly when every line is blank. */
  lemma {:induction false} NoTopics(lines: seq<string>)
    ensures StrippedNonEmpty(lines) == [] <==> forall l <- lines :: AllSpace(l)
  {
    if |lines| > 0 {
      NoTopics(lines[1..]);
      assert forall l <- lines :: l == lines[0] || l in lines[1..];
    }
  }

  /** What the report pipeline gave for a topic: an exception, or a result
      dict with its `success` flag, optional `error`, and the report's
      word and chart counts. */
  datatype PipelineResult =
    | Raised(message: string)
    | Finished(success: bool, error: Option<string>, wordCount: nat, chartCount: nat)

  datatype TopicResult =
    | Succeeded(topic: string, outputPath: string, wordCount: nat, chartCount: nat)
    | Failed(topic: string, error: string)

  /** `process_topic`. `save` stands for saving the report into a
      directory: it gives the saved path, or the message of the exception
      it raised. */
  function ProcessTopic(topic: string, base: string, outcome: PipelineResult, save: string -> Result<string, string>): (r: TopicResult)
    ensures r.topic == topic
    ensures r.Succeeded? <==> outcome.Finished? && outcome.success && save(TopicOutput(base, topic)).Success?
    ensures r.Succeeded? ==> r.outputPath == save(TopicOutput(base, topic)).value && r.wordCount == outcome.wordCount && r.chartCount == outcome.chartCount
    ensures outcome.Raised? ==> r.error == outcome.message
    ensures outcome.Finished? && !outcome.success ==> r.error == outcome.error.GetOr("Unknown error")
    ensures outcome.Finished? && outcome.success && save(TopicOutput(base, topic)).Failure? ==>
      r.error == save(TopicOutput(base, topic)).error
  {
    match outcome
    case Raised(message) => Failed(topic, message)
    case Finished(success, error, words, charts) =>
      if !success then Failed(topic, error.GetOr("Unknown error"))
      else
        match save(TopicOutput(base, topic))
        case Success(path) => Succeeded(topic, path, words, charts)
        case Failure(message) => Failed(topic, message)
  }

  /** Every topic processed; results in topic order, whatever order the
      topics finished in. `outcome(i)` is what the pipeline gave for the
      i-th topic. */
  function RunBatch(topics: seq<string>, base: string, outcome: nat -> PipelineResult, save: string -> Result<string, string>): (r: seq<TopicResult>)
    ensures |r| == |topics|
    ensures forall i | 0 <= i < |r| :: r[i].topic == topics[i]
    ensures forall i | 0 <= i < |r| :: r[i] == ProcessTopic(topics[i], base, outcome(i), save)
  {
    var r := seq(|topics|, i requires 0 <= i < |topics| => ProcessTopic(topics[i], base, outcome(i), save));
    assert forall i | 0 <= i < |r| :: r[i] == ProcessTopic(topics[i], base, outcome(i), save);
    r
  }

  predicate IsSuccess(r: TopicResult) {
    r.Succeeded?
  }

  predicate IsFailure(r: TopicResult) {
    r.Failed?
  }

  function Successful(rs: seq<TopicResult>): seq<TopicResult> {
    Filter(rs, IsSuccess)
  }

  function FailedResults(rs: seq<TopicResult>): seq<TopicResult> {
    Filter(rs, IsFailure)
  }

  /** The successes and failures split the results: together they hold
      every result once, each part in the original order. */
  lemma {:induction false} SummaryPartitions(rs: seq<TopicResult>)
    ensures forall r <- Successful(rs) :: r.Succeeded?
    ensures forall r <- FailedResults(rs) :: r.Failed?
    ensures |Successful(rs)| + |FailedResults(rs)| == |rs|
    ensures multiset(Successful(rs)) + multiset(FailedResults(rs)) == multiset(rs)
  {
    if |rs| > 0 {
      SummaryPartitions(rs[1..]);
      HeadTail(rs);
    }
  }

  /** Summaries of consecutive batches concatenate. */
  lemma SummaryAppend(a: seq<TopicResult>, b: seq<TopicResult>)
    ensures Successful(a + b) == Successful(a) + Successful(b)
    ensures FailedResults(a + b) == FailedResults(a) + FailedResults(b)
  {
    FilterAppend(a, b, IsSuccess);
    FilterAppend(a, b, IsFailure);
  }

  /** The word count of a result; zero for a failure. */
  function Words(r: TopicResult): nat {
    if r.Succeeded? then r.wordCount else 0
  }

  /** The chart count of a result; zero for a failure. */
  function Charts(r: TopicResult): nat {
    if r.Succeeded? then r.chartCount else 0
  }

  function SumOver(rs: seq<TopicResult>, f: TopicResult -> nat): (n: nat)
    ensures (forall r <- rs :: f(r) == 0) ==> n == 0
  {
    if |rs| == 0 then 0 else f(rs[0]) + SumOver(rs[1..], f)
  }

  /** `sum(r['word_count'] for r in successful)`. */
  function TotalWords(rs: seq<TopicResult>): nat {
    SumOver(Successful(rs), Words)
  }

  /** `sum(r['chart_count'] for r in successful)`. */
  function TotalCharts(rs: seq<TopicResult>): nat {
    SumOver(Successful(rs), Charts)
  }

  /** Summing over the successes equals summing over every result when a
      failure contributes nothing. */
  lemma {:induction false} SumOverSuccesses(rs: seq<TopicResult>, f: TopicResult -> nat)
    requires forall r <- rs :: r.Failed? ==> f(r) == 0
    ensures SumOver(Successful(rs), f) == SumOver(rs, f)
  {
    if |rs| > 0 {
      SumOverSuccesses(rs[1..], f);
      HeadTail(rs);
    }
  }

  /** The totals count every result, with failures adding nothing. */
  lemma TotalsOverAll(rs: seq<TopicResult>)
    ensures TotalWords(rs) == SumOver(rs, Words)
    ensures TotalCharts(rs) == SumOver(rs, Charts)
  {
    SumOverSuccesses(rs, Words);
    SumOverSuccesses(rs, Charts);
  }
}

=== FILE: collect.dfy ===
/** The error policy shared by the search adapters: each adapter walks the
    items of a response, appending a record per usable item, and wraps the
    whole walk in one `try`/`except Exception` that returns the list built
    so far. Each item therefore either contributes a record, is skipped, or
    raises, and a raise ends the walk without losing what was collected. */
module Collect {
  import opened Seqs

  datatype Step<T> = Skip | Emit(value: T) | Raise

  /** The records every item would contribute if nothing raised (a raising
      item contributes nothing and the walk carries on). */
  function Emits<T>(steps: seq<Step<T>>): (r: seq<T>)
    ensures |r| <= |steps|
  {
    if |steps| == 0 then []
    else (if steps[0].Emit? then [steps[0].value] else []) + Emits(steps[1..])
  }

  /** Index of the first raising item, or the number of items if none raises. */
  function FirstRaise<T>(steps: seq<Step<T>>): (k: nat)
    ensures k <= |steps|
    ensures forall i | 0 <= i < k :: !steps[i].Raise?
    ensures k < |steps| ==> steps[k].Raise?
  {
    if |steps| == 0 || steps[0].Raise? then 0 else 1 + FirstRaise(steps[1..])
  }

  /** The walk under the `try`: records are appended in item order and the
      first raise returns the list collected so far. */
  function Run<T>(steps: seq<Step<T>>): seq<T> {
    if |steps| == 0 || steps[0].Raise? then []
    else (if steps[0].Emit? then [steps[0].value] else []) + Run(steps[1..])
  }

  lemma {:induction false} EmitsAppend<T>(a: seq<Step<T>>, b: seq<Step<T>>)
    ensures Emits(a + b) == Emits(a) + Emits(b)
  {
    if |a| == 0 {
      assert a + b == b;
    } else {
      var head := if a[0].Emit? then [a[0].value] else [];
      assert (a + b)[0] == a[0];
      assert (a + b)[1..] == a[1..] + b;
      assert Emits(a + b) == head + Emits(a[1..] + b);
      EmitsAppend(a[1..], b);
      assert Emits(a) == head + Emits(a[1..]);
    }
  }

  /** The walk returns exactly the records of the items before the first
      raise. */
  lemma {:induction false} RunIsEmitsBeforeRaise<T>(steps: seq<Step<T>>)
    ensures Run(steps) == Emits(steps[..FirstRaise(steps)])
  {
    if |steps| > 0 && !steps[0].Raise? {
      RunIsEmitsBeforeRaise(steps[1..]);
      assert steps[..FirstRaise(steps)][1..] == steps[1..][..FirstRaise(steps[1..])];
    }
  }

  /** Whatever the walk returns is a prefix of the records the whole
      response would give. */
  lemma RunIsPrefixOfEmits<T>(steps: seq<Step<T>>)
    ensures Run(steps) <= Emits(steps)
  {
    var k := FirstRaise(steps);
    RunIsEmitsBeforeRaise(steps);
    assert steps == steps[..k] + steps[k..];
    EmitsAppend(steps[..k], steps[k..]);
  }

  /** With no raising item the walk returns every record. */
  lemma {:induction false} RunWithoutRaise<T>(steps: seq<Step<T>>)
    requires forall i | 0 <= i < |steps| :: !steps[i].Raise?
    ensures Run(steps) == Emits(steps)
  {
    if |steps| > 0 {
      RunWithoutRaise(steps[1..]);
    }
  }

  /** Items before a raise-free stretch are walked completely. */
  lemma {:induction false} RunAppend<T>(a: seq<Step<T>>, b: seq<Step<T>>)
    requires forall i | 0 <= i < |a| :: !a[i].Raise?
    ensures Run(a + b) == Emits(a) + Run(b)
  {
    if |a| == 0 {
      assert a + b == b;
    } else {
      var head := if a[0].Emit? then [a[0].value] else [];
      assert (a + b)[0] == a[0];
      assert (a + b)[1..] == a[1..] + b;
      assert Run(a + b) == head + Run(a[1..] + b);
      RunAppend(a[1..], b);
    }
  }

  /** When no item is skipped, the i-th record comes from the i-th item and
      the walk stops exactly at the first raise. */
  lemma {:induction false} RunWithoutSkip<T>(steps: seq<Step<T>>)
    requires forall i | 0 <= i < |steps| :: !steps[i].Skip?
    ensures |Run(steps)| == FirstRaise(steps)
    ensures forall i | 0 <= i < |Run(steps)| :: steps[i].Emit? && Run(steps)[i] == steps[i].value
  {
    if |steps| > 0 && steps[0].Emit? {
      RunWithoutSkip(steps[1..]);
    }
  }

  /** An item whose step is a skip can be dropped from any walk. */
  lemma RunSkipsItem<A, T>(before: seq<A>, e: A, after: seq<A>, f: A -> Step<T>)
    requires f(e) == Skip
    ensures Run(Map(before + [e] + after, f)) == Run(Map(before + after, f))
  {
    var a := Map(before, f);
    var b := Map(after, f);
    assert Map(before + [e] + after, f) == a + ([Skip] + b) by {
      MapAppend(before, [e] + after, f);
      MapAppend([e], after, f);
      assert before + [e] + after == before + ([e] + after);
    }
    assert Map(before + after, f) == a + b by {
      MapAppend(before, after, f);
    }
    RunPrefixSkip(a, b);
  }

  /** A skipped step changes nothing, whatever precedes it. */
  lemma {:induction false} RunPrefixSkip<T>(a: seq<Step<T>>, b: seq<Step<T>>)
    ensures Run(a + ([Skip] + b)) == Run(a + b)
  {
    if |a| == 0 {
      assert a + ([Skip] + b) == [Skip] + b;
      assert ([Skip] + b)[1..] == b;
      assert a + b == b;
    } else {
      assert (a + ([Skip] + b))[1..] == a[1..] + ([Skip] + b);
      assert (a + b)[1..] == a[1..] + b;
      assert (a + ([Skip] + b))[0] == a[0] && (a + b)[0] == a[0];
      RunPrefixSkip(a[1..], b);
    }
  }

  /** The positions of the items that contribute a record, in increasing
      order: every contributing item appears, and nothing else. */
  function EmitPositions<T>(steps: seq<Step<T>>): (ks: seq<nat>)
    ensures forall i | 0 <= i < |ks| :: ks[i] < |steps| && steps[ks[i]].Emit?
    ensures forall i, j | 0 <= i < j < |ks| :: ks[i] < ks[j]
    ensures forall k | 0 <= k < |steps| && steps[k].Emit? :: k in ks
    decreases |steps|
  {
    if |steps| == 0 then []
    else
      var n := |steps| - 1;
      var init := EmitPositions(steps[..n]);
      assert forall i | 0 <= i < |init| :: init[i] < n && steps[init[i]] == steps[..n][init[i]];
      assert forall k | 0 <= k < n :: steps[k] == steps[..n][k];
      init + (if steps[n].Emit? then [n] else [])
  }

  /** The `i`-th record of the items comes from the `i`-th contributing
      item. */
  lemma {:induction false} EmitsAtPositions<T>(steps: seq<Step<T>>)
    ensures |Emits(steps)| == |EmitPositions(steps)|
    ensures forall i | 0 <= i < |Emits(steps)| :: Emits(steps)[i] == steps[EmitPositions(steps)[i]].value
    decreases |steps|
  {
    if |steps| > 0 {
      var n := |steps| - 1;
      var a := steps[..n];
      InitLast(steps);
      EmitsAppend(a, [steps[n]]);
      assert Emits([steps[n]]) == (if steps[n].Emit? then [steps[n].value] else []) by {
        assert [steps[n]][1..] == [];
      }
      EmitsAtPositions(a);
      assert forall k | 0 <= k < n :: steps[k] == a[k];
    }
  }
}

=== FILE: example_pipeline.dfy ===
/** The self-contained example pipeline: the same mock research and
    planning agents in a second version, and the pipeline that chains
    them. It differs from the first version in the wording of the mock
    results, in matching keywords per result and case-insensitively while
    keeping their original case, and in a case-sensitive chart test. */
module ExamplePipeline {
  import opened Text
  import opened Seqs
  import opened SortedSet
  import opened OrderedMap
  import LegacyAgents

  /** `research_topic`: the canned "about" results of google, arxiv and
      wikipedia, as a sorted distinct list. */
  function ResearchTopic(topic: string): (r: seq<string>)
    ensures StrictlySorted(r)
    ensures |r| == 6
    ensures forall e <- LegacyAgents.Engines :: LegacyAgents.ResultLine(e, '1', "about", topic) in r
    ensures forall e <- LegacyAgents.Engines :: LegacyAgents.ResultLine(e, '2', "about", topic) in r
    ensures forall x <- r :: x in LegacyAgents.SearchEngines(LegacyAgents.Engines, "about", topic)
  {
    var raw := LegacyAgents.SearchEngines(LegacyAgents.Engines, "about", topic);
    LegacyAgents.MockResultsDistinct("about", topic);
    assert forall i | 0 <= i < |LegacyAgents.Engines| :: raw[2 * i] in raw && raw[2 * i + 1] in raw;
    SortedDistinct(raw)
  }

  /** The theme keywords of this version, already in display case. */
  const Keywords: seq<string> := ["AI", "Healthcare", "Medical Imaging", "Ethics", "Predictive Analytics"]

  /** Some single result contains the keyword, ignoring case. */
  predicate Mentions(data: seq<string>, kw: string) {
    exists r <- data :: Contains(Lower(r), Lower(kw))
  }

  lemma KeywordsDistinct()
    ensures Distinct(Keywords)
    ensures LegacyAgents.FallbackTheme !in Keywords
  {
    forall i, j | 0 <= i < j < |Keywords| ensures Keywords[i] != Keywords[j] {
      assert Keywords[i][0] != Keywords[j][0];
    }
    forall kw <- Keywords ensures kw != LegacyAgents.FallbackTheme {
      assert kw[0] != LegacyAgents.FallbackTheme[0];
    }
  }

  /** The keyword test of this version. */
  function MentionedIn(data: seq<string>): string -> bool {
    kw => Mentions(data, kw)
  }

  /** `identify_themes`: the keywords some result mentions, in list order
      and original case, or the single fallback theme. */
  function IdentifyThemes(data: seq<string>): (r: seq<string>)
    ensures |r| > 0 && Distinct(r)
    ensures forall kw <- Keywords :: kw in r <==> Mentions(data, kw)
    ensures forall t <- r :: t in Keywords || t == LegacyAgents.FallbackTheme
    ensures r == [LegacyAgents.FallbackTheme] <==> forall kw <- Keywords :: !Mentions(data, kw)
    ensures r != [LegacyAgents.FallbackTheme] ==> r == MentionedKeywords(Keywords, data)
  {
    var found := MentionedKeywords(Keywords, data);
    KeywordsDistinct();
    if |found| == 0 then [LegacyAgents.FallbackTheme]
    else
      assert found[0] in found;
      found
  }

  /** The keywords of `kws` some result mentions, in list order. */
  function MentionedKeywords(kws: seq<string>, data: seq<string>): (r: seq<string>)
    ensures forall kw <- kws :: kw in r <==> Mentions(data, kw)
    ensures forall t <- r :: t in kws
    ensures Distinct(kws) ==> Distinct(r)
    ensures var ks := FilterPositions(kws, MentionedIn(data));
      |r| == |ks| && forall i | 0 <= i < |r| :: r[i] == kws[ks[i]]
  {
    FilterAtPositions(kws, MentionedIn(data));
    Filter(kws, MentionedIn(data))
  }

  /** The chart test of this version: "Analysis" in the section as
      written. */
  predicate MentionsAnalysis(section: string) {
    Contains(section, "Analysis")
  }

  /** `plan_visualizations`. */
  function PlanVisualizations(sections: seq<string>): (r: Dict<string, string>)
    ensures forall s :: Get(r, s).Some? <==> s in sections && MentionsAnalysis(s)
    ensures forall s :: Get(r, s).Some? ==> Get(r, s).value == LegacyAgents.ChartFile(s)
  {
    LegacyAgents.Placements(sections, MentionsAnalysis)
  }

  /** `create_report_outline`. */
  function CreateReportOutline(data: seq<string>): (o: LegacyAgents.ReportOutline)
    ensures |o.sections| == |IdentifyThemes(data)| + 2
    ensures o.sections == LegacyAgents.Outline(IdentifyThemes(data))
    ensures o.visualizations == PlanVisualizations(o.sections)
  {
    var sections := LegacyAgents.Outline(IdentifyThemes(data));
    LegacyAgents.ReportOutline(sections, PlanVisualizations(sections))
  }

  /** Every theme gets exactly one chart, under its analysis section. */
  lemma OneChartPerTheme(data: seq<string>)
    ensures Keys(CreateReportOutline(data).visualizations) == LegacyAgents.AnalysisSections(IdentifyThemes(data))
    ensures |Keys(CreateReportOutline(data).visualizations)| == |IdentifyThemes(data)|
  {
    var themes := IdentifyThemes(data);
    NoAnalysisInFrame();
    forall s <- LegacyAgents.AnalysisSections(themes) ensures MentionsAnalysis(s) {
      var i :| 0 <= i < |themes| && s == LegacyAgents.AnalysisSections(themes)[i];
      AnalysisMentioned(themes[i]);
    }
    LegacyAgents.OutlinePlacements(themes, MentionsAnalysis);
  }

  lemma NoAnalysisInFrame()
    ensures !MentionsAnalysis("Introduction") && !MentionsAnalysis("Conclusions")
  {
    NotContainsByFirstChar("Introduction", "Analysis");
    NotContainsByFirstChar("Conclusions", "Analysis");
  }

  lemma AnalysisMentioned(theme: string)
    ensures MentionsAnalysis("Analysis of " + theme)
  {
    assert "Analysis of " + theme == "Analysis" + (" of " + theme);
    ContainsPrefix("Analysis", " of " + theme);
  }

  datatype Report = Report(topic: string, researchData: seq<string>, outline: LegacyAgents.ReportOutline)

  /** `generate_report`: research, then plan; the topic is passed through
      unchanged. */
  function GenerateReport(topic: string): (r: Report)
    ensures r.topic == topic
    ensures r.researchData == ResearchTopic(topic) && |r.researchData| == 6
    ensures r.outline == CreateReportOutline(r.researchData)
    ensures Keys(r.outline.visualizations) == LegacyAgents.AnalysisSections(IdentifyThemes(r.researchData))
  {
    var data := ResearchTopic(topic);
    OneChartPerTheme(data);
    Report(topic, data, CreateReportOutline(data))
  }

  /** Every keyword the topic itself contains (ignoring case) becomes a
      theme, because each mock result ends with the topic. */
  lemma TopicKeywordsBecomeThemes(topic: string, kw: string)
    requires kw in Keywords
    requires Contains(Lower(topic), Lower(kw))
    ensures kw in IdentifyThemes(GenerateReport(topic).researchData)
  {
    var data := ResearchTopic(topic);
    var line := LegacyAgents.ResultLine("google", '1', "about", topic);
    assert "google" in LegacyAgents.Engines;
    assert line in data;
    var prefix := line[..|line| - |topic|];
    assert line == prefix + topic by {
      assert line == "google" + " result " + ['1'] + " " + "about" + " " + topic;
    }
    LowerAppend(prefix, topic);
    ContainsInRight(Lower(prefix), Lower(topic), Lower(kw));
    assert Mentions(data, kw);
  }

  /** A keyword split over two results is not found: each result is
      matched on its own (compare `LegacyAgents.MatchAcrossResults`). */
  lemma NoMatchAcrossResults()
    ensures "Medical Imaging" !in IdentifyThemes(["medical", "imaging"])
  {
    var data := ["medical", "imaging"];
    assert Lower("Medical Imaging") == "medical imaging";
    forall r <- data ensures !Contains(Lower(r), Lower("Medical Imaging")) {
      ShorterNotContains(Lower(r), Lower("Medical Imaging"));
    }
  }

  /** The first version tests the lower-cased section for "analysis", this
      one the section as written for "Analysis". */
  lemma ChartTestIsCaseSensitive()
    ensures Get(LegacyAgents.PlanVisualizations(["data analysis"]), "data analysis").Some?
    ensures Get(PlanVisualizations(["data analysis"]), "data analysis").None?
  {
    assert Lower("data analysis") == "data analysis";
    ContainsAt("data analysis", "analysis", 5);
    NotContainsByFirstChar("data analysis", "Analysis");
  }
}

=== FILE: generator.dfy ===
/** The report helpers of `src/agents/generator.py`: keyword scoring of
    charts against a section, the choice of the two most relevant charts,
    the markers that count as a chart reference, word and reference counts,
    the reading-time estimate, the table-of-contents lines, and the
    assembly of the generated sections. Section texts come from the
    language model and the final page from a template; both are inputs. */
module Generator {
  import opened Wrappers
  import opened Text
  import opened Seqs
  import opened StableSort
  import opened OrderedMap
  import Planner

  /** A chart description as a JSON object; `relevanceScore` is the key the
      relevance search writes. */
  datatype Chart = Chart(
    section: Option<string>,
    title: Option<string>,
    description: Option<string>,
    filePath: Option<string>,
    relevanceScore: Option<int>)

  /** Keywords of at most this length never score. */
  const ShortKeyword := 3
  const MaxRelevantCharts := 2
  const WordsPerMinute := 200
  /** What `_count_chart_references` counts. */
  const ReferencePrefix := "[See Chart:"

  // ---------------------------------------------------------------------
  // Relevance

  /** `section_title.lower().split() + section_description.lower().split()`. */
  function SectionKeywords(title: string, description: string): (ks: seq<string>)
    ensures forall k <- ks :: IsWord(k)
    ensures |ks| == |Words(Lower(title))| + |Words(Lower(description))|
    ensures ks[..|Words(Lower(title))|] == Words(Lower(title))
    ensures ks[|Words(Lower(title))|..] == Words(Lower(description))
  {
    Words(Lower(title)) + Words(Lower(description))
  }

  /** One keyword's contribution: the title beats the description beats
      the section; short keywords count for nothing. */
  function KeywordScore(keyword: string, c: Chart): (n: nat)
    ensures n <= 3
    ensures n > 0 <==> (|keyword| > ShortKeyword &&
      (Contains(Lower(c.title.GetOr("")), keyword) || Contains(Lower(c.description.GetOr("")), keyword)
        || Contains(Lower(c.section.GetOr("")), keyword)))
    ensures n == 3 <==> |keyword| > ShortKeyword && Contains(Lower(c.title.GetOr("")), keyword)
    ensures n == 2 <==> (|keyword| > ShortKeyword && !Contains(Lower(c.title.GetOr("")), keyword)
      && Contains(Lower(c.description.GetOr("")), keyword))
    ensures n == 1 <==> (|keyword| > ShortKeyword && !Contains(Lower(c.title.GetOr("")), keyword)
      && !Contains(Lower(c.description.GetOr("")), keyword) && Contains(Lower(c.section.GetOr("")), keyword))
  {
    if |keyword| <= ShortKeyword then 0
    else if Contains(Lower(c.title.GetOr("")), keyword) then 3
    else if Contains(Lower(c.description.GetOr("")), keyword) then 2
    else if Contains(Lower(c.section.GetOr("")), keyword) then 1
    else 0
  }

  /** The chart's relevance: the sum over all keywords, repeats included. */
  function RelevanceScore(keywords: seq<string>, c: Chart): (n: nat)
    ensures n <= 3 * |keywords|
    ensures n > 0 <==> exists i | 0 <= i < |keywords| :: KeywordScore(keywords[i], c) > 0
    ensures |keywords| == 1 ==> n == KeywordScore(keywords[0], c)
  {
    if |keywords| == 0 then 0
    else
      var rest := RelevanceScore(keywords[1..], c);
      assert rest > 0 <==> exists i | 1 <= i < |keywords| :: KeywordScore(keywords[i], c) > 0 by {
        if rest > 0 {
          var i :| 0 <= i < |keywords[1..]| && KeywordScore(keywords[1..][i], c) > 0;
          assert keywords[1..][i] == keywords[i + 1];
        }
        if exists i | 1 <= i < |keywords| :: KeywordScore(keywords[i], c) > 0 {
          var i :| 1 <= i < |keywords| && KeywordScore(keywords[i], c) > 0;
          assert keywords[1..][i - 1] == keywords[i];
        }
      }
      KeywordScore(keywords[0], c) + rest
  }

  /** The score of a keyword list is the score of its first part plus that
      of the rest: with the one-keyword case, the sum of the keyword
      scores. */
  lemma {:induction false} RelevanceScoreAppend(a: seq<string>, b: seq<string>, c: Chart)
    ensures RelevanceScore(a + b, c) == RelevanceScore(a, c) + RelevanceScore(b, c)
  {
    if |a| == 0 {
      assert a + b == b;
    } else {
      assert (a + b)[0] == a[0];
      assert (a + b)[1..] == a[1..] + b;
      RelevanceScoreAppend(a[1..], b, c);
    }
  }

  function WithScore(c: Chart, score: int): Chart {
    c.(relevanceScore := Some(score))
  }

  /** `c` is chart `x` carrying its positive score. */
  predicate ScoredFrom(keywords: seq<string>, x: Chart, c: Chart) {
    RelevanceScore(keywords, x) > 0 && c == WithScore(x, RelevanceScore(keywords, x))
  }

  /** The charts with a positive score, in input order, each carrying its
      score. */
  function ScoredCharts(keywords: seq<string>, charts: seq<Chart>): (r: seq<Chart>)
    ensures |r| <= |charts|
    ensures forall c <- r :: c.relevanceScore.Some? && c.relevanceScore.value > 0
    ensures forall c <- r :: exists x <- charts :: ScoredFrom(keywords, x, c)
    ensures forall x <- charts :: RelevanceScore(keywords, x) > 0 ==> WithScore(x, RelevanceScore(keywords, x)) in r
  {
    if |charts| == 0 then []
    else
      var s := RelevanceScore(keywords, charts[0]);
      var rest := ScoredCharts(keywords, charts[1..]);
      HeadTailMembers(charts);
      if s > 0 then
        assert ScoredFrom(keywords, charts[0], WithScore(charts[0], s));
        [WithScore(charts[0], s)] + rest
      else rest
  }

  /** The charts the relevance search keeps. */
  function Positive(keywords: seq<string>): Chart -> bool {
    x => RelevanceScore(keywords, x) > 0
  }

  /** A chart with its relevance score written in. */
  function Scored(keywords: seq<string>): Chart -> Chart {
    x => WithScore(x, RelevanceScore(keywords, x))
  }

  /** The scored charts are the positively scoring charts, in input order,
      one entry per chart, each with its score written in. */
  lemma {:induction false} ScoredChartsInOrder(keywords: seq<string>, charts: seq<Chart>)
    ensures ScoredCharts(keywords, charts) == Map(Filter(charts, Positive(keywords)), Scored(keywords))
  {
    if |charts| > 0 {
      ScoredChartsInOrder(keywords, charts[1..]);
      var kept := Filter(charts[1..], Positive(keywords));
      if Positive(keywords)(charts[0]) {
        MapCons(charts[0], kept, Scored(keywords));
      }
    }
  }

  /** The sort key `x.get('relevance_score', 0)`. */
  function ChartKey(c: Chart): real {
    c.relevanceScore.GetOr(0) as real
  }

  /** `_find_relevant_charts`: score every chart, keep the positive ones,
      sort by score descending (stable) and return the first two. */
  function FindRelevantCharts(title: string, description: string, charts: seq<Chart>): (r: seq<Chart>)
    ensures |r| <= MaxRelevantCharts
    ensures SortedDesc(r, ChartKey)
    ensures forall c <- r :: c.relevanceScore.Some? && c.relevanceScore.value > 0
    ensures forall c <- r :: c in ScoredCharts(SectionKeywords(title, description), charts)
    ensures |r| == Min(MaxRelevantCharts, |ScoredCharts(SectionKeywords(title, description), charts)|)
    ensures r == Take(Sort(ScoredCharts(SectionKeywords(title, description), charts), ChartKey), MaxRelevantCharts)
  {
    var scored := ScoredCharts(SectionKeywords(title, description), charts);
    var sorted := Sort(scored, ChartKey);
    SortPrefix(scored, ChartKey, MaxRelevantCharts);
    Take(sorted, MaxRelevantCharts)
  }

  /** The top-scoring chart is always among those returned. */
  lemma RelevantChartsHaveTopScore(title: string, description: string, charts: seq<Chart>, c: Chart)
    requires c in ScoredCharts(SectionKeywords(title, description), charts)
    ensures |FindRelevantCharts(title, description, charts)| > 0
    ensures ChartKey(FindRelevantCharts(title, description, charts)[0]) >= ChartKey(c)
  {
    var scored := ScoredCharts(SectionKeywords(title, description), charts);
    var i :| 0 <= i < |scored| && scored[i] == c;
    SortHeadIsMax(scored, ChartKey, i);
  }

  /** No scored chart left out outscores one that is returned. */
  lemma RelevantChartsAreTop(title: string, description: string, charts: seq<Chart>, c: Chart, j: nat)
    requires c in ScoredCharts(SectionKeywords(title, description), charts)
    requires j < |FindRelevantCharts(title, description, charts)|
    requires ChartKey(c) > ChartKey(FindRelevantCharts(title, description, charts)[j])
    ensures c in FindRelevantCharts(title, description, charts)
  {
    var scored := ScoredCharts(SectionKeywords(title, description), charts);
    SortTopKept(scored, ChartKey, MaxRelevantCharts, c, j);
  }

  /** Among the returned charts, those with equal scores are the first
      ones of the scored charts with that score, in input order. */
  lemma RelevantChartsTiesInInputOrder(title: string, description: string, charts: seq<Chart>, v: real)
    ensures var scored := ScoredCharts(SectionKeywords(title, description), charts);
      WithKey(FindRelevantCharts(title, description, charts), ChartKey, v) <= WithKey(scored, ChartKey, v)
  {
    var scored := ScoredCharts(SectionKeywords(title, description), charts);
    SortIsStable(scored, ChartKey, v);
    WithKeyTake(Sort(scored, ChartKey), ChartKey, v, MaxRelevantCharts);
  }

  /** A chart scores only through a keyword longer than three characters
      that occurs in its lowercased title, description or section. */
  lemma ScoreNeedsLongKeyword(keywords: seq<string>, c: Chart)
    requires RelevanceScore(keywords, c) > 0
    ensures exists i | 0 <= i < |keywords| :: |keywords[i]| > ShortKeyword
  {
    var i :| 0 <= i < |keywords| && KeywordScore(keywords[i], c) > 0;
  }

  // ---------------------------------------------------------------------
  // References and counts

  /** The marker the writing prompt asks for. */
  function Marker(title: string): string {
    "[See Chart: " + title + "]"
  }

  predicate Unreferenced(c: Chart, content: string) {
    c.title.GetOr("") != "" && !Contains(content, Marker(c.title.GetOr("")))
  }

  /** `_find_unreferenced_charts`: exactly the titled charts whose marker the
      content lacks, in input order. */
  function UnreferencedCharts(charts: seq<Chart>, content: string): (r: seq<Chart>)
    ensures |r| <= |charts|
    ensures forall c <- r :: c in charts && Unreferenced(c, content)
    ensures forall c <- charts :: Unreferenced(c, content) ==> c in r
  {
    if |charts| == 0 then []
    else
      var rest := UnreferencedCharts(charts[1..], content);
      assert forall c <- charts :: c == charts[0] || c in charts[1..];
      if Unreferenced(charts[0], content) then [charts[0]] + rest else rest
  }

  lemma {:induction false} UnreferencedAppend(a: seq<Chart>, b: seq<Chart>, content: string)
    ensures UnreferencedCharts(a + b, content) == UnreferencedCharts(a, content) + UnreferencedCharts(b, content)
  {
    if |a| == 0 {
      assert a + b == b;
    } else {
      assert (a + b)[1..] == a[1..] + b;
      UnreferencedAppend(a[1..], b, content);
    }
  }

  /** `_count_words`: the number of whitespace-separated tokens. */
  function CountWords(text: string): (n: nat)
    ensures n == 0 <==> AllSpace(text)
  {
    |Words(text)|
  }

  /** Counting the words of space-joined words gives their number. */
  lemma CountWordsOfJoin(ws: seq<string>)
    requires forall w <- ws :: IsWord(w)
    ensures CountWords(JoinWords(ws)) == |ws|
  {
    WordsOfJoin(ws);
  }

  /** Word counts add up across a space: with `CountWordsOfJoin` this pins
      the count of every text. */
  lemma CountWordsAppend(a: string, b: string)
    ensures CountWords(a + " " + b) == CountWords(a) + CountWords(b)
  {
    assert a + " " + b == a + (" " + b);
    WordsAppend(a, " " + b);
    assert LStrip(" " + b) == LStrip(b) by {
      assert (" " + b)[1..] == b;
    }
    WordsOfLStrip(" " + b);
    WordsOfLStrip(b);
  }

  /** `_count_chart_references`: non-overlapping occurrences of the
      reference prefix. */
  function CountChartReferences(text: string): (n: nat)
    ensures n > 0 <==> Contains(text, ReferencePrefix)
    ensures n * |ReferencePrefix| <= |text|
  {
    CountPositive(text, ReferencePrefix);
    CountOccurrences(text, ReferencePrefix)
  }

  /** A text that references a chart has a positive reference count. */
  lemma MarkerIsCounted(text: string, title: string)
    requires Contains(text, Marker(title))
    ensures CountChartReferences(text) > 0
  {
    assert Marker(title) == ReferencePrefix + (" " + title + "]");
    ContainsPrefix(ReferencePrefix, " " + title + "]");
    ContainsTrans(text, Marker(title), ReferencePrefix);
  }

  /** A text that opens with the reference prefix counts one reference
      more than what follows the prefix. */
  lemma CountAfterPrefix(t: string)
    ensures CountChartReferences(ReferencePrefix + t) == 1 + CountChartReferences(t)
  {
    var s := ReferencePrefix + t;
    assert ReferencePrefix <= s;
    assert s[|ReferencePrefix|..] == t;
  }

  /** Reference counts add up across a point where a reference starts: the
      prefix's '[' occurs nowhere else in it, so no occurrence straddles
      that point. */
  lemma CountReferencesAppend(a: string, b: string)
    requires ReferencePrefix <= b
    ensures CountChartReferences(a + b) == CountChartReferences(a) + CountChartReferences(b)
  {
    CountAppend(a, b, ReferencePrefix);
  }

  /** `k` back-to-back reference prefixes count as `k` references. */
  lemma CountRepeatedReferences(k: nat)
    ensures CountChartReferences(Repeat(ReferencePrefix, k)) == k
  {
    CountOfRepeat(ReferencePrefix, k);
  }

  /** `max(1, words // 200)`. */
  function ReadingMinutes(words: nat): (m: nat)
    ensures m >= 1
    ensures words >= WordsPerMinute ==> m * WordsPerMinute <= words < (m + 1) * WordsPerMinute
    ensures words < 2 * WordsPerMinute ==> m == 1
  {
    if words / WordsPerMinute < 1 then 1 else words / WordsPerMinute
  }

  // ---------------------------------------------------------------------
  // Table of contents

  /** The link target of a section: lowercased, spaces turned into '-'. */
  function Anchor(title: string): (a: string)
    ensures |a| == |title|
    ensures forall i | 0 <= i < |title| :: a[i] == if title[i] == ' ' then '-' else ToLower(title[i])
    ensures ' ' !in a
    ensures forall i | 0 <= i < |a| :: !IsUpper(a[i])
  {
    ReplaceChar(Lower(title), ' ', '-')
  }

  lemma AnchorIdempotent(title: string)
    ensures Anchor(Anchor(title)) == Anchor(title)
  {
    var a := Anchor(title);
    assert forall i | 0 <= i < |a| :: Anchor(a)[i] == a[i];
  }

  /** The `i`-th table-of-contents line, numbered from one. */
  function TocLine(i: nat, title: string): string {
    DecimalString(i + 1) + ". [" + title + "](#" + Anchor(title) + ")"
  }

  /** The number at the head of a contents line reads back as its
      one-based position, and the title and anchor follow it. */
  lemma TocLineShape(i: nat, title: string)
    ensures var d := DecimalString(i + 1);
      && TocLine(i, title)[..|d|] == d
      && DecimalValue(d) == i + 1
      && TocLine(i, title)[|d|..] == ". [" + title + "](#" + Anchor(title) + ")"
  {
    var d := DecimalString(i + 1);
    var rest := ". [" + title + "](#" + Anchor(title) + ")";
    assert TocLine(i, title) == d + rest;
    assert (d + rest)[..|d|] == d;
    assert (d + rest)[|d|..] == rest;
    DecimalRoundTrip(i + 1);
  }

  // ---------------------------------------------------------------------
  // Sections and assembly

  datatype GenerationError = MissingKey(key: string) | LlmRequestFailed

  datatype GeneratedSection = GeneratedSection(
    title: string, content: string, charts: seq<Chart>, wordCount: nat, index: nat)

  /** `_generate_section` given the model's reply for it. */
  function GenerateSection(plan: Planner.Section, charts: seq<Chart>, reply: Option<string>, index: nat): (r: Result<GeneratedSection, GenerationError>)
    ensures r.Success? <==> plan.title.Some? && plan.description.Some? && reply.Some?
    ensures plan.title.None? ==> r == Failure(MissingKey("title"))
    ensures r.Success? ==> r.value.index == index && r.value.title == plan.title.value
    ensures plan.title.Some? && plan.description.None? ==> r == Failure(MissingKey("description"))
    ensures plan.title.Some? && plan.description.Some? && reply.None? ==> r == Failure(LlmRequestFailed)
    ensures r.Success? ==> r.value.content == reply.value
    ensures r.Success? ==> r.value.charts == FindRelevantCharts(plan.title.value, plan.description.value, charts)
    ensures r.Success? ==> |r.value.charts| <= MaxRelevantCharts && r.value.wordCount == CountWords(r.value.content)
  {
    if plan.title.None? then Failure(MissingKey("title"))
    else if plan.description.None? then Failure(MissingKey("description"))
    else if reply.None? then Failure(LlmRequestFailed)
    else
      var relevant := FindRelevantCharts(plan.title.value, plan.description.value, charts);
      Success(GeneratedSection(plan.title.value, reply.value, relevant, CountWords(reply.value), index))
  }

  /** The values of a list of results, or the first error among them. */
  function FirstError<T(==), E(==)>(rs: seq<Result<T, E>>): (r: Result<seq<T>, E>)
    ensures r.Success? <==> forall i | 0 <= i < |rs| :: rs[i].Success?
    ensures r.Success? ==> |r.value| == |rs| && forall i | 0 <= i < |rs| :: rs[i] == Success(r.value[i])
    ensures r.Failure? ==> exists i | 0 <= i < |rs| :: rs[i] == Failure(r.error) && forall j | 0 <= j < i :: rs[j].Success?
  {
    if |rs| == 0 then Success([])
    else if rs[0].Failure? then
      assert rs[0] == Failure(rs[0].error);
      Failure(rs[0].error)
    else
      var rest := FirstError(rs[1..]);
      if rest.Failure? then
        var i :| 0 <= i < |rs[1..]| && rs[1..][i] == Failure(rest.error) && forall j | 0 <= j < i :: rs[1..][j].Success?;
        assert rs[i + 1] == rs[1..][i];
        assert forall j | 1 <= j < i + 1 :: rs[j] == rs[1..][j - 1];
        Failure(rest.error)
      else
        assert forall i | 1 <= i < |rs| :: rs[i] == rs[1..][i - 1];
        Success([rs[0].value] + rest.value)
  }

  /** Every section in outline order; the first failing section ends the
      stage. */
  function GenerateSections(outline: seq<Planner.Section>, charts: seq<Chart>, write: nat -> Option<string>): (r: Result<seq<GeneratedSection>, GenerationError>)
    ensures r.Success? ==> |r.value| == |outline|
    ensures r.Success? <==> forall i | 0 <= i < |outline| :: GenerateSection(outline[i], charts, write(i), i).Success?
    ensures r.Success? ==> forall i | 0 <= i < |outline| :: GenerateSection(outline[i], charts, write(i), i) == Success(r.value[i])
    ensures r.Failure? ==> exists i | 0 <= i < |outline| ::
      (GenerateSection(outline[i], charts, write(i), i) == Failure(r.error) &&
       forall j | 0 <= j < i :: GenerateSection(outline[j], charts, write(j), j).Success?)
    ensures r.Success? ==> forall i | 0 <= i < |r.value| :: r.value[i].index == i
    ensures r.Success? ==> forall i | 0 <= i < |r.value| :: Some(r.value[i].title) == outline[i].title
  {
    var rs := SectionResults(outline, charts, write);
    var r := FirstError(rs);
    SectionsInOrder(outline, rs, r);
    SectionsOfResults(outline, charts, write, rs, r);
    r
  }

  /** The first error of the section results, read per outline entry. */
  lemma SectionsOfResults(outline: seq<Planner.Section>, charts: seq<Chart>, write: nat -> Option<string>,
                          rs: seq<Result<GeneratedSection, GenerationError>>, r: Result<seq<GeneratedSection>, GenerationError>)
    requires |rs| == |outline|
    requires forall i | 0 <= i < |outline| :: rs[i] == GenerateSection(outline[i], charts, write(i), i)
    requires r == FirstError(rs)
    ensures r.Success? <==> forall i | 0 <= i < |outline| :: GenerateSection(outline[i], charts, write(i), i).Success?
    ensures r.Success? ==> forall i | 0 <= i < |outline| :: GenerateSection(outline[i], charts, write(i), i) == Success(r.value[i])
    ensures r.Failure? ==> exists i | 0 <= i < |outline| ::
      (GenerateSection(outline[i], charts, write(i), i) == Failure(r.error) &&
       forall j | 0 <= j < i :: GenerateSection(outline[j], charts, write(j), j).Success?)
  {
  }

  function SectionResults(outline: seq<Planner.Section>, charts: seq<Chart>, write: nat -> Option<string>): (rs: seq<Result<GeneratedSection, GenerationError>>)
    ensures |rs| == |outline|
    ensures forall i | 0 <= i < |outline| :: rs[i] == GenerateSection(outline[i], charts, write(i), i)
    ensures forall i | 0 <= i < |outline| :: rs[i].Success? ==> rs[i].value.index == i && Some(rs[i].value.title) == outline[i].title
  {
    seq(|outline|, i requires 0 <= i < |outline| => GenerateSection(outline[i], charts, write(i), i))
  }

  lemma SectionsInOrder(outline: seq<Planner.Section>, rs: seq<Result<GeneratedSection, GenerationError>>, r: Result<seq<GeneratedSection>, GenerationError>)
    requires |rs| == |outline|
    requires forall i | 0 <= i < |outline| :: rs[i].Success? ==> rs[i].value.index == i && Some(rs[i].value.title) == outline[i].title
    requires r == FirstError(rs)
    ensures r.Success? ==> |r.value| == |outline|
    ensures r.Success? ==> forall i | 0 <= i < |r.value| :: r.value[i].index == i
    ensures r.Success? ==> forall i | 0 <= i < |r.value| :: Some(r.value[i].title) == outline[i].title
  {
    if r.Success? {
      forall i | 0 <= i < |r.value| ensures r.value[i].index == i && Some(r.value[i].title) == outline[i].title {
        assert rs[i] == Success(r.value[i]);
      }
    }
  }

  /** The image block of a chart: nothing without a file; with a file the
      title is required (indexing `chart['title']` raises). */
  function ChartBlock(c: Chart): (r: Result<string, GenerationError>)
    ensures r.Failure? <==> c.filePath.GetOr("") != "" && c.title.None?
    ensures r.Failure? ==> r.error == MissingKey("title")
    ensures c.filePath.GetOr("") == "" ==> r == Success("")
  {
    if c.filePath.GetOr("") == "" then Success("")
    else if c.title.None? then Failure(MissingKey("title"))
    else Success("![" + c.title.value + "](" + c.filePath.value + ")\n\n*" + c.description.GetOr("") + "*\n\n")
  }

  /** The image blocks of a section's charts in order; a chart with a file
      but no title raises. */
  function ChartBlocks(cs: seq<Chart>): (r: Result<string, GenerationError>)
    ensures r.Failure? <==> exists i | 0 <= i < |cs| :: ChartBlock(cs[i]).Failure?
    ensures r.Failure? ==> r.error == MissingKey("title")
  {
    if |cs| == 0 then Success("")
    else match ChartBlock(cs[0])
      case Failure(e) => Failure(e)
      case Success(b) =>
        match ChartBlocks(cs[1..])
        case Failure(e) =>
          var i :| 0 <= i < |cs[1..]| && ChartBlock(cs[1..][i]).Failure?;
          assert cs[i + 1] == cs[1..][i];
          Failure(e)
        case Success(rest) =>
          assert forall i | 1 <= i < |cs| :: cs[i] == cs[1..][i - 1];
          Success(b + rest)
  }

  /** The chart images are the blocks of the charts, each in its place:
      the walk agrees with collecting every chart's block and joining
      them. */
  lemma {:induction false} ChartBlocksInOrder(cs: seq<Chart>)
    ensures ChartBlocks(cs).Success? <==> FirstError(Map(cs, ChartBlock)).Success?
    ensures ChartBlocks(cs).Success? ==> ChartBlocks(cs).value == Concat(FirstError(Map(cs, ChartBlock)).value)
  {
    if |cs| > 0 {
      var rs := Map(cs, ChartBlock);
      assert rs[1..] == Map(cs[1..], ChartBlock);
      assert rs[0] == ChartBlock(cs[0]);
      ChartBlocksInOrder(cs[1..]);
      if rs[0].Success? && FirstError(rs[1..]).Success? {
        assert FirstError(rs).value == [rs[0].value] + FirstError(rs[1..]).value;
        assert ([rs[0].value] + FirstError(rs[1..]).value)[1..] == FirstError(rs[1..]).value;
      }
    }
  }

  /** One section's markdown: heading, text, then the image blocks of its
      charts in order. A chart with a file but no title raises. */
  function SectionMarkdown(s: GeneratedSection): (r: Result<string, GenerationError>)
    ensures r.Failure? <==> exists i | 0 <= i < |s.charts| :: s.charts[i].filePath.GetOr("") != "" && s.charts[i].title.None?
    ensures r.Failure? ==> r.error == MissingKey("title")
    ensures r.Success? ==> FirstError(Map(s.charts, ChartBlock)).Success?
    ensures r.Success? ==> (r.value == "## " + s.title + "\n\n" + s.content + "\n\n"
                                      + Concat(FirstError(Map(s.charts, ChartBlock)).value))
  {
    ChartBlocksInOrder(s.charts);
    match ChartBlocks(s.charts)
    case Failure(e) => Failure(e)
    case Success(b) => Success("## " + s.title + "\n\n" + s.content + "\n\n" + b)
  }

  /** The markdown of every section, block `i` being section `i`'s; the
      first section that raises ends the assembly. */
  function SectionsMarkdown(ss: seq<GeneratedSection>): (r: Result<seq<string>, GenerationError>)
    ensures r.Success? <==> forall i | 0 <= i < |ss| :: SectionMarkdown(ss[i]).Success?
    ensures r.Success? ==> |r.value| == |ss|
    ensures r.Success? ==> forall i | 0 <= i < |ss| :: SectionMarkdown(ss[i]) == Success(r.value[i])
    ensures r.Failure? ==> r.error == MissingKey("title")
  {
    if |ss| == 0 then Success([])
    else match SectionMarkdown(ss[0])
      case Failure(e) => Failure(e)
      case Success(m) =>
        match SectionsMarkdown(ss[1..])
        case Failure(e) =>
          var i :| 0 <= i < |ss[1..]| && SectionMarkdown(ss[1..][i]).Failure?;
          assert ss[i + 1] == ss[1..][i];
          Failure(e)
        case Success(rest) =>
          MarkdownShift(ss, m, rest);
          Success([m] + rest)
  }

  lemma MarkdownShift(ss: seq<GeneratedSection>, m: string, rest: seq<string>)
    requires |ss| > 0 && SectionMarkdown(ss[0]) == Success(m)
    requires |rest| == |ss| - 1
    requires forall i | 0 <= i < |ss| - 1 :: SectionMarkdown(ss[1..][i]) == Success(rest[i])
    ensures forall i | 0 <= i < |ss| :: SectionMarkdown(ss[i]) == Success(([m] + rest)[i])
  {
    forall i | 1 <= i < |ss| ensures SectionMarkdown(ss[i]) == Success(([m] + rest)[i]) {
      assert ss[i] == ss[1..][i - 1];
    }
  }

  function Concat(ps: seq<string>): string {
    if |ps| == 0 then "" else ps[0] + Concat(ps[1..])
  }

  /** `'\n'.join(ps)`. */
  function JoinLines(ps: seq<string>): string {
    if |ps| == 0 then "" else JoinOn(ps, '\n')
  }

  /** The appendix entry of an unreferenced chart: only a chart with a file
      and a title gets one, headed by its title. */
  function AppendixEntry(c: Chart): (r: string)
    ensures r != "" <==> c.filePath.GetOr("") != "" && c.title.Some?
    ensures r != "" ==> ("### " + c.title.value + "\n\n![" + c.title.value + "](" + c.filePath.value + ")\n\n") <= r
  {
    if c.filePath.GetOr("") == "" || c.title.None? then ""
    else "### " + c.title.value + "\n\n![" + c.title.value + "](" + c.filePath.value + ")\n\n" + c.description.GetOr("") + "\n\n"
  }

  function AppendixEntries(cs: seq<Chart>): string {
    if |cs| == 0 then "" else AppendixEntry(cs[0]) + AppendixEntries(cs[1..])
  }

  /** The appendix is the entries of its charts joined in order. */
  lemma {:induction false} AppendixEntriesInOrder(cs: seq<Chart>)
    ensures AppendixEntries(cs) == Concat(Map(cs, AppendixEntry))
  {
    if |cs| > 0 {
      assert Map(cs, AppendixEntry)[1..] == Map(cs[1..], AppendixEntry);
      AppendixEntriesInOrder(cs[1..]);
    }
  }

  const AppendixHeading := "## Additional Visualizations\n\n"

  /** The content blocks of the report: the sections' markdown, then an
      appendix when some chart is never referenced by the sections. */
  function ContentBlocks(ss: seq<GeneratedSection>, charts: seq<Chart>): (r: Result<seq<string>, GenerationError>)
    ensures r.Success? ==> |r.value| == |ss| || |r.value| == |ss| + 1
    ensures r.Success? ==> SectionsMarkdown(ss).Success? && (|r.value| == |ss| + 1 <==>
      |UnreferencedCharts(charts, Concat(SectionsMarkdown(ss).value))| > 0)
    ensures r.Success? <==> SectionsMarkdown(ss).Success?
    ensures r.Failure? ==> r.error == MissingKey("title")
    ensures r.Success? ==> forall i | 0 <= i < |ss| :: SectionMarkdown(ss[i]) == Success(r.value[i])
    ensures r.Success? && |r.value| == |ss| + 1 ==>
      r.value[|ss|] == AppendixHeading + Concat(Map(UnreferencedCharts(charts, Concat(SectionsMarkdown(ss).value)), AppendixEntry))
  {
    match SectionsMarkdown(ss)
    case Failure(e) => Failure(e)
    case Success(blocks) =>
      var unreferenced := UnreferencedCharts(charts, Concat(blocks));
      AppendixEntriesInOrder(unreferenced);
      if |unreferenced| == 0 then Success(blocks)
      else Success(blocks + [AppendixHeading + AppendixEntries(unreferenced)])
  }

  function TocLines(ss: seq<GeneratedSection>): (r: seq<string>)
    ensures |r| == |ss|
    ensures forall i | 0 <= i < |ss| :: r[i] == TocLine(i, ss[i].title)
  {
    seq(|ss|, i requires 0 <= i < |ss| => TocLine(i, ss[i].title))
  }

  // ---------------------------------------------------------------------
  // The generation stage

  datatype Metadata = Metadata(
    topic: Option<string>,
    wordCount: nat,
    sectionCount: nat,
    chartCount: nat,
    sourceCount: int,
    researchSources: Dict<string, int>,
    readingMinutes: nat)

  /** `_create_metadata` without the timestamp. */
  function CreateMetadata(topic: Option<string>, outline: seq<Planner.Section>, charts: seq<Chart>,
                          sourceCount: int, sources: Dict<string, int>, report: string): (m: Metadata)
    ensures m.wordCount == CountWords(report)
    ensures m.readingMinutes >= 1 && m.readingMinutes == ReadingMinutes(m.wordCount)
    ensures m.sectionCount == |outline| && m.chartCount == |charts|
    ensures m.topic == topic && m.sourceCount == sourceCount && m.researchSources == sources
  {
    var words := CountWords(report);
    Metadata(topic, words, |outline|, |charts|, sourceCount, sources, ReadingMinutes(words))
  }

  datatype Generated = Generated(
    report: string,
    sections: seq<GeneratedSection>,
    metadata: Metadata,
    wordCount: nat,
    chartReferences: nat)

  /** `GenerationAgent.process`. `write(i)` is the model's text for section
      `i`; `render(topic, toc, content)` is the report template. */
  function Process(topic: string, sourceCount: int, sources: Dict<string, int>,
                   outline: seq<Planner.Section>, charts: seq<Chart>,
                   write: nat -> Option<string>, render: (string, string, string) -> string): (r: Result<Generated, GenerationError>)
    ensures r.Success? ==> |r.value.sections| == |outline|
    ensures r.Success? ==> forall i | 0 <= i < |outline| :: r.value.sections[i].index == i
    ensures r.Success? ==> r.value.wordCount == r.value.metadata.wordCount == CountWords(r.value.report)
    ensures r.Success? ==> r.value.chartReferences == CountChartReferences(r.value.report)
    ensures r.Success? ==> r.value.metadata.sectionCount == |outline| && r.value.metadata.readingMinutes >= 1
    ensures GenerateSections(outline, charts, write).Failure? ==> r == Failure(GenerateSections(outline, charts, write).error)
    ensures r.Success? <==> (GenerateSections(outline, charts, write).Success? &&
                             ContentBlocks(GenerateSections(outline, charts, write).value, charts).Success?)
    ensures r.Success? ==> r.value.sections == GenerateSections(outline, charts, write).value
    ensures r.Success? ==> (r.value.report == render(topic, JoinLines(TocLines(r.value.sections)),
                                                     JoinLines(ContentBlocks(r.value.sections, charts).value)))
    ensures r.Success? ==> (r.value.metadata == CreateMetadata(Some(topic), outline, charts, sourceCount, sources, r.value.report))
  {
    match GenerateSections(outline, charts, write)
    case Failure(e) => Failure(e)
    case Success(sections) =>
      match ContentBlocks(sections, charts)
      case Failure(e) => Failure(e)
      case Success(blocks) =>
        var report := render(topic, JoinLines(TocLines(sections)), JoinLines(blocks));
        var meta := CreateMetadata(Some(topic), outline, charts, sourceCount, sources, report);
        Success(Generated(report, sections, meta, CountWords(report), CountChartReferences(report)))
  }
}

=== FILE: legacy_agents.dfy ===
/** The mock agents of the repository's first version: a research agent
    that returns canned result lines and keeps their sorted distinct set,
    and a planning agent that finds keyword themes, builds an outline and
    names one chart file per analysis section. */
module LegacyAgents {
  import opened Wrappers
  import opened Text
  import opened Seqs
  import opened SortedSet
  import opened OrderedMap

  /** The engines the research agent asks, in order. */
  const Engines: seq<string> := ["google", "arxiv", "wikipedia"]

  /** One canned result line, `"<engine> result <n> <link> <topic>"`. The
      two agent versions differ only in `link` ("for" or "about"). */
  function ResultLine(engine: string, n: char, link: string, topic: string): (s: string)
    ensures |s| > |engine| + 8 && s[..|engine|] == engine && s[|engine| + 8] == n
    ensures |engine| > 0 ==> s[0] == engine[0]
  {
    engine + " result " + [n] + " " + link + " " + topic
  }

  /** A result line names its engine and its topic. */
  lemma ResultLineMentions(engine: string, n: char, link: string, topic: string)
    ensures Contains(ResultLine(engine, n, link, topic), engine)
    ensures Contains(ResultLine(engine, n, link, topic), topic)
  {
    var mid := " result " + [n] + " " + link + " ";
    assert ResultLine(engine, n, link, topic) == engine + (mid + topic) == (engine + mid) + topic;
    ContainsPrefix(engine, mid + topic);
    ContainsSuffix(engine + mid, topic);
  }

  /** The mock `search`: exactly two results, numbered 1 and 2. */
  function MockSearch(engine: string, link: string, topic: string): (r: seq<string>)
    ensures |r| == 2
    ensures forall x <- r :: Contains(x, engine) && Contains(x, topic)
    ensures r[0] != r[1]
  {
    ResultLineMentions(engine, '1', link, topic);
    ResultLineMentions(engine, '2', link, topic);
    [ResultLine(engine, '1', link, topic), ResultLine(engine, '2', link, topic)]
  }

  /** The results of every engine, concatenated in engine order. */
  function SearchEngines(engines: seq<string>, link: string, topic: string): (r: seq<string>)
    ensures |r| == 2 * |engines|
    ensures forall i | 0 <= i < |engines| :: r[2 * i] == ResultLine(engines[i], '1', link, topic)
    ensures forall i | 0 <= i < |engines| :: r[2 * i + 1] == ResultLine(engines[i], '2', link, topic)
  {
    if |engines| == 0 then []
    else
      var rest := SearchEngines(engines[1..], link, topic);
      var pair := MockSearch(engines[0], link, topic);
      forall i | 1 <= i < |engines|
        ensures (pair + rest)[2 * i] == ResultLine(engines[i], '1', link, topic)
        ensures (pair + rest)[2 * i + 1] == ResultLine(engines[i], '2', link, topic)
      {
        assert engines[1..][i - 1] == engines[i];
        PairThenRest(pair, rest, i);
      }
      pair + rest
  }

  /** Past a leading pair, the pair positions of the rest. */
  lemma PairThenRest<T>(pair: seq<T>, rest: seq<T>, i: int)
    requires |pair| == 2 && 1 <= i && 2 * i + 1 < 2 + |rest|
    ensures (pair + rest)[2 * i] == rest[2 * (i - 1)]
    ensures (pair + rest)[2 * i + 1] == rest[2 * (i - 1) + 1]
  {
  }

  /** The first characters of non-empty names. */
  function Initials(names: seq<string>): (r: seq<char>)
    requires forall e <- names :: |e| > 0
    ensures |r| == |names| && forall i | 0 <= i < |names| :: r[i] == names[i][0]
  {
    seq(|names|, i requires 0 <= i < |names| => names[i][0])
  }

  /** Two result lines differ when their engines start differently, or
      when one engine numbers them differently. */
  lemma ResultLinesDiffer(e1: string, n1: char, e2: string, n2: char, link: string, topic: string)
    requires |e1| > 0 && |e2| > 0
    requires e1[0] != e2[0] || (e1 == e2 && n1 != n2)
    ensures ResultLine(e1, n1, link, topic) != ResultLine(e2, n2, link, topic)
  {
    var x, y := ResultLine(e1, n1, link, topic), ResultLine(e2, n2, link, topic);
    if e1[0] != e2[0] {
      assert x[0] != y[0];
    } else {
      assert x[|e1| + 8] != y[|e1| + 8];
    }
  }

  /** The number of the `p`-th mock result. */
  function ResultNumber(p: nat): char {
    if p % 2 == 0 then '1' else '2'
  }

  /** Two positions of the same engine are its first and second result. */
  lemma SameEngineNumbers(p: nat, q: nat)
    requires p < q && p / 2 == q / 2
    ensures ResultNumber(p) == '1' && ResultNumber(q) == '2'
  {
  }

  /** The `p`-th result is result `ResultNumber(p)` of engine `p / 2`. */
  lemma SearchEnginesAt(engines: seq<string>, link: string, topic: string, p: nat)
    requires p < 2 * |engines|
    ensures SearchEngines(engines, link, topic)[p] == ResultLine(engines[p / 2], ResultNumber(p), link, topic)
  {
    var i := p / 2;
    if p % 2 == 0 {
      assert p == 2 * i;
    } else {
      assert p == 2 * i + 1;
    }
  }

  /** The mock results are pairwise different when the engines' first
      characters are: different engines differ in the first character, the
      two results of one engine in their number. */
  lemma SearchEnginesDistinct(engines: seq<string>, link: string, topic: string)
    requires forall e <- engines :: |e| > 0
    requires Distinct(Initials(engines))
    ensures Distinct(SearchEngines(engines, link, topic))
  {
    var r := SearchEngines(engines, link, topic);
    var ini := Initials(engines);
    forall p, q | 0 <= p < q < |r| ensures r[p] != r[q] {
      var a, b := p / 2, q / 2;
      SearchEnginesAt(engines, link, topic, p);
      SearchEnginesAt(engines, link, topic, q);
      assert engines[a] in engines && engines[b] in engines;
      if a == b {
        SameEngineNumbers(p, q);
      } else {
        assert ini[a] != ini[b];
      }
      ResultLinesDiffer(engines[a], ResultNumber(p), engines[b], ResultNumber(q), link, topic);
    }
  }

  lemma MockResultsDistinct(link: string, topic: string)
    ensures Distinct(SearchEngines(Engines, link, topic))
  {
    assert Initials(Engines) == ['g', 'a', 'w'];
    SearchEnginesDistinct(Engines, link, topic);
  }

  /** `filter_and_rank`: `list(set(results))` sorted ascending. */
  function FilterAndRank(results: seq<string>): (r: seq<string>)
    ensures StrictlySorted(r)
    ensures forall x <- r :: x in results
    ensures forall x <- results :: x in r
  {
    SortedDistinct(results)
  }

  /** `research_topic`: the canned results of google, arxiv and wikipedia,
      filtered and ranked. */
  function ResearchTopic(topic: string): (r: seq<string>)
    ensures StrictlySorted(r)
    ensures |r| == 6
    ensures forall e <- Engines :: ResultLine(e, '1', "for", topic) in r && ResultLine(e, '2', "for", topic) in r
    ensures forall x <- r :: x in SearchEngines(Engines, "for", topic)
  {
    var raw := SearchEngines(Engines, "for", topic);
    MockResultsDistinct("for", topic);
    assert forall i | 0 <= i < |Engines| :: raw[2 * i] in raw && raw[2 * i + 1] in raw;
    FilterAndRank(raw)
  }

  /** The theme keywords, in the order they are tested. */
  const Keywords: seq<string> := ["ai", "healthcare", "medical imaging", "ethics", "predictive analytics"]

  const FallbackTheme := "General Insights"

  /** One character of `title()`: upper-cased at the start of a word,
      lower-cased inside one. */
  function TitleChar(afterLetter: bool, c: char): (d: char)
    ensures IsLetter(d) <==> IsLetter(c)
    ensures !IsLetter(c) ==> d == c
    ensures !afterLetter ==> !IsLower(d)
    ensures afterLetter ==> !IsUpper(d)
  {
    if afterLetter then ToLower(c) else ToUpper(c)
  }

  /** `s.title()`: a letter is upper-cased where it starts the string or
      follows a non-letter, and lower-cased elsewhere. */
  function TitleCase(s: string): (r: string)
    ensures |r| == |s|
    ensures forall i | 0 <= i < |s| :: IsLetter(r[i]) <==> IsLetter(s[i])
    ensures forall i | 0 <= i < |s| :: !IsLetter(s[i]) ==> r[i] == s[i]
    ensures |s| > 0 ==> r[0] == ToUpper(s[0])
    ensures forall i | 0 <= i < |s| ::
      r[i] == if i > 0 && IsLetter(s[i - 1]) then ToLower(s[i]) else ToUpper(s[i])
  {
    seq(|s|, i requires 0 <= i < |s| => TitleChar(i > 0 && IsLetter(s[i - 1]), s[i]))
  }

  /** Title-casing a title-cased string changes nothing. */
  lemma TitleCaseIdempotent(s: string)
    ensures TitleCase(TitleCase(s)) == TitleCase(s)
  {
    var t := TitleCase(s);
    forall i | 0 <= i < |s| ensures TitleCase(t)[i] == t[i] {
      if i > 0 {
        assert IsLetter(t[i - 1]) <==> IsLetter(s[i - 1]);
      }
    }
  }

  /** A non-letter separates words: title-casing works on each side of it
      independently. */
  lemma TitleCaseAtNonLetter(a: string, c: char, b: string)
    requires !IsLetter(c)
    ensures TitleCase(a + [c] + b) == TitleCase(a) + [c] + TitleCase(b)
  {
    var s := a + [c] + b;
    var l := TitleCase(s);
    var r := TitleCase(a) + [c] + TitleCase(b);
    forall i | 0 <= i < |s| ensures l[i] == r[i] {
      if i < |a| {
        assert s[i] == a[i] && r[i] == TitleCase(a)[i];
        assert i > 0 ==> s[i - 1] == a[i - 1];
      } else if i == |a| {
        assert s[i] == c && r[i] == c;
      } else {
        var k := i - |a| - 1;
        assert s[i] == b[k] && r[i] == TitleCase(b)[k];
        assert s[i - 1] == if k == 0 then c else b[k - 1];
      }
    }
    assert |l| == |r|;
  }

  /** A lower-case word is title-cased by capitalising its first letter. */
  lemma TitleCaseLowerWord(w: string)
    requires |w| > 0
    requires forall i | 0 <= i < |w| :: IsLower(w[i])
    ensures TitleCase(w) == [ToUpper(w[0])] + w[1..]
  {
    var t := TitleCase(w);
    forall i | 0 < i < |w| ensures t[i] == w[i] {
      assert IsLetter(w[i - 1]);
    }
  }

  lemma TitleCaseExample()
    ensures TitleCase("ai") == "Ai"
  {
    TitleCaseLowerWord("ai");
  }

  /** Two lower-case words joined by a space are both capitalised. */
  lemma TitleCaseTwoWords(a: string, b: string)
    requires |a| > 0 && |b| > 0
    requires forall i | 0 <= i < |a| :: IsLower(a[i])
    requires forall i | 0 <= i < |b| :: IsLower(b[i])
    ensures TitleCase(a + " " + b) == [ToUpper(a[0])] + a[1..] + " " + [ToUpper(b[0])] + b[1..]
  {
    TitleCaseLowerWord(a);
    TitleCaseLowerWord(b);
    TitleCaseAtNonLetter(a, ' ', b);
  }

  /** The keywords start with different lower-case letters, none of them
      a 'g'. */
  lemma KeywordInitials()
    ensures forall i | 0 <= i < |Keywords| :: |Keywords[i]| > 0 && IsLower(Keywords[i][0]) && Keywords[i][0] != 'g'
    ensures forall i, j | 0 <= i < j < |Keywords| :: Keywords[i][0] != Keywords[j][0]
  {
  }

  /** The keywords have different title forms, none of them the fallback:
      their first letters already differ. */
  lemma KeywordTitlesDistinct()
    ensures forall a <- Keywords, b <- Keywords :: TitleCase(a) == TitleCase(b) ==> a == b
    ensures forall a <- Keywords :: TitleCase(a) != FallbackTheme
    ensures Distinct(Keywords)
  {
    KeywordInitials();
    forall a <- Keywords, b <- Keywords | TitleCase(a) == TitleCase(b) ensures a == b {
      var i :| 0 <= i < |Keywords| && Keywords[i] == a;
      var j :| 0 <= j < |Keywords| && Keywords[j] == b;
      assert ToUpper(a[0]) == ToUpper(b[0]);
      assert i == j;
    }
    forall a <- Keywords ensures TitleCase(a) != FallbackTheme {
      var i :| 0 <= i < |Keywords| && Keywords[i] == a;
      assert TitleCase(a)[0] != FallbackTheme[0];
    }
  }

  /** The text the themes are looked for in: `" ".join(data).lower()`. */
  function AllText(data: seq<string>): string {
    Lower(JoinWords(data))
  }

  /** The keyword test: `kw in text`. */
  function FoundIn(text: string): string -> bool {
    kw => Contains(text, kw)
  }

  /** `[kw.title() for kw in keywords if kw in text]`: the title forms of
      the keywords the text contains, in keyword-list order. */
  function MatchingThemes(text: string): (r: seq<string>)
    ensures forall kw <- Keywords :: TitleCase(kw) in r <==> Contains(text, kw)
    ensures forall t <- r :: exists kw <- Keywords :: t == TitleCase(kw)
    ensures Distinct(r)
    ensures var ks := FilterPositions(Keywords, FoundIn(text));
      |r| == |ks| && forall i | 0 <= i < |r| :: r[i] == TitleCase(Keywords[ks[i]])
  {
    KeywordTitlesDistinct();
    TitledMatches(Keywords, text)
  }

  /** The same for any keyword list whose title forms tell its keywords
      apart. */
  function TitledMatches(kws: seq<string>, text: string): (r: seq<string>)
    requires Distinct(kws)
    requires forall a <- kws, b <- kws :: TitleCase(a) == TitleCase(b) ==> a == b
    ensures forall kw <- kws :: TitleCase(kw) in r <==> Contains(text, kw)
    ensures forall t <- r :: exists kw <- kws :: t == TitleCase(kw)
    ensures Distinct(r)
    ensures var ks := FilterPositions(kws, FoundIn(text));
      |r| == |ks| && forall i | 0 <= i < |r| :: r[i] == TitleCase(kws[ks[i]])
  {
    var m := Filter(kws, FoundIn(text));
    MapMembership(m, TitleCase);
    MapDistinct(m, TitleCase);
    var r := Map(m, TitleCase);
    forall kw <- kws | TitleCase(kw) in r ensures Contains(text, kw) {
      var x :| x in m && TitleCase(kw) == TitleCase(x);
    }
    FilterAtPositions(kws, FoundIn(text));
    r
  }

  /** `identify_themes`: the title-cased keywords found in the joined,
      lower-cased research text, or the single fallback theme. */
  function IdentifyThemes(data: seq<string>): (r: seq<string>)
    ensures |r| > 0 && Distinct(r)
    ensures forall kw <- Keywords :: TitleCase(kw) in r <==> Contains(AllText(data), kw)
    ensures r == [FallbackTheme] <==> forall kw <- Keywords :: !Contains(AllText(data), kw)
    ensures r != [FallbackTheme] ==> r == MatchingThemes(AllText(data))
  {
    var found := MatchingThemes(AllText(data));
    KeywordTitlesDistinct();
    if |found| == 0 then [FallbackTheme]
    else
      assert found[0] in found;
      found
  }

  /** `"Analysis of <theme>"` for every theme, in order. */
  function AnalysisSections(themes: seq<string>): (r: seq<string>)
    ensures |r| == |themes|
    ensures forall i | 0 <= i < |themes| :: r[i] == "Analysis of " + themes[i]
    ensures Distinct(themes) ==> Distinct(r)
  {
    var r := seq(|themes|, i requires 0 <= i < |themes| => "Analysis of " + themes[i]);
    forall i, j | 0 <= i < j < |r| && r[i] == r[j] ensures themes[i] == themes[j] {
      assert themes[i] == r[i][12..] && themes[j] == r[j][12..];
    }
    r
  }

  /** The report sections: an introduction, one analysis per theme, and
      the conclusions. */
  function Outline(themes: seq<string>): (r: seq<string>)
    ensures |r| == |themes| + 2
    ensures r[0] == "Introduction" && r[|r| - 1] == "Conclusions"
    ensures r[1..|r| - 1] == AnalysisSections(themes)
  {
    ["Introduction"] + AnalysisSections(themes) + ["Conclusions"]
  }

  /** The chart file name of a section: spaces become underscores, the
      whole is lower-cased, and `_chart.png` is appended. */
  function ChartFile(section: string): (f: string)
    ensures |f| == |section| + 10 && f[|section|..] == "_chart.png"
    ensures forall i | 0 <= i < |section| :: f[i] == if section[i] == ' ' then '_' else ToLower(section[i])
    ensures ' ' !in f
    ensures forall i | 0 <= i < |f| :: !IsUpper(f[i])
  {
    var named := ReplaceChar(section, ' ', '_');
    var stem := Lower(named);
    var f := stem + "_chart.png";
    forall i | 0 <= i < |f| ensures f[i] != ' ' && !IsUpper(f[i]) {
      if i < |stem| {
        assert f[i] == ToLower(named[i]);
        assert named[i] != ' ';
      } else {
        assert f[i] == "_chart.png"[i - |stem|];
      }
    }
    f
  }

  /** A chart file for every wanted section, keyed by the section; a
      repeated section assigns its key again. */
  function Placements(sections: seq<string>, wants: string -> bool): (r: Dict<string, string>)
    ensures KeysDistinct(r)
    ensures forall s :: Get(r, s) == (if s in sections && wants(s) then Some(ChartFile(s)) else None)
  {
    if |sections| == 0 then []
    else
      var init, last := sections[..|sections| - 1], sections[|sections| - 1];
      InitLast(sections);
      var m := Placements(init, wants);
      if wants(last) then
        forall s | s != last ensures Get(Put(m, last, ChartFile(last)), s) == Get(m, s) {
          PutOther(m, last, ChartFile(last), s);
        }
        Put(m, last, ChartFile(last))
      else m
  }

  /** With no repeated wanted section, the keys are the wanted sections in
      outline order. */
  lemma {:induction false} PlacementKeys(sections: seq<string>, wants: string -> bool)
    requires Distinct(Filter(sections, wants))
    ensures Keys(Placements(sections, wants)) == Filter(sections, wants)
  {
    if |sections| > 0 {
      var init, last := sections[..|sections| - 1], sections[|sections| - 1];
      InitLast(sections);
      FilterSnoc(init, last, wants);
      var f := Filter(init, wants);
      assert Distinct(f) by {
        assert forall i | 0 <= i < |f| :: f[i] == Filter(sections, wants)[i];
      }
      PlacementKeys(init, wants);
      if wants(last) {
        assert last !in f by {
          var all := Filter(sections, wants);
          assert all == f + [last];
          forall i | 0 <= i < |f| ensures f[i] != last {
            assert all[i] == f[i] && all[|f|] == last;
          }
        }
      }
    }
  }

  /** When exactly the analysis sections are wanted, the outline's chart
      keys are its analysis sections, one per theme. */
  lemma OutlinePlacements(themes: seq<string>, wants: string -> bool)
    requires Distinct(themes)
    requires !wants("Introduction") && !wants("Conclusions")
    requires forall s <- AnalysisSections(themes) :: wants(s)
    ensures Keys(Placements(Outline(themes), wants)) == AnalysisSections(themes)
  {
    var a := AnalysisSections(themes);
    assert Outline(themes) == ["Introduction"] + a + ["Conclusions"];
    FilterAppend(["Introduction"] + a, ["Conclusions"], wants);
    FilterAppend(["Introduction"], a, wants);
    FilterKeepsAll(a, wants);
    assert Filter(["Introduction"], wants) == [];
    assert Filter(["Conclusions"], wants) == [];
    assert Filter(Outline(themes), wants) == a;
    PlacementKeys(Outline(themes), wants);
  }

  /** The chart test of this version: "analysis" in the lower-cased
      section. */
  predicate MentionsAnalysis(section: string) {
    Contains(Lower(section), "analysis")
  }

  /** `plan_visualizations`. */
  function PlanVisualizations(sections: seq<string>): (r: Dict<string, string>)
    ensures forall s :: Get(r, s).Some? <==> s in sections && MentionsAnalysis(s)
    ensures forall s :: Get(r, s).Some? ==> Get(r, s).value == ChartFile(s)
  {
    Placements(sections, MentionsAnalysis)
  }

  datatype ReportOutline = ReportOutline(sections: seq<string>, visualizations: Dict<string, string>)

  /** `create_report_outline`. */
  function CreateReportOutline(data: seq<string>): (o: ReportOutline)
    ensures |o.sections| == |IdentifyThemes(data)| + 2
    ensures o.sections == Outline(IdentifyThemes(data))
    ensures o.visualizations == PlanVisualizations(o.sections)
  {
    var sections := Outline(IdentifyThemes(data));
    ReportOutline(sections, PlanVisualizations(sections))
  }

  lemma NoAnalysisInFrame()
    ensures !MentionsAnalysis("Introduction") && !MentionsAnalysis("Conclusions")
  {
    assert Lower("Introduction") == "introduction";
    NoLetterA("introduction");
    assert Lower("Conclusions") == "conclusions";
    NoLetterA("conclusions");
  }

  /** A lower-cased text without the letter 'a' cannot hold "analysis". */
  lemma NoLetterA(lowered: string)
    requires forall i | 0 <= i < |lowered| :: lowered[i] != 'a'
    ensures !Contains(lowered, "analysis")
  {
    NotContainsByFirstChar(lowered, "analysis");
  }

  lemma AnalysisMentioned(theme: string)
    ensures MentionsAnalysis("Analysis of " + theme)
  {
    LowerAppend("Analysis of ", theme);
    assert Lower("Analysis of ") == "analysis of ";
    assert "analysis of " + Lower(theme) == "analysis" + (" of " + Lower(theme));
    ContainsPrefix("analysis", " of " + Lower(theme));
  }

  /** Every theme gets exactly one chart, under its analysis section, and
      the introduction and conclusions get none. */
  lemma OneChartPerTheme(data: seq<string>)
    ensures Keys(CreateReportOutline(data).visualizations) == AnalysisSections(IdentifyThemes(data))
  {
    var themes := IdentifyThemes(data);
    NoAnalysisInFrame();
    forall s <- AnalysisSections(themes) ensures MentionsAnalysis(s) {
      var i :| 0 <= i < |themes| && s == AnalysisSections(themes)[i];
      AnalysisMentioned(themes[i]);
    }
    OutlinePlacements(themes, MentionsAnalysis);
  }

  /** The results are joined with spaces before matching, so a keyword can
      match across two neighbouring results. */
  lemma MatchAcrossResults()
    ensures TitleCase("medical imaging") in IdentifyThemes(["medical", "imaging"])
  {
    var data := ["medical", "imaging"];
    assert JoinWords(data) == "medical imaging";
    assert AllText(data) == "medical imaging";
    ContainsAt("medical imaging", "medical imaging", 0);
    assert "medical imaging" in Keywords;
  }
}

=== FILE: ordered_map.dfy ===
/** Python's `dict` as the pipeline uses it: key/value pairs kept in
    insertion order, each key at most once. Assigning to an existing key
    replaces its value in place; assigning to a new key appends it. */
module OrderedMap {
  import opened Wrappers
  import Seqs

  type Dict<K, V> = seq<(K, V)>

  function Keys<K, V>(m: Dict<K, V>): (r: seq<K>)
    ensures |r| == |m|
    ensures forall i | 0 <= i < |m| :: r[i] == m[i].0
  {
    if |m| == 0 then [] else [m[0].0] + Keys(m[1..])
  }

  /** Every key occurs once, as Python guarantees for a dict. */
  predicate KeysDistinct<K(==), V>(m: Dict<K, V>) {
    forall i, j | 0 <= i < j < |m| :: m[i].0 != m[j].0
  }

  /** `d.get(k)`: the value stored under `k`, if any. */
  function Get<K(==), V>(m: Dict<K, V>, k: K): (r: Option<V>)
    ensures r.Some? <==> k in Keys(m)
    ensures r.Some? ==> (k, r.value) in m
  {
    if |m| == 0 then None
    else if m[0].0 == k then Some(m[0].1)
    else Get(m[1..], k)
  }

  /** `d[k] = v`. */
  function Put<K(==), V>(m: Dict<K, V>, k: K, v: V): (r: Dict<K, V>)
    requires KeysDistinct(m)
    ensures KeysDistinct(r)
    ensures Get(r, k) == Some(v)
    ensures k in Keys(m) ==> Keys(r) == Keys(m)
    ensures k !in Keys(m) ==> Keys(r) == Keys(m) + [k]
  {
    if |m| == 0 then [(k, v)]
    else
      HeadKeyFresh(m);
      assert Keys(m) == [m[0].0] + Keys(m[1..]);
      if m[0].0 == k then
        KeysCons((k, v), m[1..]);
        GetCons((k, v), m[1..], k);
        ConsDistinct((k, v), m[1..]);
        [(k, v)] + m[1..]
      else
        var rest := Put(m[1..], k, v);
        KeysCons(m[0], rest);
        GetCons(m[0], rest, k);
        ConsDistinct(m[0], rest);
        Seqs.ConsAppend(m[0].0, Keys(m[1..]), [k]);
        [m[0]] + rest
  }

  lemma KeysCons<K, V>(x: (K, V), rest: Dict<K, V>)
    ensures Keys([x] + rest) == [x.0] + Keys(rest)
  {
    assert ([x] + rest)[1..] == rest;
  }

  lemma GetCons<K, V>(x: (K, V), rest: Dict<K, V>, k: K)
    ensures Get([x] + rest, k) == if x.0 == k then Some(x.1) else Get(rest, k)
  {
    assert ([x] + rest)[1..] == rest;
  }

  /** The first key of a dict does not occur again. */
  lemma HeadKeyFresh<K, V>(m: Dict<K, V>)
    requires KeysDistinct(m) && |m| > 0
    ensures KeysDistinct(m[1..])
    ensures m[0].0 !in Keys(m[1..])
  {
    forall j | 0 <= j < |m| - 1 ensures Keys(m[1..])[j] != m[0].0 {
      assert m[1..][j] == m[j + 1];
    }
  }

  /** `d[k] = v` leaves every other key's value as it was. */
  lemma {:induction false} PutOther<K(!new), V>(m: Dict<K, V>, k: K, v: V, k': K)
    requires KeysDistinct(m)
    requires k' != k
    ensures Get(Put(m, k, v), k') == Get(m, k')
  {
    if |m| > 0 && m[0].0 != k {
      PutOther(m[1..], k, v, k');
    }
  }

  lemma ConsDistinct<K, V>(x: (K, V), rest: Dict<K, V>)
    requires KeysDistinct(rest)
    requires x.0 !in Keys(rest)
    ensures KeysDistinct([x] + rest)
  {
    forall j | 0 <= j < |rest| ensures x.0 != rest[j].0 {
      assert Keys(rest)[j] == rest[j].0;
    }
  }

  /** Sum of the values of an integer-valued dict. */
  function SumValues<K>(m: Dict<K, int>): int {
    if |m| == 0 then 0 else m[0].1 + SumValues(m[1..])
  }

  /** Storing `v` under `k` changes the value total by `v` minus what `k`
      held before. */
  lemma {:induction false} SumValuesPut<K(!new)>(m: Dict<K, int>, k: K, v: int)
    requires KeysDistinct(m)
    ensures SumValues(Put(m, k, v)) == SumValues(m) - Get(m, k).GetOr(0) + v
  {
    if |m| > 0 && m[0].0 != k {
      SumValuesPut(m[1..], k, v);
    }
  }

  /** Storing a new key appends it at the end. */
  lemma {:induction false} PutAppends<K, V>(m: Dict<K, V>, k: K, v: V)
    requires KeysDistinct(m) && k !in Keys(m)
    ensures Put(m, k, v) == m + [(k, v)]
  {
    if |m| > 0 {
      HeadKeyFresh(m);
      assert Keys(m) == [m[0].0] + Keys(m[1..]);
      assert k != m[0].0 && k !in Keys(m[1..]);
      PutAppends(m[1..], k, v);
      Seqs.HeadTail(m);
      Seqs.ConsAppend(m[0], m[1..], [(k, v)]);
    } else {
      assert m + [(k, v)] == [(k, v)];
    }
  }
}

=== FILE: planner.dfy ===
/** The planning stage of `src/agents/planner.py`: the report outline with
    its fallback, the visualisation plan, and the content distribution over
    the outline's sections. Every model reply arrives already decoded from
    JSON (or with the decoding failure); `None` stands for a failed request,
    which propagates out of the stage. */
module Planner {
  import opened Wrappers
  import opened Seqs
  import opened OrderedMap

  /** One outline entry: a JSON object whose keys may be missing. */
  datatype Section = Section(
    title: Option<string>,
    description: Option<string>,
    keyPoints: seq<string>,
    estimatedWords: Option<int>)

  /** `json.loads` on a reply: a decode error, a value that is not a list,
      or a list. */
  datatype Decoded<T> = DecodeError | NotAList | JsonList(items: seq<T>)

  /** Python exceptions that end the stage. */
  datatype PlanError = LlmRequestFailed | MissingKey(key: string) | ZeroDivision

  const DefaultSectionWords := 300

  // ---------------------------------------------------------------------
  // Outline

  function Plain(title: string, description: string, keyPoints: seq<string>, words: int): Section {
    Section(Some(title), Some(description), keyPoints, Some(words))
  }

  /** The outline used when the reply is not valid JSON. */
  function FallbackOutline(topic: string): seq<Section> {
    [ Plain("Introduction", "Overview of " + topic, ["Background", "Scope", "Objectives"], 300),
      Plain("Analysis", "Detailed analysis of " + topic, ["Key findings", "Important trends", "Critical insights"], 500),
      Plain("Conclusion", "Summary and implications", ["Summary", "Implications", "Future outlook"], 250) ]
  }

  /** `_create_outline` after the model has replied. */
  function CreateOutline(topic: string, parsed: Decoded<Section>): (r: seq<Section>)
    ensures parsed.NotAList? ==> r == []
    ensures parsed.JsonList? ==> r == parsed.items
    ensures parsed.DecodeError? ==> |r| == 3 && forall i | 0 <= i < 3 :: r[i].title.Some? && r[i].estimatedWords.Some?
  {
    match parsed
    case DecodeError => FallbackOutline(topic)
    case NotAList => []
    case JsonList(items) => items
  }

  /** The fallback outline is Introduction, Analysis, Conclusion with 300,
      500 and 250 words. */
  lemma FallbackOutlineShape(topic: string)
    ensures var o := CreateOutline(topic, DecodeError);
      && o[0].title == Some("Introduction") && o[0].estimatedWords == Some(300)
      && o[1].title == Some("Analysis") && o[1].estimatedWords == Some(500)
      && o[2].title == Some("Conclusion") && o[2].estimatedWords == Some(250)
      && TotalWords(o) == 1050
  {
    var o := CreateOutline(topic, DecodeError);
    assert o[1..][1..][1..] == [];
    assert TotalWords(o[1..][1..]) == 250;
    assert TotalWords(o[1..]) == 750;
  }

  // ---------------------------------------------------------------------
  // Visualisation plan

  /** The first key the outline text needs that some section lacks: titles
      and descriptions are read section by section, the title first. */
  function FirstMissingKey(outline: seq<Section>): (r: Option<string>)
    ensures r.None? <==> forall i | 0 <= i < |outline| :: outline[i].title.Some? && outline[i].description.Some?
  {
    if |outline| == 0 then None
    else if outline[0].title.None? then Some("title")
    else if outline[0].description.None? then Some("description")
    else
      var rest := FirstMissingKey(outline[1..]);
      assert rest.None? ==> forall i | 0 <= i < |outline| :: outline[i].title.Some? && outline[i].description.Some? by {
        if rest.None? {
          forall i | 1 <= i < |outline| ensures outline[i].title.Some? && outline[i].description.Some? {
            assert outline[i] == outline[1..][i - 1];
          }
        }
      }
      rest
  }

  /** `_plan_visualizations`: the outline text is built before the request,
      so a section without a title or description raises first; after the
      reply, anything but a decoded list gives no charts. */
  function PlanVisualizations<V>(outline: seq<Section>, reply: Option<Decoded<V>>): (r: Result<seq<V>, PlanError>)
    ensures FirstMissingKey(outline).Some? ==> r == Failure(MissingKey(FirstMissingKey(outline).value))
    ensures FirstMissingKey(outline).None? && reply.None? ==> r == Failure(LlmRequestFailed)
    ensures r.Success? ==> reply.Some? && (reply.value.JsonList? ==> r.value == reply.value.items)
    ensures r.Success? && !reply.value.JsonList? ==> r.value == []
  {
    if FirstMissingKey(outline).Some? then Failure(MissingKey(FirstMissingKey(outline).value))
    else if reply.None? then Failure(LlmRequestFailed)
    else match reply.value
      case JsonList(items) => Success(items)
      case _ => Success([])
  }

  // ---------------------------------------------------------------------
  // Content distribution

  datatype Priority = High | Medium

  /** One `section_breakdown` entry; the rounded percentage is not modelled. */
  datatype Allocation = Allocation(words: int, priority: Priority)

  datatype ContentPlan = ContentPlan(
    totalEstimatedWords: int,
    sectionBreakdown: Dict<string, Allocation>,
    writingPriorities: seq<string>)

  /** `section.get('estimated_words', 300)`. */
  function SectionWords(s: Section): int {
    s.estimatedWords.GetOr(DefaultSectionWords)
  }

  function TotalWords(outline: seq<Section>): int {
    if |outline| == 0 then 0 else SectionWords(outline[0]) + TotalWords(outline[1..])
  }

  /** The first and the last section are written first. */
  function PriorityAt(i: nat, n: nat): Priority {
    if i == 0 || i == n - 1 then High else Medium
  }

  /** The entry the loop stores for section `i`. */
  function AllocationAt(outline: seq<Section>, i: nat): Allocation
    requires i < |outline|
  {
    Allocation(SectionWords(outline[i]), PriorityAt(i, |outline|))
  }

  predicate AllTitled(outline: seq<Section>) {
    forall i | 0 <= i < |outline| :: outline[i].title.Some?
  }

  /** No later section among the first `n` reuses section `i`'s title. */
  predicate LastWithTitle(outline: seq<Section>, n: nat, i: nat)
    requires i < n <= |outline|
  {
    forall j | i < j < n :: outline[j].title != outline[i].title
  }

  /** The breakdown after the loop has stored the first `n` sections:
      assignment by title, so a repeated title replaces the earlier entry
      in place. */
  function Breakdown(outline: seq<Section>, n: nat): (m: Dict<string, Allocation>)
    requires n <= |outline| && AllTitled(outline)
    ensures KeysDistinct(m)
    ensures forall i | 0 <= i < n :: outline[i].title.value in Keys(m)
    ensures forall k <- Keys(m) :: exists i | 0 <= i < n :: outline[i].title == Some(k)
    ensures forall i | 0 <= i < n && LastWithTitle(outline, n, i) ::
      Get(m, outline[i].title.value) == Some(AllocationAt(outline, i))
  {
    if n == 0 then []
    else
      var prev := Breakdown(outline, n - 1);
      var t := outline[n - 1].title.value;
      var m := Put(prev, t, AllocationAt(outline, n - 1));
      BreakdownStep(outline, n, prev, m);
      m
  }

  lemma BreakdownStep(outline: seq<Section>, n: nat, prev: Dict<string, Allocation>, m: Dict<string, Allocation>)
    requires 0 < n <= |outline| && AllTitled(outline)
    requires KeysDistinct(prev)
    requires forall i | 0 <= i < n - 1 :: outline[i].title.value in Keys(prev)
    requires forall k <- Keys(prev) :: exists i | 0 <= i < n - 1 :: outline[i].title == Some(k)
    requires forall i | 0 <= i < n - 1 && LastWithTitle(outline, n - 1, i) ::
      Get(prev, outline[i].title.value) == Some(AllocationAt(outline, i))
    requires m == Put(prev, outline[n - 1].title.value, AllocationAt(outline, n - 1))
    ensures forall i | 0 <= i < n :: outline[i].title.value in Keys(m)
    ensures forall k <- Keys(m) :: exists i | 0 <= i < n :: outline[i].title == Some(k)
    ensures forall i | 0 <= i < n && LastWithTitle(outline, n, i) ::
      Get(m, outline[i].title.value) == Some(AllocationAt(outline, i))
  {
    var t := outline[n - 1].title.value;
    forall k | k in Keys(m) ensures exists i | 0 <= i < n :: outline[i].title == Some(k) {
      if k == t {
        assert outline[n - 1].title == Some(k);
      } else {
        assert k in Keys(prev);
      }
    }
    forall i | 0 <= i < n && LastWithTitle(outline, n, i)
      ensures Get(m, outline[i].title.value) == Some(AllocationAt(outline, i))
    {
      if i < n - 1 {
        assert outline[n - 1].title != outline[i].title;
        assert LastWithTitle(outline, n - 1, i);
        PutOther(prev, t, AllocationAt(outline, n - 1), outline[i].title.value);
      }
    }
  }

  /** `_plan_content_distribution`. For a non-empty outline the division by
      the total runs before the title is read, so a zero total raises
      first; otherwise the first section without a title raises. */
  function ContentDistribution(outline: seq<Section>): (r: Result<ContentPlan, PlanError>)
    ensures |outline| > 0 && TotalWords(outline) == 0 ==> r == Failure(ZeroDivision)
    ensures r.Success? <==> (|outline| == 0 || TotalWords(outline) != 0) && AllTitled(outline)
    ensures r.Failure? && r.error != ZeroDivision ==> r.error == MissingKey("title")
    ensures r.Success? ==> r.value.totalEstimatedWords == TotalWords(outline)
    ensures r.Success? ==> r.value.writingPriorities == []
    ensures r.Success? ==> forall i | 0 <= i < |outline| && LastWithTitle(outline, |outline|, i) ::
      Get(r.value.sectionBreakdown, outline[i].title.value) == Some(AllocationAt(outline, i))
    ensures r.Success? ==> forall k <- Keys(r.value.sectionBreakdown) ::
      exists i | 0 <= i < |outline| :: outline[i].title == Some(k)
  {
    if |outline| > 0 && TotalWords(outline) == 0 then Failure(ZeroDivision)
    else if !AllTitled(outline) then Failure(MissingKey("title"))
    else Success(ContentPlan(TotalWords(outline), Breakdown(outline, |outline|), []))
  }

  /** The total is the sum of the per-section words. */
  lemma {:induction false} TotalWordsAppend(a: seq<Section>, b: seq<Section>)
    ensures TotalWords(a + b) == TotalWords(a) + TotalWords(b)
  {
    if |a| == 0 {
      assert a + b == b;
    } else {
      assert (a + b)[1..] == a[1..] + b;
      TotalWordsAppend(a[1..], b);
    }
  }

  /** Sum of the words stored in a breakdown. */
  function BreakdownWords(m: Dict<string, Allocation>): int {
    if |m| == 0 then 0 else m[0].1.words + BreakdownWords(m[1..])
  }

  /** With distinct titles every section keeps its own entry, so the
      breakdown accounts for the whole total. */
  lemma {:induction false} BreakdownAccountsForTotal(outline: seq<Section>, n: nat)
    requires n <= |outline| && AllTitled(outline)
    requires forall i, j | 0 <= i < j < |outline| :: outline[i].title != outline[j].title
    ensures |Breakdown(outline, n)| == n
    ensures BreakdownWords(Breakdown(outline, n)) == WordsUpTo(outline, n)
  {
    if n > 0 {
      BreakdownAccountsForTotal(outline, n - 1);
      var prev := Breakdown(outline, n - 1);
      var t := outline[n - 1].title.value;
      var entry := (t, AllocationAt(outline, n - 1));
      NewTitle(outline, n, prev);
      PutAppends(prev, t, AllocationAt(outline, n - 1));
      BreakdownWordsAppend(prev, [entry]);
    }
  }

  /** The words of the first `n` sections. */
  function WordsUpTo(outline: seq<Section>, n: nat): int
    requires n <= |outline|
  {
    if n == 0 then 0 else WordsUpTo(outline, n - 1) + SectionWords(outline[n - 1])
  }

  lemma {:induction false} WordsUpToAll(outline: seq<Section>)
    ensures WordsUpTo(outline, |outline|) == TotalWords(outline)
  {
    if |outline| > 0 {
      var init := outline[..|outline| - 1];
      WordsUpToAll(init);
      InitLast(outline);
      TotalWordsAppend(init, [outline[|outline| - 1]]);
      WordsUpToPrefix(outline, init, |init|);
    }
  }

  lemma {:induction false} WordsUpToPrefix(outline: seq<Section>, init: seq<Section>, n: nat)
    requires n <= |init| <= |outline| && init == outline[..|init|]
    ensures WordsUpTo(outline, n) == WordsUpTo(init, n)
  {
    if n > 0 {
      WordsUpToPrefix(outline, init, n - 1);
    }
  }

  /** With distinct titles the breakdown's words add up to the total. */
  lemma BreakdownSumsToTotal(outline: seq<Section>)
    requires AllTitled(outline)
    requires forall i, j | 0 <= i < j < |outline| :: outline[i].title != outline[j].title
    ensures BreakdownWords(Breakdown(outline, |outline|)) == TotalWords(outline)
  {
    BreakdownAccountsForTotal(outline, |outline|);
    WordsUpToAll(outline);
  }

  /** With distinct titles, section `n - 1`'s title is not yet a key. */
  lemma NewTitle(outline: seq<Section>, n: nat, prev: Dict<string, Allocation>)
    requires 0 < n <= |outline| && AllTitled(outline)
    requires forall i, j | 0 <= i < j < |outline| :: outline[i].title != outline[j].title
    requires prev == Breakdown(outline, n - 1)
    ensures outline[n - 1].title.value !in Keys(prev)
  {
  }

  lemma {:induction false} BreakdownWordsAppend(a: Dict<string, Allocation>, b: Dict<string, Allocation>)
    ensures BreakdownWords(a + b) == BreakdownWords(a) + BreakdownWords(b)
  {
    if |a| == 0 {
      assert a + b == b;
    } else {
      assert (a + b)[1..] == a[1..] + b;
      BreakdownWordsAppend(a[1..], b);
    }
  }

  /** A one-section outline is high priority; so are the ends of any
      outline, and only those. */
  lemma PriorityEnds(n: nat, i: nat)
    requires i < n
    ensures PriorityAt(i, n) == High <==> i == 0 || i == n - 1
    ensures n == 1 ==> PriorityAt(i, n) == High
  {
  }

  // ---------------------------------------------------------------------
  // The planning stage

  datatype Plan<V> = Plan(
    topic: string,
    outline: seq<Section>,
    visualizationPlan: seq<V>,
    contentPlan: ContentPlan,
    estimatedSections: int,
    estimatedCharts: int)

  /** `PlanningAgent.process`: outline, then visualisations, then the
      content distribution; the first error ends the stage. */
  function Process<V>(topic: string, outlineReply: Option<Decoded<Section>>, vizReply: Option<Decoded<V>>): (r: Result<Plan<V>, PlanError>)
    ensures outlineReply.None? ==> r == Failure(LlmRequestFailed)
    ensures r.Success? ==> r.value.topic == topic
    ensures r.Success? ==> r.value.estimatedSections == |r.value.outline| && r.value.estimatedCharts == |r.value.visualizationPlan|
    ensures r.Success? ==> r.value.outline == CreateOutline(topic, outlineReply.value)
    ensures r.Success? ==> AllTitled(r.value.outline)
    ensures outlineReply.Some? ==> (r.Success? <==>
      PlanVisualizations(CreateOutline(topic, outlineReply.value), vizReply).Success? &&
      ContentDistribution(CreateOutline(topic, outlineReply.value)).Success?)
    ensures outlineReply.Some? && PlanVisualizations(CreateOutline(topic, outlineReply.value), vizReply).Failure? ==>
      r == Failure(PlanVisualizations(CreateOutline(topic, outlineReply.value), vizReply).error)
    ensures (outlineReply.Some? && PlanVisualizations(CreateOutline(topic, outlineReply.value), vizReply).Success? &&
             ContentDistribution(CreateOutline(topic, outlineReply.value)).Failure?) ==>
      r == Failure(ContentDistribution(CreateOutline(topic, outlineReply.value)).error)
    ensures r.Success? ==> r.value.visualizationPlan == PlanVisualizations(r.value.outline, vizReply).value
    ensures r.Success? ==> r.value.contentPlan == ContentDistribution(r.value.outline).value
  {
    if outlineReply.None? then Failure(LlmRequestFailed)
    else
      var outline := CreateOutline(topic, outlineReply.value);
      match PlanVisualizations(outline, vizReply)
      case Failure(e) => Failure(e)
      case Success(viz) =>
        match ContentDistribution(outline)
        case Failure(e) => Failure(e)
        case Success(content) => Success(Plan(topic, outline, viz, content, |outline|, |viz|))
  }

  /** When the outline reply is not JSON the stage still succeeds, given a
      visualisation reply, with three sections. */
  lemma FallbackPlanSucceeds<V>(topic: string, vizReply: Option<Decoded<V>>)
    requires vizReply.Some?
    ensures Process(topic, Some(DecodeError), vizReply).Success?
    ensures Process(topic, Some(DecodeError), vizReply).value.estimatedSections == 3
  {
    FallbackOutlineShape(topic);
    var o := CreateOutline(topic, DecodeError);
    assert FirstMissingKey(o).None?;
  }
}

=== FILE: records.dfy ===
/** The result record every search adapter produces (a Python dict with the
    keys `title`, `url`, `snippet` and `source`). */
module Records {
  import opened Wrappers

  /** One search hit. `url` is `None` where the adapter stored Python's
      `None` (an arXiv `<id>` element without text); `source` is `None` for
      a record without a `source` key. */
  datatype Record = Record(title: string, url: Option<string>, snippet: string, source: Option<string>)

  /** `result.get('url', '')` as a truth value and set member: a missing or
      `None` URL behaves exactly like the empty string. */
  function UrlKey(r: Record): string {
    r.url.GetOr("")
  }

  /** `result.get('source', 'unknown')`. */
  function SourceTag(r: Record): string {
    r.source.GetOr("unknown")
  }

  /** Records carrying a non-empty URL. */
  predicate HasUrl(r: Record) {
    UrlKey(r) != ""
  }
}

=== FILE: researcher.dfy ===
/** The research stage of `src/agents/researcher.py`: query-list
    construction from the language model's reply, the fan-out of every
    query to every active source, the order-preserving merge of their
    results, URL deduplication, the relevance ranking with its cap, and the
    per-source counts. Language-model replies are inputs (`None` when the
    request failed); the float parser is a parameter. */
module Researcher {
  import opened Wrappers
  import opened Text
  import opened Seqs
  import opened Records
  import opened StableSort
  import opened OrderedMap
  import opened Sources

  /** At most this many queries are kept. */
  const MaxQueries := 7
  /** Ranking by the language model runs only above this many records. */
  const RankThreshold := 10
  /** Every source is asked for this many results per query. */
  const ResultsPerSearch := 5
  /** `research.max_sources_per_query` in the default configuration. */
  const DefaultMaxSources := 10

  // ---------------------------------------------------------------------
  // Queries

  /** The stripped, non-empty lines of the reply, in order, repeats kept. */
  function QueryLines(response: string): (ls: seq<string>)
    ensures forall l <- ls :: |l| > 0 && Strip(l) == l
  {
    StrippedNonEmpty(SplitOn(response, '\n'))
  }

  /** Partner of `QueryLines`: stripped, non-blank queries written one per
      line are read back exactly. */
  lemma QueryLinesOfJoin(qs: seq<string>)
    requires |qs| > 0
    requires forall q <- qs :: |q| > 0 && Strip(q) == q && '\n' !in q
    ensures QueryLines(JoinOn(qs, '\n')) == qs
  {
    SplitOfJoin(qs, '\n');
    StrippedNonEmptyOfStripped(qs);
  }

  /** The query list built from the reply lines: the topic is put first
      when the lines lack it, and the list is cut to seven. */
  function QueriesFrom(topic: string, lines: seq<string>): (qs: seq<string>)
    ensures |qs| <= MaxQueries
    ensures forall q <- qs :: q == topic || q in lines
  {
    var all := if topic in lines then lines else [topic] + lines;
    var qs := Take(all, MaxQueries);
    forall q <- qs ensures q == topic || q in lines {
      var i :| 0 <= i < |qs| && qs[i] == q;
      assert all[i] == q;
    }
    qs
  }

  /** `_generate_search_queries` after the model has replied. */
  function GenerateQueries(topic: string, response: string): (qs: seq<string>)
    ensures |qs| <= MaxQueries
    ensures forall q <- qs :: q == topic || q in QueryLines(response)
  {
    QueriesFrom(topic, QueryLines(response))
  }

  /** The topic leads the list exactly when the lines do not contain it;
      otherwise the list is the first seven lines. */
  lemma QueriesFromShape(topic: string, lines: seq<string>)
    ensures topic !in lines ==> QueriesFrom(topic, lines) == [topic] + Take(lines, MaxQueries - 1)
    ensures topic in lines ==> QueriesFrom(topic, lines) == Take(lines, MaxQueries)
  {
    if topic !in lines {
      assert ([topic] + lines)[1..] == lines;
    }
  }

  /** The same, for the reply: the topic leads exactly when the reply did
      not contain it. */
  lemma GenerateQueriesShape(topic: string, response: string)
    ensures topic !in QueryLines(response) ==>
      GenerateQueries(topic, response) == [topic] + Take(QueryLines(response), MaxQueries - 1)
    ensures topic in QueryLines(response) ==>
      GenerateQueries(topic, response) == Take(QueryLines(response), MaxQueries)
  {
    QueriesFromShape(topic, QueryLines(response));
  }

  /** The topic survives in the query list exactly when the lines lack it
      or have it among their first seven: a topic that the model listed
      only in eighth place or later is cut off. */
  lemma TopicPresence(topic: string, lines: seq<string>)
    ensures topic in QueriesFrom(topic, lines) <==> topic !in lines || topic in Take(lines, MaxQueries)
  {
    QueriesFromShape(topic, lines);
    if topic !in lines {
      assert QueriesFrom(topic, lines)[0] == topic;
    }
  }

  // ---------------------------------------------------------------------
  // Fan-out and merge

  /** One call of `_search_with_source`. */
  datatype Task = Task(query: string, source: Adapter)

  /** What a task's coroutine did: raised, or returned its records. */
  datatype TaskOutcome = Raised | Returned(records: seq<Record>)

  /** The tasks in submission order: query-major, source-minor. */
  function Tasks(queries: seq<string>, sources: seq<Adapter>): (ts: seq<Task>)
    ensures |ts| == |queries| * |sources|
  {
    if |queries| == 0 then []
    else
      var row := seq(|sources|, j requires 0 <= j < |sources| => Task(queries[0], sources[j]));
      var rest := Tasks(queries[1..], sources);
      assert |row + rest| == |sources| + (|queries| - 1) * |sources|;
      row + rest
  }

  /** Task `i * |sources| + j` searches query `i` with source `j`. */
  lemma {:induction false} TaskAt(queries: seq<string>, sources: seq<Adapter>, i: nat, j: nat)
    requires i < |queries| && j < |sources|
    ensures i * |sources| + j < |Tasks(queries, sources)|
    ensures Tasks(queries, sources)[i * |sources| + j] == Task(queries[i], sources[j])
  {
    var n := |sources|;
    RowBound(i, |queries|, n, j);
    if i > 0 {
      TaskAt(queries[1..], sources, i - 1, j);
      MulPred(i, n);
    }
  }

  lemma MulPred(i: nat, n: nat)
    requires i > 0
    ensures (i - 1) * n + n == i * n
  {
  }

  /** Column `j` of row `i` lies inside a `q` by `n` grid. */
  lemma {:induction false} RowBound(i: nat, q: nat, n: nat, j: nat)
    requires i < q && j < n
    ensures i * n + j < q * n
  {
    if i + 1 < q {
      RowBound(i, q - 1, n, j);
      MulPred(q, n);
    } else {
      MulPred(q, n);
    }
  }

  /** `_search_with_source`: a raising search contributes nothing. */
  function Guarded(o: TaskOutcome): seq<Record> {
    match o
    case Raised => []
    case Returned(rs) => rs
  }

  function GuardAll(outcomes: seq<TaskOutcome>): (r: seq<seq<Record>>)
    ensures |r| == |outcomes|
    ensures forall i | 0 <= i < |outcomes| :: r[i] == Guarded(outcomes[i])
  {
    seq(|outcomes|, i requires 0 <= i < |outcomes| => Guarded(outcomes[i]))
  }

  function Flatten(xss: seq<seq<Record>>): seq<Record> {
    if |xss| == 0 then [] else xss[0] + Flatten(xss[1..])
  }

  lemma {:induction false} FlattenAppend(a: seq<seq<Record>>, b: seq<seq<Record>>)
    ensures Flatten(a + b) == Flatten(a) + Flatten(b)
  {
    if |a| == 0 {
      assert a + b == b;
    } else {
      assert (a + b)[1..] == a[1..] + b;
      FlattenAppend(a[1..], b);
    }
  }

  /** The flattening loop after `gather`: every task's records, in task
      order. */
  function Merge(outcomes: seq<TaskOutcome>): seq<Record> {
    Flatten(GuardAll(outcomes))
  }

  lemma MergeAppend(a: seq<TaskOutcome>, b: seq<TaskOutcome>)
    ensures Merge(a + b) == Merge(a) + Merge(b)
  {
    assert GuardAll(a + b) == GuardAll(a) + GuardAll(b);
    FlattenAppend(GuardAll(a), GuardAll(b));
  }

  /** A task that raises removes only its own contribution: the records of
      the tasks before and after it are merged as if it were absent. */
  lemma MergeIsolatesFailure(outcomes: seq<TaskOutcome>, i: nat)
    requires i < |outcomes|
    ensures Merge(outcomes[i := Raised]) == Merge(outcomes[..i]) + Merge(outcomes[i + 1..])
  {
    var os := outcomes[i := Raised];
    assert os == outcomes[..i] + [Raised] + outcomes[i + 1..];
    MergeAppend(outcomes[..i] + [Raised], outcomes[i + 1..]);
    MergeAppend(outcomes[..i], [Raised]);
    assert Merge([Raised]) == [] by {
      assert GuardAll([Raised]) == [[]];
    }
  }

  /** Every merged record comes from a task that returned it. */
  lemma {:induction false} MergeMember(outcomes: seq<TaskOutcome>, x: Record)
    requires x in Merge(outcomes)
    ensures exists i | 0 <= i < |outcomes| :: outcomes[i].Returned? && x in outcomes[i].records
  {
    if |outcomes| > 0 {
      HeadTail(outcomes);
      MergeAppend([outcomes[0]], outcomes[1..]);
      assert Merge([outcomes[0]]) == Guarded(outcomes[0]) by {
        assert GuardAll([outcomes[0]]) == [Guarded(outcomes[0])];
        assert Flatten([Guarded(outcomes[0])]) == Guarded(outcomes[0]) + Flatten([]);
      }
      if x !in Guarded(outcomes[0]) {
        MergeMember(outcomes[1..], x);
        var i :| 0 <= i < |outcomes[1..]| && outcomes[1..][i].Returned? && x in outcomes[1..][i].records;
        assert outcomes[i + 1] == outcomes[1..][i];
      }
    }
  }

  /** `asyncio.gather`: tasks finish in the order `completion` (a schedule
      that lists every task), each result lands in its task's own slot, so
      the gathered list is the same whatever the completion order. */
  method Gather(outcomes: seq<TaskOutcome>, completion: seq<nat>) returns (results: seq<seq<Record>>)
    requires forall k | 0 <= k < |completion| :: completion[k] < |outcomes|
    requires forall i | 0 <= i < |outcomes| :: i in completion
    ensures results == GuardAll(outcomes)
  {
    results := seq(|outcomes|, i => []);
    var k := 0;
    while k < |completion|
      invariant 0 <= k <= |completion|
      invariant |results| == |outcomes|
      invariant forall i | 0 <= i < |outcomes| && i in completion[..k] :: results[i] == Guarded(outcomes[i])
    {
      var t := completion[k];
      results := results[t := Guarded(outcomes[t])];
      assert completion[..k + 1] == completion[..k] + [t];
      k := k + 1;
    }
    assert completion[..k] == completion;
  }

  // ---------------------------------------------------------------------
  // Deduplication

  /** The URL keys of a list of records. */
  function Urls(rs: seq<Record>): set<string> {
    set x <- rs :: UrlKey(x)
  }

  /** The deduplication loop with `seen_urls` already holding `seen`. */
  function DedupeFrom(rs: seq<Record>, seen: set<string>): (r: seq<Record>)
    ensures forall i | 0 <= i < |r| :: HasUrl(r[i]) && UrlKey(r[i]) !in seen
    ensures DistinctKeys(r, UrlKey)
    ensures forall x <- r :: x in rs
    ensures Urls(r) == Urls(rs) - seen - {""}
  {
    if |rs| == 0 then []
    else
      var x := rs[0];
      var u := UrlKey(x);
      UrlsCons(x, rs[1..]);
      if u != "" && u !in seen then
        var rest := DedupeFrom(rs[1..], seen + {u});
        UrlsCons(x, rest);
        KeepHead(x, rest, rs);
        [x] + rest
      else
        DedupeFrom(rs[1..], seen)
  }

  lemma UrlsCons(x: Record, rest: seq<Record>)
    ensures Urls([x] + rest) == {UrlKey(x)} + Urls(rest)
  {
  }

  /** Putting a record in front of others with other URLs keeps the URLs
      distinct. */
  lemma KeepHead(x: Record, rest: seq<Record>, rs: seq<Record>)
    requires |rs| > 0 && rs[0] == x
    requires forall i | 0 <= i < |rest| :: UrlKey(rest[i]) !in {UrlKey(x)}
    requires DistinctKeys(rest, UrlKey)
    requires forall y <- rest :: y in rs[1..]
    ensures DistinctKeys([x] + rest, UrlKey)
    ensures forall y <- [x] + rest :: y in rs
  {
    var r := [x] + rest;
    forall i, j | 0 <= i < j < |r| ensures UrlKey(r[i]) != UrlKey(r[j]) {
      if i > 0 {
        assert r[i] == rest[i - 1] && r[j] == rest[j - 1];
      } else {
        assert r[j] == rest[j - 1];
      }
    }
    forall y | y in r ensures y in rs {
      if y != x {
        assert y in rest;
        assert y in rs[1..];
      }
    }
  }

  /** `_filter_and_rank_results`, first half: records with an empty or
      missing URL are dropped, and of several records with one URL only
      the first is kept. */
  function Dedupe(rs: seq<Record>): (r: seq<Record>)
    ensures forall i | 0 <= i < |r| :: HasUrl(r[i])
    ensures DistinctKeys(r, UrlKey)
    ensures forall x <- r :: x in rs
    ensures Urls(r) == Urls(rs) - {""}
  {
    DedupeFrom(rs, {})
  }

  /** Reference definition: keep a record when it has a URL that no earlier
      record carries. */
  function KeepFirsts(rs: seq<Record>): seq<Record> {
    if |rs| == 0 then []
    else
      var init := rs[..|rs| - 1];
      var x := rs[|rs| - 1];
      KeepFirsts(init) + (if HasUrl(x) && UrlKey(x) !in Urls(init) then [x] else [])
  }

  lemma {:induction false} DedupeSnoc(a: seq<Record>, x: Record, seen: set<string>)
    ensures DedupeFrom(a + [x], seen)
         == DedupeFrom(a, seen) + (if HasUrl(x) && UrlKey(x) !in seen + Urls(a) then [x] else [])
  {
    if |a| == 0 {
      assert a + [x] == [x];
      assert [x][1..] == [];
    } else {
      var y := a[0];
      var u := UrlKey(y);
      var t := a[1..];
      var tail := if HasUrl(x) && UrlKey(x) !in seen + Urls(a) then [x] else [];
      HeadTail(a);
      ConsAppend(y, t, [x]);
      DedupeFromCons(y, t + [x], seen);
      DedupeFromCons(y, t, seen);
      UrlsCons(y, t);
      if u != "" && u !in seen {
        DedupeSnoc(t, x, seen + {u});
        assert seen + {u} + Urls(t) == seen + Urls(a);
        AppendAssoc([y], DedupeFrom(t, seen + {u}), tail);
      } else {
        DedupeSnoc(t, x, seen);
        assert (HasUrl(x) && UrlKey(x) !in seen + Urls(a)) <==> (HasUrl(x) && UrlKey(x) !in seen + Urls(t));
      }
    }
  }

  /** One step of the de-duplication loop, on a list with a known head. */
  lemma DedupeFromCons(y: Record, t: seq<Record>, seen: set<string>)
    ensures DedupeFrom([y] + t, seen)
         == if UrlKey(y) != "" && UrlKey(y) !in seen then [y] + DedupeFrom(t, seen + {UrlKey(y)}) else DedupeFrom(t, seen)
  {
    assert ([y] + t)[0] == y;
    assert ([y] + t)[1..] == t;
  }

  /** The loop keeps exactly the first record of every non-empty URL. */
  lemma {:induction false} DedupeIsKeepFirsts(rs: seq<Record>)
    ensures Dedupe(rs) == KeepFirsts(rs)
  {
    if |rs| > 0 {
      var init := rs[..|rs| - 1];
      var x := rs[|rs| - 1];
      InitLast(rs);
      DedupeSnoc(init, x, {});
      assert {} + Urls(init) == Urls(init);
      DedupeIsKeepFirsts(init);
    }
  }

  /** A list that already has distinct non-empty URLs passes unchanged. */
  lemma {:induction false} DedupeOfDistinct(rs: seq<Record>, seen: set<string>)
    requires forall i | 0 <= i < |rs| :: HasUrl(rs[i]) && UrlKey(rs[i]) !in seen
    requires DistinctKeys(rs, UrlKey)
    ensures DedupeFrom(rs, seen) == rs
  {
    if |rs| > 0 {
      var u := UrlKey(rs[0]);
      forall i | 0 <= i < |rs[1..]| ensures UrlKey(rs[1..][i]) !in seen + {u} {
        assert rs[1..][i] == rs[i + 1];
      }
      DedupeOfDistinct(rs[1..], seen + {u});
    }
  }

  lemma DedupeIdempotent(rs: seq<Record>)
    ensures Dedupe(Dedupe(rs)) == Dedupe(rs)
  {
    DedupeOfDistinct(Dedupe(rs), {});
  }

  // ---------------------------------------------------------------------
  // Ranking

  /** Parses every piece; one failure fails the whole list, as the list
      comprehension raises on its first bad piece. */
  function ParseAll(pieces: seq<string>, parseFloat: string -> Option<real>): (r: Option<seq<real>>)
    ensures r.Some? <==> forall i | 0 <= i < |pieces| :: parseFloat(pieces[i]).Some?
    ensures r.Some? ==> |r.value| == |pieces|
    ensures r.Some? ==> forall i | 0 <= i < |pieces| :: r.value[i] == parseFloat(pieces[i]).value
  {
    if |pieces| == 0 then Some([])
    else match parseFloat(pieces[0])
      case None => None
      case Some(v) =>
        match ParseAll(pieces[1..], parseFloat)
        case None =>
          assert !parseFloat(pieces[1..][0]).Some? || exists i | 0 <= i < |pieces[1..]| :: !parseFloat(pieces[1..][i]).Some?;
          None
        case Some(vs) => Some([v] + vs)
  }

  /** `[float(x.strip()) for x in response.split(',') if x.strip()]`. */
  function ParseScores(response: string, parseFloat: string -> Option<real>): Option<seq<real>> {
    ParseAll(StrippedNonEmpty(SplitOn(response, ',')), parseFloat)
  }

  function ScoreOf(p: (Record, real)): real { p.1 }

  /** `scored_results.sort(key=lambda x: x[1], reverse=True)` on the zipped
      pairs: highest score first, ties in input order, surplus records or
      surplus scores dropped by `zip`. */
  function ScoredRanking(results: seq<Record>, scores: seq<real>): (r: seq<(Record, real)>)
    ensures |r| == Min(|results|, |scores|)
    ensures SortedDesc(r, ScoreOf)
    ensures multiset(r) == multiset(Zip(results, scores))
    ensures forall v: real :: WithKey(r, ScoreOf, v) == WithKey(Zip(results, scores), ScoreOf, v)
  {
    SortIsStableForAll(Zip(results, scores), ScoreOf);
    Sort(Zip(results, scores), ScoreOf)
  }

  lemma SortIsStableForAll<T>(xs: seq<T>, key: T -> real)
    ensures forall v: real :: WithKey(Sort(xs, key), key, v) == WithKey(xs, key, v)
  {
    forall v: real ensures WithKey(Sort(xs, key), key, v) == WithKey(xs, key, v) {
      SortIsStable(xs, key, v);
    }
  }

  /** `_rank_results_by_relevance` after the model has replied: a failed
      request or an unparsable score returns the input order. */
  function RankByRelevance(results: seq<Record>, reply: Option<string>, parseFloat: string -> Option<real>): (r: seq<Record>)
    ensures reply.None? ==> r == results
    ensures reply.Some? && ParseScores(reply.value, parseFloat).None? ==> r == results
    ensures reply.Some? && ParseScores(reply.value, parseFloat).Some? ==>
      var ranked := ScoredRanking(results, ParseScores(reply.value, parseFloat).value);
      |r| == |ranked| && forall i | 0 <= i < |r| :: r[i] == ranked[i].0
  {
    if reply.None? then results
    else match ParseScores(reply.value, parseFloat)
      case None => results
      case Some(scores) => Firsts(ScoredRanking(results, scores))
  }

  /** The URL key of a scored pair. */
  function PairUrl(p: (Record, real)): string {
    UrlKey(p.0)
  }

  /** Every ranked pair holds one of the inputs, and distinct URLs stay
      distinct. */
  lemma RankedPairsKept(results: seq<Record>, scores: seq<real>)
    ensures forall p <- ScoredRanking(results, scores) :: p.0 in results
    ensures DistinctKeys(results, UrlKey) ==> DistinctKeys(ScoredRanking(results, scores), PairUrl)
  {
    var z := Zip(results, scores);
    var ranked := ScoredRanking(results, scores);
    forall p <- ranked ensures p.0 in results {
      assert p in multiset(z) by {
        assert p in multiset(ranked);
      }
      var k :| 0 <= k < |z| && z[k] == p;
    }
    if DistinctKeys(results, UrlKey) {
      assert DistinctKeys(z, PairUrl) by {
        forall i, j | 0 <= i < j < |z| ensures PairUrl(z[i]) != PairUrl(z[j]) {
          assert UrlKey(results[i]) != UrlKey(results[j]);
        }
      }
      DistinctKeysSubMultiset(z, ranked, PairUrl);
    }
  }

  /** Dropping the scores keeps the records and their distinct URLs. */
  lemma FirstsKept(ranked: seq<(Record, real)>, results: seq<Record>)
    requires forall p <- ranked :: p.0 in results
    ensures forall x <- Firsts(ranked) :: x in results
    ensures DistinctKeys(ranked, PairUrl) ==> DistinctKeys(Firsts(ranked), UrlKey)
  {
    var r := Firsts(ranked);
    forall x <- r ensures x in results {
      var i :| 0 <= i < |r| && r[i] == x;
      assert ranked[i] in ranked;
    }
    if DistinctKeys(ranked, PairUrl) {
      forall i, j | 0 <= i < j < |r| ensures UrlKey(r[i]) != UrlKey(r[j]) {
        assert PairUrl(ranked[i]) != PairUrl(ranked[j]);
      }
    }
  }

  /** Every ranked record is one of the inputs, and distinct URLs stay
      distinct. */
  lemma RankKeepsRecords(results: seq<Record>, reply: Option<string>, parseFloat: string -> Option<real>)
    ensures forall x <- RankByRelevance(results, reply, parseFloat) :: x in results
    ensures DistinctKeys(results, UrlKey) ==> DistinctKeys(RankByRelevance(results, reply, parseFloat), UrlKey)
  {
    if reply.Some? {
      match ParseScores(reply.value, parseFloat)
      case None =>
      case Some(scores) =>
        RankedPairsKept(results, scores);
        FirstsKept(ScoredRanking(results, scores), results);
    }
  }

  /** The first ranked record has the highest score of all paired records. */
  lemma RankedFirstHasTopScore(results: seq<Record>, scores: seq<real>, i: nat)
    requires i < Min(|results|, |scores|)
    ensures ScoreOf(ScoredRanking(results, scores)[0]) >= scores[i]
  {
    SortHeadIsMax(Zip(results, scores), ScoreOf, i);
  }

  /** A reply with fewer scores than records silently drops the surplus
      records instead of being rejected. */
  lemma ShortScoreListTruncates(results: seq<Record>, reply: string, parseFloat: string -> Option<real>)
    requires ParseScores(reply, parseFloat).Some?
    requires |ParseScores(reply, parseFloat).value| < |results|
    ensures |RankByRelevance(results, Some(reply), parseFloat)| == |ParseScores(reply, parseFloat).value| < |results|
  {
  }

  // ---------------------------------------------------------------------
  // Filter and rank

  /** `_filter_and_rank_results`: deduplicate; only above ten records rank
      and cut to `maxSources`. */
  function FilterAndRank(rs: seq<Record>, maxSources: nat, reply: Option<string>, parseFloat: string -> Option<real>): (r: seq<Record>)
    ensures forall i | 0 <= i < |r| :: HasUrl(r[i])
    ensures DistinctKeys(r, UrlKey)
    ensures forall x <- r :: x in rs
    ensures |Dedupe(rs)| <= RankThreshold ==> r == Dedupe(rs)
    ensures |Dedupe(rs)| > RankThreshold ==> |r| <= maxSources
    ensures |Dedupe(rs)| > RankThreshold ==> r == Take(RankByRelevance(Dedupe(rs), reply, parseFloat), maxSources)
  {
    var unique := Dedupe(rs);
    if |unique| > RankThreshold then
      var ranked := RankByRelevance(unique, reply, parseFloat);
      RankKeepsRecords(unique, reply, parseFloat);
      var r := Take(ranked, maxSources);
      assert forall i | 0 <= i < |r| :: r[i] == ranked[i];
      assert forall i | 0 <= i < |r| :: r[i] in unique;
      r
    else unique
  }

  /** Above the threshold, with a parsed score list, no record left out of
      the result outscores one kept: record `i` of the deduplicated list,
      when it scores higher than the `j`-th kept record, is kept too. */
  lemma FilterAndRankKeepsTop(rs: seq<Record>, maxSources: nat, reply: string, parseFloat: string -> Option<real>, i: nat, j: nat)
    requires |Dedupe(rs)| > RankThreshold
    requires ParseScores(reply, parseFloat).Some?
    requires i < Min(|Dedupe(rs)|, |ParseScores(reply, parseFloat).value|)
    requires j < |FilterAndRank(rs, maxSources, Some(reply), parseFloat)|
    requires ParseScores(reply, parseFloat).value[i] > ScoreOf(ScoredRanking(Dedupe(rs), ParseScores(reply, parseFloat).value)[j])
    ensures Dedupe(rs)[i] in FilterAndRank(rs, maxSources, Some(reply), parseFloat)
  {
    var unique := Dedupe(rs);
    var scores := ParseScores(reply, parseFloat).value;
    var ranked := ScoredRanking(unique, scores);
    var rank := RankByRelevance(unique, Some(reply), parseFloat);
    var r := FilterAndRank(rs, maxSources, Some(reply), parseFloat);
    assert r == Take(rank, maxSources);
    ScoredTopKept(unique, scores, maxSources, i, j);
    var t := Take(ranked, maxSources);
    var k :| 0 <= k < |t| && t[k] == (unique[i], scores[i]);
    TakeFirstsAt(ranked, rank, maxSources, k);
  }

  /** Dropping the scores and cutting commute, position by position. */
  lemma TakeFirstsAt(ranked: seq<(Record, real)>, rank: seq<Record>, n: nat, k: nat)
    requires |rank| == |ranked| && forall q | 0 <= q < |rank| :: rank[q] == ranked[q].0
    requires k < |Take(ranked, n)|
    ensures Take(ranked, n)[k].0 in Take(rank, n)
  {
    assert Take(rank, n)[k] == rank[k];
  }

  /** The pair of record `i` is among the first `n` ranked pairs when it
      outscores the `j`-th of them. */
  lemma ScoredTopKept(results: seq<Record>, scores: seq<real>, n: nat, i: nat, j: nat)
    requires i < Min(|results|, |scores|)
    requires j < |Take(ScoredRanking(results, scores), n)|
    requires scores[i] > ScoreOf(ScoredRanking(results, scores)[j])
    ensures (results[i], scores[i]) in Take(ScoredRanking(results, scores), n)
  {
    var z := Zip(results, scores);
    assert z[i] == (results[i], scores[i]);
    SortTopKept(z, ScoreOf, n, z[i], j);
  }

  /** With the default cap the result never exceeds ten records. */
  lemma FilterAndRankBounded(rs: seq<Record>, reply: Option<string>, parseFloat: string -> Option<real>)
    ensures |FilterAndRank(rs, DefaultMaxSources, reply, parseFloat)| <= DefaultMaxSources
  {
  }

  /** The cap does not apply without ranking: a cap below the number of
      unique records is exceeded when there are at most ten of them. */
  lemma CapSkippedWithoutRanking(rs: seq<Record>, maxSources: nat, reply: Option<string>, parseFloat: string -> Option<real>)
    requires maxSources < |Dedupe(rs)| <= RankThreshold
    ensures |FilterAndRank(rs, maxSources, reply, parseFloat)| > maxSources
  {
  }

  // ---------------------------------------------------------------------
  // Counting

  /** `result.get('source', 'unknown')` for every record. */
  function Tags(rs: seq<Record>): (ts: seq<string>)
    ensures |ts| == |rs|
    ensures forall i | 0 <= i < |rs| :: ts[i] == SourceTag(rs[i])
  {
    seq(|rs|, i requires 0 <= i < |rs| => SourceTag(rs[i]))
  }

  /** The counting loop of `_count_sources`: each tag in turn increments
      its count in `m`, a new tag being added at the end. */
  function CountInto(m: Dict<string, int>, tags: seq<string>): (r: Dict<string, int>)
    requires KeysDistinct(m)
    ensures KeysDistinct(r)
    ensures forall k :: Get(r, k).GetOr(0) == Get(m, k).GetOr(0) + multiset(tags)[k]
    ensures forall k :: k in Keys(r) <==> k in Keys(m) || k in tags
    ensures SumValues(r) == SumValues(m) + |tags|
    decreases |tags|
  {
    if |tags| == 0 then m
    else
      var t := tags[0];
      HeadTail(tags);
      CountInto(Increment(m, t), tags[1..])
  }

  /** `counts[t] = counts.get(t, 0) + 1`: one more for `t`, which becomes
      a key if it was not one; every other count unchanged. */
  function Increment(m: Dict<string, int>, t: string): (r: Dict<string, int>)
    requires KeysDistinct(m)
    ensures KeysDistinct(r)
    ensures forall k :: Get(r, k).GetOr(0) == Get(m, k).GetOr(0) + (if k == t then 1 else 0)
    ensures forall k :: k in Keys(r) <==> k in Keys(m) || k == t
    ensures SumValues(r) == SumValues(m) + 1
  {
    var v := Get(m, t).GetOr(0) + 1;
    PutEffect(m, t, v);
    Put(m, t, v)
  }

  /** What a put does to the other keys, to the key set and to the sum. */
  lemma PutEffect(m: Dict<string, int>, t: string, v: int)
    requires KeysDistinct(m)
    ensures forall k | k != t :: Get(Put(m, t, v), k) == Get(m, k)
    ensures forall k :: k in Keys(Put(m, t, v)) <==> k in Keys(m) || k == t
    ensures SumValues(Put(m, t, v)) == SumValues(m) - Get(m, t).GetOr(0) + v
  {
    forall k | k != t ensures Get(Put(m, t, v), k) == Get(m, k) {
      PutOther(m, t, v, k);
    }
    SumValuesPut(m, t, v);
  }

  /** `_count_sources`: each tag maps to its number of occurrences, the
      keys are exactly the tags present, and the counts add up to the
      number of records. */
  function CountSources(rs: seq<Record>): (m: Dict<string, int>)
    ensures KeysDistinct(m)
    ensures forall k :: Get(m, k).GetOr(0) == multiset(Tags(rs))[k]
    ensures forall k :: k in Keys(m) <==> k in Tags(rs)
    ensures SumValues(m) == |rs|
  {
    CountInto([], Tags(rs))
  }

  // ---------------------------------------------------------------------
  // The research stage

  /** `GOOGLE_API_KEY` and `GOOGLE_CSE_ID` as read from the environment. */
  datatype Environment = Environment(googleApiKey: Option<string>, googleCseId: Option<string>)

  /** `_initialize_sources`: Google needs both credentials non-empty; arXiv
      and Wikipedia are always active, in that order, last. */
  function ActiveAdapters(env: Environment): (r: seq<Adapter>)
    ensures |r| >= 2 && r[|r| - 2] == ArxivAdapter && r[|r| - 1] == WikipediaAdapter
    ensures r[0].GoogleAdapter? <==>
      env.googleApiKey.GetOr("") != "" && env.googleCseId.GetOr("") != ""
    ensures |r| <= 3
  {
    var key := env.googleApiKey.GetOr("");
    var cx := env.googleCseId.GetOr("");
    if key != "" && cx != "" then [GoogleAdapter(key, cx), ArxivAdapter, WikipediaAdapter]
    else [ArxivAdapter, WikipediaAdapter]
  }

  /** The three model replies of one run (`None` for a failed request). */
  datatype LlmReplies = LlmReplies(queries: Option<string>, ranking: Option<string>, synthesis: Option<string>)

  /** The dictionary `process` returns. */
  datatype ResearchData = ResearchData(
    topic: string,
    searchQueries: seq<string>,
    rawResults: seq<Record>,
    synthesis: string,
    sourceCount: int,
    sourcesBreakdown: Dict<string, int>)

  /** The outcome of every task: the adapters never raise. */
  function SearchAll(tasks: seq<Task>, net: Network): (os: seq<TaskOutcome>)
    ensures |os| == |tasks|
    ensures forall i | 0 <= i < |tasks| :: os[i] == Returned(AdapterSearch(tasks[i].source, tasks[i].query, ResultsPerSearch, net))
  {
    seq(|tasks|, i requires 0 <= i < |tasks| => Returned(AdapterSearch(tasks[i].source, tasks[i].query, ResultsPerSearch, net)))
  }

  /** `ResearchAgent.process`. A failed query-generation or synthesis
      request propagates out of it; nothing else fails. */
  function Process(topic: string, env: Environment, net: Network, llm: LlmReplies,
                   parseFloat: string -> Option<real>, maxSources: nat): (r: Result<ResearchData, string>)
    ensures r.Success? <==> llm.queries.Some? && llm.synthesis.Some?
    ensures r.Success? ==> r.value.topic == topic && r.value.synthesis == llm.synthesis.value
    ensures r.Success? ==> r.value.searchQueries == GenerateQueries(topic, llm.queries.value)
    ensures r.Success? ==> (r.value.rawResults ==
      FilterAndRank(Merge(SearchAll(Tasks(r.value.searchQueries, ActiveAdapters(env)), net)), maxSources, llm.ranking, parseFloat))
    ensures r.Success? ==> r.value.sourcesBreakdown == CountSources(r.value.rawResults)
    ensures r.Success? ==> |r.value.searchQueries| <= MaxQueries
    ensures r.Success? ==> r.value.sourceCount == |r.value.rawResults| == SumValues(r.value.sourcesBreakdown)
    ensures r.Success? ==> DistinctKeys(r.value.rawResults, UrlKey)
    ensures r.Success? ==> forall x <- r.value.rawResults :: HasUrl(x)
  {
    if llm.queries.None? then Failure("LLM request failed")
    else
      var queries := GenerateQueries(topic, llm.queries.value);
      var tasks := Tasks(queries, ActiveAdapters(env));
      var all := Merge(SearchAll(tasks, net));
      var filtered := FilterAndRank(all, maxSources, llm.ranking, parseFloat);
      if llm.synthesis.None? then Failure("LLM request failed")
      else Success(ResearchData(topic, queries, filtered, llm.synthesis.value, |filtered|, CountSources(filtered)))
  }

  /** A record of some source's results is tagged with one of the three
      adapter names. */
  predicate KnownSource(x: Record) {
    x.source == Some("google") || x.source == Some("arxiv") || x.source == Some("wikipedia")
  }

  /** Every merged record of the searches is tagged by its adapter. */
  lemma SearchTags(tasks: seq<Task>, net: Network)
    ensures forall x <- Merge(SearchAll(tasks, net)) :: KnownSource(x)
  {
    var os := SearchAll(tasks, net);
    forall x | x in Merge(os) ensures KnownSource(x) {
      MergeMember(os, x);
      var i :| 0 <= i < |os| && os[i].Returned? && x in os[i].records;
      var k :| 0 <= k < |os[i].records| && os[i].records[k] == x;
      assert x.source == Some(SourceName(tasks[i].source));
    }
  }

  /** Every reported record comes from one of the three adapters. */
  lemma ProcessSourceTags(topic: string, env: Environment, net: Network, llm: LlmReplies,
                          parseFloat: string -> Option<real>, maxSources: nat)
    requires Process(topic, env, net, llm, parseFloat, maxSources).Success?
    ensures forall x <- Process(topic, env, net, llm, parseFloat, maxSources).value.rawResults :: KnownSource(x)
  {
    var tasks := Tasks(GenerateQueries(topic, llm.queries.value), ActiveAdapters(env));
    SearchTags(tasks, net);
  }
}

=== FILE: seqs.dfy ===
/** Small sequence helpers shared by the model: Python's `s[:n]`, the
    `zip` of two lists, and integer sums. */
module Seqs {

  function Min(a: int, b: int): int {
    if a <= b then a else b
  }

  /** Python's `s[:n]` for a non-negative `n`: the first `n` elements, or
      all of `s` when it is shorter. */
  function Take<T>(s: seq<T>, n: nat): (r: seq<T>)
    ensures |r| == Min(n, |s|)
    ensures r == s[..|r|]
  {
    if n < |s| then s[..n] else s
  }

  /** Python's `list(zip(a, b))`: pairs up to the shorter length. */
  function Zip<A, B>(a: seq<A>, b: seq<B>): (r: seq<(A, B)>)
    ensures |r| == Min(|a|, |b|)
    ensures forall i | 0 <= i < |r| :: r[i] == (a[i], b[i])
  {
    if |a| == 0 || |b| == 0 then [] else [(a[0], b[0])] + Zip(a[1..], b[1..])
  }

  /** The first components of a list of pairs. */
  function Firsts<A, B>(ps: seq<(A, B)>): (r: seq<A>)
    ensures |r| == |ps|
    ensures forall i | 0 <= i < |ps| :: r[i] == ps[i].0
  {
    seq(|ps|, i requires 0 <= i < |ps| => ps[i].0)
  }

  /** A non-empty sequence is its head followed by its tail. */
  lemma HeadTail<T>(s: seq<T>)
    requires |s| > 0
    ensures s == [s[0]] + s[1..]
  {
  }

  /** The members of a non-empty sequence are its head and those of its
      tail. */
  lemma HeadTailMembers<T>(s: seq<T>)
    requires |s| > 0
    ensures forall x <- s :: x == s[0] || x in s[1..]
    ensures forall x <- s[1..] :: x in s
  {
    HeadTail(s);
  }

  /** A sequence is what precedes position `i`, the element there, and
      what follows. */
  lemma AroundIndex<T>(s: seq<T>, i: int)
    requires 0 <= i < |s|
    ensures s == s[..i] + [s[i]] + s[i + 1..]
  {
  }

  /** Cutting a concatenation inside its first part. */
  lemma AppendSlices<T>(t: seq<T>, b: seq<T>, n: int)
    requires 0 <= n <= |t|
    ensures (t + b)[..n] == t[..n]
    ensures (t + b)[n..] == t[n..] + b
  {
  }

  /** A non-empty sequence is its front followed by its last element. */
  lemma InitLast<T>(s: seq<T>)
    requires |s| > 0
    ensures s == s[..|s| - 1] + [s[|s| - 1]]
  {
  }

  /** Python's `sum(xs)`. */
  function Sum(xs: seq<int>): int {
    if |xs| == 0 then 0 else xs[0] + Sum(xs[1..])
  }

  lemma {:induction false} SumAppend(a: seq<int>, b: seq<int>)
    ensures Sum(a + b) == Sum(a) + Sum(b)
  {
    if |a| == 0 {
      assert a + b == b;
    } else {
      assert (a + b)[1..] == a[1..] + b;
      SumAppend(a[1..], b);
    }
  }

  /** Two equal elements at distinct positions mean a multiplicity of at
      least two. */
  lemma TwoPositionsCount<T>(s: seq<T>, i: nat, j: nat)
    requires i < j < |s| && s[i] == s[j]
    ensures multiset(s)[s[i]] >= 2
  {
    assert s == s[..j] + [s[j]] + s[j + 1..];
    assert s[i] in s[..j];
  }

  /** Keys that are pairwise distinct along a sequence. */
  predicate DistinctKeys<T, K(==)>(s: seq<T>, key: T -> K) {
    forall i, j | 0 <= i < j < |s| :: key(s[i]) != key(s[j])
  }

  /** Reordering or dropping elements keeps keys distinct: a sequence
      whose multiset is contained in that of a key-distinct sequence is
      key-distinct itself. */
  lemma DistinctKeysSubMultiset<T, K>(a: seq<T>, b: seq<T>, key: T -> K)
    requires DistinctKeys(a, key)
    requires multiset(b) <= multiset(a)
    ensures DistinctKeys(b, key)
  {
    forall i, j | 0 <= i < j < |b|
      ensures key(b[i]) != key(b[j])
    {
      assert b[i] in multiset(a) && b[j] in multiset(a) by {
        assert b[i] in multiset(b) && b[j] in multiset(b);
      }
      var p :| 0 <= p < |a| && a[p] == b[i];
      var q :| 0 <= q < |a| && a[q] == b[j];
      if b[i] == b[j] {
        TwoPositionsCount(b, i, j);
        NoSecondCopy(a, p, key);
        assert false;
      } else {
        assert p != q;
        if p < q {
          assert key(a[p]) != key(a[q]);
        } else {
          assert key(a[q]) != key(a[p]);
        }
      }
    }
  }

  /** In a key-distinct sequence every element occurs once. */
  lemma NoSecondCopy<T, K>(a: seq<T>, p: nat, key: T -> K)
    requires DistinctKeys(a, key)
    requires p < |a|
    ensures multiset(a)[a[p]] == 1
  {
    var x := a[p];
    assert a == a[..p] + [x] + a[p + 1..];
    assert x !in a[..p] by {
      forall k | 0 <= k < p ensures a[..p][k] != x {
        assert key(a[k]) != key(a[p]);
      }
    }
    assert x !in a[p + 1..] by {
      forall k | p < k < |a| ensures a[k] != x {
        assert key(a[p]) != key(a[k]);
      }
    }
  }

  /** No element occurs twice. */
  predicate Distinct<T(==)>(s: seq<T>) {
    forall i, j | 0 <= i < j < |s| :: s[i] != s[j]
  }

  /** Two duplicate-free lists with no common element join without
      duplicates. */
  lemma DistinctAppend<T>(a: seq<T>, b: seq<T>)
    requires Distinct(a) && Distinct(b)
    requires forall i, j | 0 <= i < |a| && 0 <= j < |b| :: a[i] != b[j]
    ensures Distinct(a + b)
  {
    var r := a + b;
    forall i, j | 0 <= i < j < |r| ensures r[i] != r[j] {
      if j < |a| {
        assert r[i] == a[i] && r[j] == a[j];
      } else if i < |a| {
        assert r[i] == a[i] && r[j] == b[j - |a|];
      } else {
        assert r[i] == b[i - |a|] && r[j] == b[j - |a|];
      }
    }
  }

  /** `[x for x in xs if keep(x)]`. */
  function Filter<T(==)>(xs: seq<T>, keep: T -> bool): (r: seq<T>)
    ensures |r| <= |xs|
    ensures forall x <- r :: x in xs && keep(x)
    ensures forall x <- xs :: keep(x) ==> x in r
    ensures Distinct(xs) ==> Distinct(r)
  {
    if |xs| == 0 then []
    else
      var rest := Filter(xs[1..], keep);
      if keep(xs[0]) then
        assert Distinct(xs) ==> xs[0] !in xs[1..];
        [xs[0]] + rest
      else rest
  }

  /** `[f(x) for x in xs]`. */
  function Map<A, B>(xs: seq<A>, f: A -> B): (r: seq<B>)
    ensures |r| == |xs|
    ensures forall i | 0 <= i < |xs| :: r[i] == f(xs[i])
  {
    seq(|xs|, i requires 0 <= i < |xs| => f(xs[i]))
  }

  lemma MapAppend<A, B>(a: seq<A>, b: seq<A>, f: A -> B)
    ensures Map(a + b, f) == Map(a, f) + Map(b, f)
  {
  }

  lemma MapCons<A, B>(x: A, t: seq<A>, f: A -> B)
    ensures Map([x] + t, f) == [f(x)] + Map(t, f)
  {
  }

  /** The image of every element is in the map, and every element of the
      map is an image. */
  lemma MapMembership<A, B>(xs: seq<A>, f: A -> B)
    ensures forall x <- xs :: f(x) in Map(xs, f)
    ensures forall y <- Map(xs, f) :: exists x <- xs :: y == f(x)
  {
    var r := Map(xs, f);
    forall x <- xs ensures f(x) in r {
      var i :| 0 <= i < |xs| && xs[i] == x;
      assert r[i] == f(x);
    }
    forall y <- r ensures exists x <- xs :: y == f(x) {
      var i :| 0 <= i < |r| && r[i] == y;
      assert xs[i] in xs;
    }
  }

  /** A map that is one-to-one on the elements keeps them distinct. */
  lemma MapDistinct<A, B>(xs: seq<A>, f: A -> B)
    requires Distinct(xs)
    requires forall x <- xs, y <- xs :: f(x) == f(y) ==> x == y
    ensures Distinct(Map(xs, f))
  {
    var r := Map(xs, f);
    forall i, j | 0 <= i < j < |r| ensures r[i] != r[j] {
      assert xs[i] in xs && xs[j] in xs;
    }
  }

  /** Filtering one more element at the end. */
  lemma {:induction false} FilterSnoc<T>(xs: seq<T>, x: T, keep: T -> bool)
    ensures Filter(xs + [x], keep) == Filter(xs, keep) + (if keep(x) then [x] else [])
  {
    if |xs| > 0 {
      assert (xs + [x])[1..] == xs[1..] + [x];
      FilterSnoc(xs[1..], x, keep);
    }
  }

  /** The positions of the kept elements, in increasing order: every kept
      position appears, and nothing else. */
  function FilterPositions<T>(xs: seq<T>, keep: T -> bool): (ks: seq<nat>)
    ensures forall i | 0 <= i < |ks| :: ks[i] < |xs| && keep(xs[ks[i]])
    ensures forall i, j | 0 <= i < j < |ks| :: ks[i] < ks[j]
    ensures forall k | 0 <= k < |xs| && keep(xs[k]) :: k in ks
    decreases |xs|
  {
    if |xs| == 0 then []
    else
      var n := |xs| - 1;
      var init := FilterPositions(xs[..n], keep);
      assert forall i | 0 <= i < |init| :: init[i] < n && xs[init[i]] == xs[..n][init[i]];
      assert forall k | 0 <= k < n :: xs[k] == xs[..n][k];
      init + (if keep(xs[n]) then [n] else [])
  }

  /** The `i`-th kept element is the element at the `i`-th kept position:
      filtering keeps the list's order. */
  lemma {:induction false} FilterAtPositions<T>(xs: seq<T>, keep: T -> bool)
    ensures |Filter(xs, keep)| == |FilterPositions(xs, keep)|
    ensures forall i | 0 <= i < |Filter(xs, keep)| :: Filter(xs, keep)[i] == xs[FilterPositions(xs, keep)[i]]
    decreases |xs|
  {
    if |xs| > 0 {
      var n := |xs| - 1;
      var a := xs[..n];
      InitLast(xs);
      FilterSnoc(a, xs[n], keep);
      FilterAtPositions(a, keep);
      assert forall k | 0 <= k < n :: xs[k] == a[k];
    }
  }

  lemma {:induction false} FilterAppend<T>(a: seq<T>, b: seq<T>, keep: T -> bool)
    ensures Filter(a + b, keep) == Filter(a, keep) + Filter(b, keep)
  {
    if |a| == 0 {
      assert a + b == b;
    } else {
      var t := a[1..];
      HeadTail(a);
      ConsAppend(a[0], t, b);
      FilterCons(a[0], t + b, keep);
      FilterCons(a[0], t, keep);
      FilterAppend(t, b, keep);
      AppendAssoc(if keep(a[0]) then [a[0]] else [], Filter(t, keep), Filter(b, keep));
    }
  }

  lemma ConsAppend<T>(x: T, t: seq<T>, b: seq<T>)
    ensures ([x] + t) + b == [x] + (t + b)
  {
  }

  lemma AppendAssoc<T>(x: seq<T>, y: seq<T>, z: seq<T>)
    ensures x + (y + z) == (x + y) + z
  {
  }

  /** Filtering a list with a known head. */
  lemma FilterCons<T>(x: T, t: seq<T>, keep: T -> bool)
    ensures Filter([x] + t, keep) == (if keep(x) then [x] else []) + Filter(t, keep)
  {
    assert ([x] + t)[1..] == t;
  }

  /** Filtering a list whose every element is kept returns it whole. */
  lemma {:induction false} FilterKeepsAll<T>(xs: seq<T>, keep: T -> bool)
    requires forall x <- xs :: keep(x)
    ensures Filter(xs, keep) == xs
  {
    if |xs| > 0 {
      FilterKeepsAll(xs[1..], keep);
    }
  }
}

=== FILE: sorted_set.dfy ===
/** Python's `sorted(set(xs))` for strings: the distinct elements of a
    list in ascending order, where strings compare lexicographically by
    character code. */
module SortedSet {
  import opened Seqs

  /** Python's `a < b` on strings: the first differing character decides,
      and a proper prefix comes before its extensions. */
  predicate Less(a: string, b: string)
    decreases |a|
  {
    if |a| == 0 then |b| > 0
    else if |b| == 0 then false
    else if a[0] != b[0] then a[0] < b[0]
    else Less(a[1..], b[1..])
  }

  lemma {:induction false} LessIrreflexive(a: string)
    ensures !Less(a, a)
  {
    if |a| > 0 {
      LessIrreflexive(a[1..]);
    }
  }

  lemma {:induction false} LessTransitive(a: string, b: string, c: string)
    requires Less(a, b) && Less(b, c)
    ensures Less(a, c)
  {
    if |a| > 0 && |b| > 0 && |c| > 0 && a[0] == b[0] && b[0] == c[0] {
      LessTransitive(a[1..], b[1..], c[1..]);
    }
  }

  /** Any two different strings are ordered one way or the other. */
  lemma {:induction false} LessTotal(a: string, b: string)
    requires a != b
    ensures Less(a, b) || Less(b, a)
  {
    if |a| > 0 && |b| > 0 && a[0] == b[0] {
      HeadTail(a);
      HeadTail(b);
      LessTotal(a[1..], b[1..]);
    }
  }

  /** Strictly ascending: every earlier element is smaller than every later
      one, so there are no duplicates. */
  predicate StrictlySorted(s: seq<string>) {
    forall i, j | 0 <= i < j < |s| :: Less(s[i], s[j])
  }

  lemma SortedIsDistinct(s: seq<string>)
    requires StrictlySorted(s)
    ensures Distinct(s)
  {
    forall i, j | 0 <= i < j < |s| ensures s[i] != s[j] {
      LessIrreflexive(s[i]);
    }
  }

  /** Adds `x` to a strictly sorted list at its place, unless present. */
  function Insert(x: string, s: seq<string>): (r: seq<string>)
    requires StrictlySorted(s)
    ensures StrictlySorted(r)
    ensures x in r && forall y <- s :: y in r
    ensures forall y <- r :: y == x || y in s
    ensures x in s ==> |r| == |s|
    ensures x !in s ==> |r| == |s| + 1
  {
    if |s| == 0 then [x]
    else if x == s[0] then s
    else if Less(x, s[0]) then
      forall j | 0 < j < |s| ensures Less(x, s[j]) {
        LessTransitive(x, s[0], s[j]);
      }
      assert x !in s by {
        forall j | 0 <= j < |s| ensures s[j] != x {
          LessIrreflexive(x);
        }
      }
      [x] + s
    else
      LessTotal(x, s[0]);
      var rest := Insert(x, s[1..]);
      forall y | y in rest ensures Less(s[0], y) {
        if y != x {
          var j :| 0 <= j < |s[1..]| && s[1..][j] == y;
          assert s[j + 1] == y;
        }
      }
      var r := [s[0]] + rest;
      forall i, j | 0 <= i < j < |r| ensures Less(r[i], r[j]) {
        if i > 0 {
          assert r[i] == rest[i - 1] && r[j] == rest[j - 1];
        } else {
          assert r[j] in rest;
        }
      }
      HeadTail(s);
      r
  }

  /** `sorted(set(xs))`. */
  function SortedDistinct(xs: seq<string>): (r: seq<string>)
    ensures StrictlySorted(r)
    ensures forall y <- r :: y in xs
    ensures forall y <- xs :: y in r
    ensures |r| <= |xs|
    ensures Distinct(xs) ==> |r| == |xs|
  {
    if |xs| == 0 then []
    else
      var rest := SortedDistinct(xs[1..]);
      assert Distinct(xs) ==> Distinct(xs[1..]) && xs[0] !in rest;
      Insert(xs[0], rest)
  }

  /** Two strictly sorted lists with the same elements are the same list:
      the sorted distinct list is determined by the set alone. */
  lemma {:induction false} SortedUnique(a: seq<string>, b: seq<string>)
    requires StrictlySorted(a) && StrictlySorted(b)
    requires forall y <- a :: y in b
    requires forall y <- b :: y in a
    ensures a == b
  {
    assert |a| > 0 ==> a[0] in b;
    assert |b| > 0 ==> b[0] in a;
    if |a| > 0 && |b| > 0 {
      if a[0] != b[0] {
        assert a[0] in b && b[0] in a;
        var i :| 0 <= i < |b| && b[i] == a[0];
        var j :| 0 <= j < |a| && a[j] == b[0];
        assert Less(b[0], a[0]) && Less(a[0], b[0]);
        LessTransitive(a[0], b[0], a[0]);
        LessIrreflexive(a[0]);
      }
      forall y | y in a[1..] ensures y in b[1..] {
        var k :| 1 <= k < |a| && a[k] == y;
        assert y != a[0] by {
          LessIrreflexive(a[0]);
        }
        assert y in b;
        var m :| 0 <= m < |b| && b[m] == y;
      }
      forall y | y in b[1..] ensures y in a[1..] {
        var k :| 1 <= k < |b| && b[k] == y;
        assert y != b[0] by {
          LessIrreflexive(b[0]);
        }
        assert y in a;
        var m :| 0 <= m < |a| && a[m] == y;
      }
      SortedUnique(a[1..], b[1..]);
      HeadTail(a);
      HeadTail(b);
    }
  }

  /** Sorting a list that is already strictly sorted changes nothing, so
      `sorted(set(...))` is idempotent. */
  lemma SortedDistinctOfSorted(s: seq<string>)
    requires StrictlySorted(s)
    ensures SortedDistinct(s) == s
  {
    SortedUnique(SortedDistinct(s), s);
  }

  lemma SortedDistinctIdempotent(xs: seq<string>)
    ensures SortedDistinct(SortedDistinct(xs)) == SortedDistinct(xs)
  {
    SortedDistinctOfSorted(SortedDistinct(xs));
  }

  /** The order of the input does not matter, only its elements. */
  lemma SortedDistinctOfSameElements(xs: seq<string>, ys: seq<string>)
    requires forall y <- xs :: y in ys
    requires forall y <- ys :: y in xs
    ensures SortedDistinct(xs) == SortedDistinct(ys)
  {
    SortedUnique(SortedDistinct(xs), SortedDistinct(ys));
  }
}

=== FILE: sources.dfy ===
/** The three search adapters of `src/data/sources.py`, each as a pure
    mapping from an already-decoded HTTP response to result records. HTTP,
    JSON and XML decoding are not modelled: a reply is either a connection
    failure or a status plus a decoded body, and a body that fails to
    decode is a constructor of its own. Every adapter swallows its errors
    and returns the records gathered before the failure (module Collect). */
module Sources {
  import opened Wrappers
  import opened Text
  import opened Seqs
  import opened Records
  import opened Collect

  /** One HTTP GET as the adapter sees it. */
  datatype Http<B> = ConnectionFailed | Response(status: int, body: B)

  const StatusOk := 200

  // ---------------------------------------------------------------------
  // Google Custom Search

  const GoogleMaxNum := 10

  datatype GoogleParams = GoogleParams(key: string, cx: string, q: string, num: int)

  /** A member of the `items` array: an object whose keys may be missing,
      or something that is not an object (`item.get` then raises). */
  datatype GoogleItem =
    | GoogleItem(title: Option<string>, link: Option<string>, snippet: Option<string>)
    | NonObjectItem

  /** The decoded body: `response.json()` failed or was not an object, or an
      object whose `items` key may be missing. */
  datatype GoogleBody = GoogleUnreadable | GoogleJson(items: Option<seq<GoogleItem>>)

  /** The query parameters: the API returns at most ten results a call, so
      the requested count is capped at ten. */
  function GoogleRequest(apiKey: string, cseId: string, query: string, maxResults: int): (p: GoogleParams)
    ensures p.q == query && p.key == apiKey && p.cx == cseId
    ensures p.num <= GoogleMaxNum
    ensures maxResults <= GoogleMaxNum ==> p.num == maxResults
    ensures maxResults >= GoogleMaxNum ==> p.num == GoogleMaxNum
  {
    GoogleParams(apiKey, cseId, query, Min(maxResults, GoogleMaxNum))
  }

  function GoogleStep(item: GoogleItem): Step<Record> {
    match item
    case GoogleItem(t, l, s) => Emit(Record(t.GetOr(""), Some(l.GetOr("")), s.GetOr(""), Some("google")))
    case NonObjectItem => Raise
  }

  /** The items the adapter walks: those of a 200 response with a readable
      body, `[]` when `items` is missing. */
  function GoogleItems(reply: Http<GoogleBody>): seq<GoogleItem> {
    if reply.Response? && reply.status == StatusOk && reply.body.GoogleJson? then
      reply.body.items.GetOr([])
    else []
  }

  /** `GoogleSearchSource.search`. */
  function GoogleSearch(reply: Http<GoogleBody>): (r: seq<Record>)
    ensures forall i | 0 <= i < |r| :: r[i].source == Some("google")
    ensures |r| <= |GoogleItems(reply)|
    ensures forall i | 0 <= i < |r| ::
      GoogleItems(reply)[i].GoogleItem? && GoogleStep(GoogleItems(reply)[i]) == Emit(r[i])
    ensures (forall it <- GoogleItems(reply) :: it.GoogleItem?) ==> |r| == |GoogleItems(reply)|
    ensures var steps := Map(GoogleItems(reply), GoogleStep);
      |r| == FirstRaise(steps) && r == Emits(steps[..FirstRaise(steps)])
  {
    var steps := Map(GoogleItems(reply), GoogleStep);
    RunWithoutSkip(steps);
    RunIsEmitsBeforeRaise(steps);
    Run(steps)
  }

  /** An item that is not an object ends the walk: every item before it
      gives its record, in order, and nothing after it is read. */
  lemma GoogleStopsAtNonObject(before: seq<GoogleItem>, after: seq<GoogleItem>)
    requires forall it <- before :: it.GoogleItem?
    ensures var r := GoogleSearch(Response(StatusOk, GoogleJson(Some(before + [NonObjectItem] + after))));
      |r| == |before| && forall i | 0 <= i < |before| :: GoogleStep(before[i]) == Emit(r[i])
  {
    var items := before + [NonObjectItem] + after;
    var steps := Map(items, GoogleStep);
    forall i | 0 <= i < |before| ensures !steps[i].Raise? {
      assert items[i] == before[i] && before[i] in before;
    }
    assert steps[|before|] == Raise by {
      assert items[|before|] == NonObjectItem;
    }
    assert FirstRaise(steps) == |before|;
    forall i | 0 <= i < |before| ensures items[i] == before[i] { }
  }

  // ---------------------------------------------------------------------
  // arXiv

  const SnippetLimit := 300
  const Ellipsis := "..."

  datatype ArxivParams = ArxivParams(searchQuery: string, start: int, maxResults: int, sortBy: string, sortOrder: string)

  /** A child element of an Atom entry: missing, or present with a text
      that is `None` when the element is empty. */
  datatype Element = Absent | Element(text: Option<string>)

  datatype AtomEntry = AtomEntry(title: Element, summary: Element, id: Element)

  /** The body: not well-formed XML (`ET.fromstring` raises) or the feed's
      `<entry>` elements in document order. */
  datatype ArxivBody = MalformedXml | Feed(entries: seq<AtomEntry>)

  /** The arXiv search expression searches all fields for the query. */
  function ArxivRequest(query: string, maxResults: int): (p: ArxivParams)
    ensures p.searchQuery == "all:" + query
    ensures p.start == 0 && p.maxResults == maxResults
    ensures p.sortBy == "relevance" && p.sortOrder == "descending"
  {
    ArxivParams("all:" + query, 0, maxResults, "relevance", "descending")
  }

  /** `summary.strip()[:300] + '...'`. */
  function ArxivSnippet(summary: string): (r: string)
    ensures |Ellipsis| <= |r| <= SnippetLimit + |Ellipsis|
    ensures r[|r| - |Ellipsis|..] == Ellipsis
    ensures r[..|r| - |Ellipsis|] <= Strip(summary)
    ensures |r| == Min(|Strip(summary)|, SnippetLimit) + |Ellipsis|
    ensures |Strip(summary)| <= SnippetLimit ==> r == Strip(summary) + Ellipsis
  {
    Take(Strip(summary), SnippetLimit) + Ellipsis
  }

  /** The record of an entry that has a title and a summary with text: the
      stripped title, the id's text (the empty string when there is no id
      element) and the cut summary. */
  function ArxivRecord(e: AtomEntry): Record
    requires e.title.Element? && e.title.text.Some? && e.summary.Element? && e.summary.text.Some?
  {
    Record(Strip(e.title.text.value), if e.id.Absent? then Some("") else e.id.text,
           ArxivSnippet(e.summary.text.value), Some("arxiv"))
  }

  /** One entry: skipped without a title or summary element; `.strip()` on
      an empty element's `None` text raises. */
  function ArxivStep(e: AtomEntry): Step<Record> {
    if e.title.Absent? || e.summary.Absent? then Skip
    else if e.title.text.None? || e.summary.text.None? then Raise
    else Emit(ArxivRecord(e))
  }

  function ArxivEntries(reply: Http<ArxivBody>): seq<AtomEntry> {
    if reply.Response? && reply.status == StatusOk && reply.body.Feed? then reply.body.entries else []
  }

  /** `ArxivSource.search`: the `i`-th record is that of the `i`-th entry
      holding a title and a summary with text. */
  function ArxivSearch(reply: Http<ArxivBody>): (r: seq<Record>)
    ensures |r| <= |ArxivEntries(reply)|
    ensures forall i | 0 <= i < |r| :: r[i].source == Some("arxiv")
    ensures forall i | 0 <= i < |r| :: |r[i].snippet| <= SnippetLimit + |Ellipsis|
    ensures var ks := EmitPositions(Map(ArxivEntries(reply), ArxivStep));
      |r| <= |ks| &&
      forall i | 0 <= i < |r| ::
        var e := ArxivEntries(reply)[ks[i]];
        e.title.Element? && e.title.text.Some? && e.summary.Element? && e.summary.text.Some? && r[i] == ArxivRecord(e)
    ensures var steps := Map(ArxivEntries(reply), ArxivStep);
      r == Emits(steps[..FirstRaise(steps)])
  {
    var steps := Map(ArxivEntries(reply), ArxivStep);
    RunIsEmitsBeforeRaise(steps);
    RunIsPrefixOfEmits(steps);
    EmitsOfArxiv(steps);
    ArxivRecordsAt(ArxivEntries(reply), Run(steps));
    Run(steps)
  }

  /** A prefix of the records of the entries holds, at place `i`, the record
      of the `i`-th entry that contributes one. */
  lemma ArxivRecordsAt(entries: seq<AtomEntry>, r: seq<Record>)
    requires r <= Emits(Map(entries, ArxivStep))
    ensures var ks := EmitPositions(Map(entries, ArxivStep));
      |r| <= |ks| &&
      forall i | 0 <= i < |r| ::
        var e := entries[ks[i]];
        e.title.Element? && e.title.text.Some? && e.summary.Element? && e.summary.text.Some? && r[i] == ArxivRecord(e)
  {
    var steps := Map(entries, ArxivStep);
    EmitsAtPositions(steps);
    var ks := EmitPositions(steps);
    forall i | 0 <= i < |r|
      ensures var e := entries[ks[i]];
        e.title.Element? && e.title.text.Some? && e.summary.Element? && e.summary.text.Some? && r[i] == ArxivRecord(e)
    {
      var k := ks[i];
      assert r[i] == Emits(steps)[i] == steps[k].value;
      assert steps[k] == ArxivStep(entries[k]);
    }
  }

  lemma {:induction false} EmitsOfArxiv(steps: seq<Step<Record>>)
    requires forall i | 0 <= i < |steps| :: steps[i].Emit? ==>
      steps[i].value.source == Some("arxiv") && |steps[i].value.snippet| <= SnippetLimit + |Ellipsis|
    ensures forall x <- Emits(steps) :: x.source == Some("arxiv") && |x.snippet| <= SnippetLimit + |Ellipsis|
  {
    if |steps| > 0 {
      EmitsOfArxiv(steps[1..]);
    }
  }

  /** When no entry has an empty title or summary element, every entry
      that has both gives its record: one per emitting position. */
  lemma ArxivCompleteFeed(entries: seq<AtomEntry>)
    requires forall e <- entries :: !ArxivStep(e).Raise?
    ensures var r := ArxivSearch(Response(StatusOk, Feed(entries)));
      r == Emits(Map(entries, ArxivStep)) && |r| == |EmitPositions(Map(entries, ArxivStep))|
  {
    var steps := Map(entries, ArxivStep);
    forall i | 0 <= i < |steps| ensures !steps[i].Raise? {
      assert entries[i] in entries;
    }
    RunWithoutRaise(steps);
    EmitsAtPositions(steps);
  }

  /** An entry without a title or summary element leaves the result
      unchanged, wherever it stands. */
  lemma ArxivSkipsIncompleteEntry(status: int, before: seq<AtomEntry>, e: AtomEntry, after: seq<AtomEntry>)
    requires e.title.Absent? || e.summary.Absent?
    ensures ArxivSearch(Response(status, Feed(before + [e] + after)))
         == ArxivSearch(Response(status, Feed(before + after)))
  {
    if status == StatusOk {
      RunSkipsItem(before, e, after, ArxivStep);
    }
  }

  /** A summary element without text ends the walk: the records of the
      entries before it are returned and nothing after it is read. */
  lemma ArxivStopsAtEmptyElement(before: seq<AtomEntry>, e: AtomEntry, after: seq<AtomEntry>)
    requires forall x <- before :: !ArxivStep(x).Raise?
    requires e.title.Element? && e.summary == Element(None)
    ensures ArxivSearch(Response(StatusOk, Feed(before + [e] + after)))
         == Emits(Map(before, ArxivStep))
  {
    var a := Map(before, ArxivStep);
    var rest := Map([e] + after, ArxivStep);
    assert before + [e] + after == before + ([e] + after);
    MapAppend(before, [e] + after, ArxivStep);
    forall i | 0 <= i < |a| ensures !a[i].Raise? {
      assert before[i] in before;
    }
    RunAppend(a, rest);
    assert rest[0] == Raise;
  }

  // ---------------------------------------------------------------------
  // Wikipedia

  /** A member of the opensearch array: a JSON string, or a list of
      strings. */
  datatype OpenSearchValue = JsonText(text: string) | TitleList(titles: seq<string>)

  /** The opensearch body: unreadable, not an array (indexing it with `1`
      then fails or finds nothing), or an array. */
  datatype OpenSearchBody = OpenSearchUnreadable | NotAnArray | JsonArray(elems: seq<OpenSearchValue>)

  /** A page summary body: unreadable or not an object (the inner handler
      skips it), or an object whose keys may be missing. */
  datatype SummaryBody =
    | SummaryUnreadable
    | Summary(title: Option<string>, pageUrl: Option<string>, extract: Option<string>)

  /** `search_data[1] if len(search_data) > 1 else []`. A string in that
      slot is iterated character by character, as Python does. */
  function Candidates(elems: seq<OpenSearchValue>): (ts: seq<string>)
    ensures |elems| <= 1 ==> ts == []
    ensures |elems| > 1 && elems[1].TitleList? ==> ts == elems[1].titles
  {
    if |elems| <= 1 then []
    else match elems[1]
      case TitleList(ts) => ts
      case JsonText(s) => seq(|s|, i requires 0 <= i < |s| => [s[i]])
  }

  /** The candidate titles the adapter fetches: the first `maxResults`
      candidates of a 200 reply whose body is an array, and none
      otherwise. */
  function WikipediaTitles(reply: Http<OpenSearchBody>, maxResults: nat): (ts: seq<string>)
    ensures |ts| <= maxResults
    ensures reply.Response? && reply.status == StatusOk && reply.body.JsonArray? ==>
      ts <= Candidates(reply.body.elems) && |ts| == Min(|Candidates(reply.body.elems)|, maxResults)
    ensures !(reply.Response? && reply.status == StatusOk && reply.body.JsonArray?) ==> ts == []
  {
    if reply.Response? && reply.status == StatusOk && reply.body.JsonArray? then
      Take(Candidates(reply.body.elems), maxResults)
    else []
  }

  /** One candidate: any failure of its own fetch skips it. */
  function WikipediaStep(candidate: string, reply: Http<SummaryBody>): Step<Record> {
    match reply
    case ConnectionFailed => Skip
    case Response(status, body) =>
      if status != StatusOk || body.SummaryUnreadable? then Skip
      else Emit(Record(body.title.GetOr(candidate), Some(body.pageUrl.GetOr("")),
                       body.extract.GetOr(""), Some("wikipedia")))
  }

  function WikipediaSteps(titles: seq<string>, fetch: string -> Http<SummaryBody>): (r: seq<Step<Record>>)
    ensures |r| == |titles|
    ensures forall i | 0 <= i < |titles| :: r[i] == WikipediaStep(titles[i], fetch(titles[i]))
  {
    seq(|titles|, i requires 0 <= i < |titles| => WikipediaStep(titles[i], fetch(titles[i])))
  }

  /** `WikipediaSource.search`: `fetch` gives the summary reply for each
      title. A failure of a title's own fetch or decoding is caught per
      title and skips it. The candidates modelled here are all strings, so
      the walk reaches the last one; quoting a candidate that is not a
      string raises outside the per-title handler and ends the walk, which
      this model does not cover. */
  function WikipediaSearch(reply: Http<OpenSearchBody>, maxResults: nat, fetch: string -> Http<SummaryBody>): (r: seq<Record>)
    ensures |r| <= maxResults
    ensures forall i | 0 <= i < |r| :: r[i].source == Some("wikipedia")
    ensures r == Emits(WikipediaSteps(WikipediaTitles(reply, maxResults), fetch))
  {
    var steps := WikipediaSteps(WikipediaTitles(reply, maxResults), fetch);
    RunWithoutRaise(steps);
    EmitsOfWikipedia(steps);
    Run(steps)
  }

  lemma {:induction false} EmitsOfWikipedia(steps: seq<Step<Record>>)
    requires forall i | 0 <= i < |steps| :: steps[i].Emit? ==> steps[i].value.source == Some("wikipedia")
    ensures forall x <- Emits(steps) :: x.source == Some("wikipedia")
  {
    if |steps| > 0 {
      EmitsOfWikipedia(steps[1..]);
    }
  }

  /** When every summary fetch succeeds, each candidate gives one record, in
      candidate order, titled by the summary or else by the candidate. */
  lemma WikipediaAllFetched(reply: Http<OpenSearchBody>, maxResults: nat, fetch: string -> Http<SummaryBody>)
    requires forall t | t in WikipediaTitles(reply, maxResults) ::
      fetch(t).Response? && fetch(t).status == StatusOk && fetch(t).body.Summary?
    ensures |WikipediaSearch(reply, maxResults, fetch)| == |WikipediaTitles(reply, maxResults)|
    ensures forall i | 0 <= i < |WikipediaSearch(reply, maxResults, fetch)| ::
      var t := WikipediaTitles(reply, maxResults)[i];
      WikipediaSearch(reply, maxResults, fetch)[i].title == fetch(t).body.title.GetOr(t)
  {
    var titles := WikipediaTitles(reply, maxResults);
    var steps := WikipediaSteps(titles, fetch);
    forall i | 0 <= i < |steps| ensures steps[i].Emit? {
      assert titles[i] in titles;
    }
    RunWithoutSkip(steps);
    RunWithoutRaise(steps);
  }

  // ---------------------------------------------------------------------
  // The adapters as one variant type

  /** The active search adapters. Only Google needs credentials. */
  datatype Adapter = GoogleAdapter(apiKey: string, cseId: string) | ArxivAdapter | WikipediaAdapter

  /** What every request would return; it stands in for the network. */
  datatype Network = Network(
    google: GoogleParams -> Http<GoogleBody>,
    arxiv: ArxivParams -> Http<ArxivBody>,
    openSearch: (string, nat) -> Http<OpenSearchBody>,
    summary: string -> Http<SummaryBody>)

  function SourceName(a: Adapter): string {
    match a
    case GoogleAdapter(_, _) => "google"
    case ArxivAdapter => "arxiv"
    case WikipediaAdapter => "wikipedia"
  }

  /** `source.search(query, max_results)`: never raises, and every record
      it returns is tagged with the adapter's own source name. */
  function AdapterSearch(a: Adapter, query: string, maxResults: nat, net: Network): (r: seq<Record>)
    ensures forall i | 0 <= i < |r| :: r[i].source == Some(SourceName(a))
    ensures a.WikipediaAdapter? ==> |r| <= maxResults
  {
    match a
    case GoogleAdapter(key, cx) => GoogleSearch(net.google(GoogleRequest(key, cx, query, maxResults)))
    case ArxivAdapter => ArxivSearch(net.arxiv(ArxivRequest(query, maxResults)))
    case WikipediaAdapter => WikipediaSearch(net.openSearch(query, maxResults), maxResults, net.summary)
  }
}

=== FILE: stable_sort.dfy ===
/** Python's `list.sort(key=..., reverse=True)`: a stable sort by a key in
    descending order. Elements with equal keys keep their relative order
    (Python documents that `reverse=True` preserves stability). Modelled
    as an insertion sort over a sequence. */
module StableSort {
  import opened Seqs

  /** Keys never increase from left to right. */
  predicate SortedDesc<T>(xs: seq<T>, key: T -> real) {
    forall i, j | 0 <= i < j < |xs| :: key(xs[i]) >= key(xs[j])
  }

  /** The elements of `xs` whose key is `v`, in their order in `xs`. */
  function WithKey<T>(xs: seq<T>, key: T -> real, v: real): seq<T> {
    if |xs| == 0 then []
    else (if key(xs[0]) == v then [xs[0]] else []) + WithKey(xs[1..], key, v)
  }

  lemma {:induction false} WithKeyAppend<T>(a: seq<T>, b: seq<T>, key: T -> real, v: real)
    ensures WithKey(a + b, key, v) == WithKey(a, key, v) + WithKey(b, key, v)
  {
    if |a| == 0 {
      assert a + b == b;
    } else {
      var t := a[1..];
      HeadTail(a);
      ConsAppend(a[0], t, b);
      WithKeyCons(a[0], t + b, key, v);
      WithKeyCons(a[0], t, key, v);
      WithKeyAppend(t, b, key, v);
      AppendAssoc(if key(a[0]) == v then [a[0]] else [], WithKey(t, key, v), WithKey(b, key, v));
    }
  }

  lemma {:induction false} WithKeyNone<T>(xs: seq<T>, key: T -> real, v: real)
    requires forall i | 0 <= i < |xs| :: key(xs[i]) < v
    ensures WithKey(xs, key, v) == []
  {
    if |xs| > 0 {
      WithKeyNone(xs[1..], key, v);
    }
  }

  /** Places `x` after every element whose key is at least `key(x)`. */
  function Insert<T>(x: T, s: seq<T>, key: T -> real): (r: seq<T>)
    requires SortedDesc(s, key)
    ensures |r| == |s| + 1
    ensures multiset(r) == multiset(s) + multiset{x}
    ensures SortedDesc(r, key)
  {
    if |s| == 0 || key(x) > key(s[0]) then [x] + s
    else
      var rest := Insert(x, s[1..], key);
      HeadTail(s);
      forall i | 0 <= i < |s[1..]| ensures key(s[0]) >= key(s[1..][i]) {
        assert s[1..][i] == s[i + 1];
      }
      BoundedByMultiset(rest, s[1..], x, key, key(s[0]));
      ConsSorted(s[0], rest, key);
      [s[0]] + rest
  }

  /** A permutation of `s` plus `x` has no key above a bound that `x`
      and every element of `s` respect. */
  lemma BoundedByMultiset<T>(r: seq<T>, s: seq<T>, x: T, key: T -> real, b: real)
    requires multiset(r) == multiset(s) + multiset{x}
    requires key(x) <= b
    requires forall i | 0 <= i < |s| :: key(s[i]) <= b
    ensures forall j | 0 <= j < |r| :: key(r[j]) <= b
  {
    forall j | 0 <= j < |r| ensures key(r[j]) <= b {
      assert r[j] in multiset(r);
      if r[j] != x {
        assert r[j] in multiset(s);
        var i :| 0 <= i < |s| && s[i] == r[j];
      }
    }
  }

  lemma ConsSorted<T>(h: T, rest: seq<T>, key: T -> real)
    requires SortedDesc(rest, key)
    requires forall j | 0 <= j < |rest| :: key(h) >= key(rest[j])
    ensures SortedDesc([h] + rest, key)
  {
    var r := [h] + rest;
    forall i, j | 0 <= i < j < |r| ensures key(r[i]) >= key(r[j]) {
      assert r[j] == rest[j - 1];
      if i > 0 {
        assert r[i] == rest[i - 1];
      }
    }
  }

  /** `sorted(xs, key=key, reverse=True)`: a permutation of `xs` in
      descending key order. */
  function Sort<T>(xs: seq<T>, key: T -> real): (r: seq<T>)
    ensures |r| == |xs|
    ensures multiset(r) == multiset(xs)
    ensures SortedDesc(r, key)
  {
    if |xs| == 0 then []
    else
      InitLast(xs);
      Insert(xs[|xs| - 1], Sort(xs[..|xs| - 1], key), key)
  }

  /** Inserting `x` puts it after the elements already holding its key. */
  lemma {:induction false} InsertWithKey<T>(x: T, s: seq<T>, key: T -> real, v: real)
    requires SortedDesc(s, key)
    ensures WithKey(Insert(x, s, key), key, v)
         == WithKey(s, key, v) + (if key(x) == v then [x] else [])
  {
    if |s| == 0 {
      WithKeyCons(x, [], key, v);
    } else if key(x) > key(s[0]) {
      WithKeyCons(x, s, key, v);
      if key(x) == v {
        WithKeyNone(s, key, v);
      }
    } else {
      var rest := Insert(x, s[1..], key);
      var h := if key(s[0]) == v then [s[0]] else [];
      assert Insert(x, s, key) == [s[0]] + rest;
      HeadTail(s);
      WithKeyCons(s[0], rest, key, v);
      WithKeyCons(s[0], s[1..], key, v);
      InsertWithKey(x, s[1..], key, v);
      AppendAssoc(h, WithKey(s[1..], key, v), if key(x) == v then [x] else []);
    }
  }

  lemma WithKeyCons<T>(h: T, rest: seq<T>, key: T -> real, v: real)
    ensures WithKey([h] + rest, key, v) == (if key(h) == v then [h] else []) + WithKey(rest, key, v)
  {
    assert ([h] + rest)[1..] == rest;
  }

  /** Stability: for every key value, the elements holding it appear in
      the sorted output in the same order as in the input. */
  lemma {:induction false} SortIsStable<T>(xs: seq<T>, key: T -> real, v: real)
    ensures WithKey(Sort(xs, key), key, v) == WithKey(xs, key, v)
  {
    if |xs| > 0 {
      var init := xs[..|xs| - 1];
      var last := xs[|xs| - 1];
      InitLast(xs);
      assert [last][1..] == [];
      assert WithKey([last], key, v) == (if key(last) == v then [last] else []);
      WithKeyAppend(init, [last], key, v);
      SortIsStable(init, key, v);
      InsertWithKey(last, Sort(init, key), key, v);
    }
  }

  /** The head of the sorted output carries the largest key. */
  lemma SortHeadIsMax<T>(xs: seq<T>, key: T -> real, i: nat)
    requires i < |xs|
    ensures key(Sort(xs, key)[0]) >= key(xs[i])
  {
    var r := Sort(xs, key);
    assert xs[i] in multiset(r) by {
      assert xs[i] in multiset(xs);
    }
    var j :| 0 <= j < |r| && r[j] == xs[i];
  }

  /** The first `n` elements of a sort are sorted and come from the input. */
  lemma SortPrefix<T>(xs: seq<T>, key: T -> real, n: nat)
    ensures var r := Sort(xs, key);
      SortedDesc(r[..if n < |r| then n else |r|], key)
    ensures var r := Sort(xs, key);
      forall y <- r[..if n < |r| then n else |r|] :: y in xs
  {
    var r := Sort(xs, key);
    var m := if n < |r| then n else |r|;
    PrefixSorted(r, key, m);
    PrefixMembers(r, xs, m);
  }

  lemma PrefixSorted<T>(r: seq<T>, key: T -> real, m: nat)
    requires SortedDesc(r, key) && m <= |r|
    ensures SortedDesc(r[..m], key)
  {
    forall i, j | 0 <= i < j < m ensures key(r[..m][i]) >= key(r[..m][j]) {
      assert r[..m][i] == r[i] && r[..m][j] == r[j];
    }
  }

  lemma PrefixMembers<T>(r: seq<T>, xs: seq<T>, m: nat)
    requires multiset(r) == multiset(xs) && m <= |r|
    ensures forall y <- r[..m] :: y in xs
  {
    forall y | y in r[..m] ensures y in xs {
      assert y in multiset(r);
    }
  }

  /** No element left out of the first `n` of a sort outscores one kept. */
  lemma SortTopKept<T>(xs: seq<T>, key: T -> real, n: nat, c: T, j: nat)
    requires c in xs
    requires j < |Take(Sort(xs, key), n)|
    requires key(c) > key(Sort(xs, key)[j])
    ensures c in Take(Sort(xs, key), n)
  {
    var r := Sort(xs, key);
    assert c in multiset(r) by {
      assert c in multiset(xs);
    }
    var k :| 0 <= k < |r| && r[k] == c;
    if k < |Take(r, n)| {
      assert Take(r, n)[k] == c;
    }
  }

  /** The elements of a prefix holding a key are a prefix of those of the
      whole sequence. */
  lemma WithKeyTake<T>(s: seq<T>, key: T -> real, v: real, n: nat)
    ensures WithKey(Take(s, n), key, v) <= WithKey(s, key, v)
  {
    var m := |Take(s, n)|;
    assert s == s[..m] + s[m..];
    WithKeyAppend(s[..m], s[m..], key, v);
  }
}

=== FILE: text.dfy ===
/** ASCII models of the Python string primitives the pipeline relies on:
    `isspace`, `isalnum`, `lower`, `title`, `strip`, `rstrip`, `split()`,
    `split(sep)`, `replace`, the `in` substring test and `count`.
    Python applies these to all of Unicode; the model covers ASCII. */
module Text {
  import Seqs

  /** Python's `str.isspace` restricted to ASCII: tab, line feed, vertical
      tab, form feed, carriage return, the separators 0x1C-0x1F, and space. */
  predicate IsSpace(c: char) {
    c == ' ' || (9 <= c as int <= 13) || (28 <= c as int <= 31)
  }

  predicate IsUpper(c: char) { 'A' <= c <= 'Z' }
  predicate IsLower(c: char) { 'a' <= c <= 'z' }
  predicate IsLetter(c: char) { IsUpper(c) || IsLower(c) }
  predicate IsDigit(c: char) { '0' <= c <= '9' }

  /** `str.isalnum` for one ASCII character. */
  predicate IsAlnum(c: char) { IsLetter(c) || IsDigit(c) }

  predicate AllSpace(s: string) {
    forall i | 0 <= i < |s| :: IsSpace(s[i])
  }

  /** A token of `split()`: non-empty and free of whitespace. */
  predicate IsWord(w: string) {
    |w| > 0 && forall i | 0 <= i < |w| :: !IsSpace(w[i])
  }

  function ToLower(c: char): (r: char)
    ensures !IsUpper(r)
    ensures IsLetter(r) <==> IsLetter(c)
    ensures IsSpace(r) <==> IsSpace(c)
    ensures !IsUpper(c) ==> r == c
  {
    if IsUpper(c) then (c as int + 32) as char else c
  }

  function ToUpper(c: char): (r: char)
    ensures !IsLower(r)
    ensures IsLetter(r) <==> IsLetter(c)
    ensures !IsLower(c) ==> r == c
  {
    if IsLower(c) then (c as int - 32) as char else c
  }

  /** `s.lower()`. */
  function Lower(s: string): (r: string)
    ensures |r| == |s|
    ensures forall i | 0 <= i < |s| :: r[i] == ToLower(s[i])
  {
    seq(|s|, i requires 0 <= i < |s| => ToLower(s[i]))
  }

  lemma LowerAppend(a: string, b: string)
    ensures Lower(a + b) == Lower(a) + Lower(b)
  {
    assert forall i | 0 <= i < |a + b| :: Lower(a + b)[i] == (Lower(a) + Lower(b))[i];
  }

  /** `s.replace(a, b)` for single characters. */
  function ReplaceChar(s: string, a: char, b: char): (r: string)
    ensures |r| == |s|
    ensures forall i | 0 <= i < |s| :: r[i] == (if s[i] == a then b else s[i])
  {
    seq(|s|, i requires 0 <= i < |s| => if s[i] == a then b else s[i])
  }

  /** Replacing a character that does not occur changes nothing. */
  lemma ReplaceAbsent(s: string, a: char, b: char)
    requires a !in s
    ensures ReplaceChar(s, a, b) == s
  {
    assert forall i | 0 <= i < |s| :: s[i] != a;
  }

  /** `s.lstrip()`: drop the leading whitespace, and nothing else. */
  function LStrip(s: string): (r: string)
    ensures |r| <= |s|
    ensures r == s[|s| - |r|..]
    ensures forall i | 0 <= i < |s| - |r| :: IsSpace(s[i])
    ensures |r| > 0 ==> !IsSpace(r[0])
  {
    if |s| > 0 && IsSpace(s[0]) then LStrip(s[1..]) else s
  }

  /** `s.rstrip()`: drop the trailing whitespace, and nothing else. */
  function RStrip(s: string): (r: string)
    ensures |r| <= |s|
    ensures r == s[..|r|]
    ensures forall i | |r| <= i < |s| :: IsSpace(s[i])
    ensures |r| > 0 ==> !IsSpace(r[|r| - 1])
  {
    if |s| > 0 && IsSpace(s[|s| - 1]) then RStrip(s[..|s| - 1]) else s
  }

  /** `s.strip()`. */
  function Strip(s: string): (r: string)
    ensures |r| <= |s|
    ensures |r| > 0 ==> !IsSpace(r[0]) && !IsSpace(r[|r| - 1])
    ensures |r| == 0 <==> AllSpace(s)
  {
    var t := RStrip(s);
    var u := LStrip(t);
    assert |u| > 0 ==> u[|u| - 1] == t[|t| - 1];
    u
  }

  /** A string without surrounding whitespace is its own strip. */
  lemma StripFixed(s: string)
    requires |s| > 0 ==> !IsSpace(s[0]) && !IsSpace(s[|s| - 1])
    ensures Strip(s) == s
  {
  }

  lemma StripIdempotent(s: string)
    ensures Strip(Strip(s)) == Strip(s)
  {
    StripFixed(Strip(s));
  }

  /** The stripped, non-empty entries of `lines`, in order:
      `[l.strip() for l in lines if l.strip()]`. */
  function StrippedNonEmpty(lines: seq<string>): (r: seq<string>)
    ensures |r| <= |lines|
    ensures forall t <- r :: |t| > 0 && Strip(t) == t
  {
    if |lines| == 0 then []
    else
      var q := Strip(lines[0]);
      var rest := StrippedNonEmpty(lines[1..]);
      if |q| == 0 then rest
      else
        StripIdempotent(lines[0]);
        StrippedCons(q, rest);
        [q] + rest
  }

  lemma StrippedCons(q: string, rest: seq<string>)
    requires |q| > 0 && Strip(q) == q
    requires forall t <- rest :: |t| > 0 && Strip(t) == t
    ensures forall t <- [q] + rest :: |t| > 0 && Strip(t) == t
  {
    assert forall t <- [q] + rest :: t == q || t in rest;
  }

  /** A single line contributes its stripped form when it is not blank. */
  lemma StrippedNonEmptyCons(l: string, t: seq<string>)
    ensures StrippedNonEmpty([l] + t)
         == (if AllSpace(l) then [] else [Strip(l)]) + StrippedNonEmpty(t)
  {
    assert ([l] + t)[0] == l;
    assert ([l] + t)[1..] == t;
  }

  /** The stripped non-blank lines of two blocks of lines are those of the
      first followed by those of the second. */
  lemma {:induction false} StrippedNonEmptyAppend(a: seq<string>, b: seq<string>)
    ensures StrippedNonEmpty(a + b) == StrippedNonEmpty(a) + StrippedNonEmpty(b)
  {
    if |a| == 0 {
      assert a + b == b;
    } else {
      var t := a[1..];
      Seqs.HeadTail(a);
      Seqs.ConsAppend(a[0], t, b);
      StrippedNonEmptyCons(a[0], t + b);
      StrippedNonEmptyCons(a[0], t);
      StrippedNonEmptyAppend(t, b);
      Seqs.AppendAssoc(if AllSpace(a[0]) then [] else [Strip(a[0])], StrippedNonEmpty(t), StrippedNonEmpty(b));
    }
  }

  /** Lines that are already stripped and non-blank pass unchanged. */
  lemma {:induction false} StrippedNonEmptyOfStripped(lines: seq<string>)
    requires forall l <- lines :: |l| > 0 && Strip(l) == l
    ensures StrippedNonEmpty(lines) == lines
  {
    if |lines| > 0 {
      var t := lines[1..];
      Seqs.HeadTail(lines);
      assert lines[0] in lines;
      assert forall l <- t :: l in lines;
      StrippedNonEmptyCons(lines[0], t);
      StrippedNonEmptyOfStripped(t);
    }
  }

  /** Length of the leading run of non-whitespace characters. */
  function TokenLength(s: string): (n: nat)
    ensures n <= |s|
    ensures forall i | 0 <= i < n :: !IsSpace(s[i])
    ensures n < |s| ==> IsSpace(s[n])
  {
    if |s| == 0 || IsSpace(s[0]) then 0 else 1 + TokenLength(s[1..])
  }

  /** `s.split()` with no separator: the maximal runs of non-whitespace,
      in order. */
  function Words(s: string): (r: seq<string>)
    ensures forall w <- r :: IsWord(w)
    ensures |r| == 0 <==> AllSpace(s)
    decreases |s|
  {
    var t := LStrip(s);
    if |t| == 0 then []
    else
      var n := TokenLength(t);
      var rest := Words(t[n..]);
      assert IsWord(t[..n]);
      WordsCons(t[..n], rest);
      [t[..n]] + rest
  }

  lemma WordsCons(w: string, rest: seq<string>)
    requires IsWord(w)
    requires forall x <- rest :: IsWord(x)
    ensures forall x <- [w] + rest :: IsWord(x)
  {
    assert forall x <- [w] + rest :: x == w || x in rest;
  }

  /** Leading whitespace of a concatenation: all of the first part's when
      it is blank, otherwise only the first part's own. */
  lemma {:induction false} LStripAppend(a: string, b: string)
    ensures AllSpace(a) ==> LStrip(a + b) == LStrip(b)
    ensures !AllSpace(a) ==> LStrip(a + b) == LStrip(a) + b
  {
    if |a| == 0 {
      assert a + b == b;
    } else if IsSpace(a[0]) {
      assert (a + b)[1..] == a[1..] + b;
      assert AllSpace(a) <==> AllSpace(a[1..]);
      LStripAppend(a[1..], b);
    }
  }

  /** Splitting ignores leading whitespace. */
  lemma WordsOfLStrip(s: string)
    ensures Words(LStrip(s)) == Words(s)
  {
    var t := LStrip(s);
    assert LStrip(t) == t;
  }

  /** The first token of a text ends where it did when the text is
      followed by whitespace. */
  lemma TokenLengthAppend(t: string, b: string)
    requires |b| == 0 || IsSpace(b[0])
    ensures TokenLength(t + b) == TokenLength(t)
  {
    var n := TokenLength(t);
    assert n < |t + b| ==> IsSpace((t + b)[n]);
    assert forall i | 0 <= i < n :: (t + b)[i] == t[i];
  }

  /** A text that is not blank splits into its first token and the
      split of what follows it. */
  lemma WordsUnfold(s: string)
    requires !AllSpace(s)
    ensures var t := LStrip(s);
      |t| > 0 && Words(s) == [t[..TokenLength(t)]] + Words(t[TokenLength(t)..])
  {
  }

  /** Splitting a text followed by whitespace and more text splits each
      part on its own. */
  lemma {:induction false} WordsAppend(a: string, b: string)
    requires |b| == 0 || IsSpace(b[0])
    ensures Words(a + b) == Words(a) + Words(b)
    decreases |a|, 1
  {
    LStripAppend(a, b);
    if AllSpace(a) {
      WordsOfLStrip(a + b);
      WordsOfLStrip(b);
    } else {
      WordsAppendToken(a, b);
    }
  }

  /** The step of `WordsAppend` for a part that holds a token: the token
      comes first, then the split of the rest of both parts. */
  lemma {:induction false} WordsAppendToken(a: string, b: string)
    requires |b| == 0 || IsSpace(b[0])
    requires !AllSpace(a)
    ensures Words(a + b) == Words(a) + Words(b)
    decreases |a|, 0
  {
    LStripAppend(a, b);
    var t := LStrip(a);
    var n := TokenLength(t);
    var w := t[..n];
    var u := t[n..];
    assert Words(a + b) == [w] + Words(u + b) by {
      TokenLengthAppend(t, b);
      WordsUnfold(a + b);
      Seqs.AppendSlices(t, b, n);
    }
    assert Words(a) == [w] + Words(u) by {
      WordsUnfold(a);
    }
    WordsAppend(u, b);
    Seqs.AppendAssoc([w], Words(u), Words(b));
  }

  /** `" ".join(ws)`. */
  function JoinWords(ws: seq<string>): string {
    if |ws| == 0 then ""
    else if |ws| == 1 then ws[0]
    else ws[0] + " " + JoinWords(ws[1..])
  }

  lemma TokenLengthOfWord(w: string, rest: string)
    requires IsWord(w)
    requires |rest| == 0 || IsSpace(rest[0])
    ensures TokenLength(w + rest) == |w|
  {
    var n := TokenLength(w + rest);
    assert n >= |w|;
    assert |w| < |w + rest| ==> (w + rest)[|w|] == rest[0];
  }

  /** A word followed by a space splits off as the first token. */
  lemma WordsOfWordThenSpace(w: string, rest: string)
    requires IsWord(w)
    ensures Words(w + " " + rest) == [w] + Words(rest)
  {
    var s := w + " " + rest;
    assert s == w + (" " + rest);
    TokenLengthOfWord(w, " " + rest);
    assert LStrip(s) == s;
    assert s[..|w|] == w;
    assert s[|w|..] == " " + rest;
    assert LStrip(" " + rest) == LStrip(rest) by {
      assert (" " + rest)[1..] == rest;
    }
  }

  /** A single word splits into itself. */
  lemma WordsOfWord(w: string)
    requires IsWord(w)
    ensures Words(w) == [w]
  {
    TokenLengthOfWord(w, "");
    assert w + "" == w;
    assert w[|w|..] == "";
  }

  /** Splitting a space-joined list of words gives the words back. */
  lemma {:induction false} WordsOfJoin(ws: seq<string>)
    requires forall w <- ws :: IsWord(w)
    ensures Words(JoinWords(ws)) == ws
  {
    if |ws| == 1 {
      WordsOfWord(ws[0]);
    } else if |ws| > 1 {
      var rest := ws[1..];
      assert JoinWords(ws) == ws[0] + " " + JoinWords(rest);
      assert IsWord(ws[0]);
      assert forall w <- rest :: w in ws;
      WordsOfWordThenSpace(ws[0], JoinWords(rest));
      WordsOfJoin(rest);
      Seqs.HeadTail(ws);
    }
  }

  /** First position of `c` in `s`. */
  function IndexOf(s: string, c: char): (i: nat)
    requires c in s
    ensures i < |s| && s[i] == c && c !in s[..i]
  {
    if s[0] == c then 0
    else
      assert c in s[1..];
      var j := IndexOf(s[1..], c);
      assert s[..j + 1] == [s[0]] + s[1..][..j];
      j + 1
  }

  /** `s.split(sep)` for a one-character separator: always at least one
      piece, and no piece contains the separator. */
  function SplitOn(s: string, sep: char): (r: seq<string>)
    ensures |r| > 0
    ensures forall p <- r :: sep !in p
    decreases |s|
  {
    if sep !in s then [s]
    else
      var i := IndexOf(s, sep);
      [s[..i]] + SplitOn(s[i + 1..], sep)
  }

  /** `sep.join(ps)`. */
  function JoinOn(ps: seq<string>, sep: char): string
    requires |ps| > 0
  {
    if |ps| == 1 then ps[0] else ps[0] + [sep] + JoinOn(ps[1..], sep)
  }

  /** Joining the pieces of a split restores the string. */
  lemma {:induction false} JoinOfSplit(s: string, sep: char)
    ensures JoinOn(SplitOn(s, sep), sep) == s
    decreases |s|
  {
    if sep in s {
      var i := IndexOf(s, sep);
      JoinOfSplit(s[i + 1..], sep);
      var rest := SplitOn(s[i + 1..], sep);
      assert SplitOn(s, sep) == [s[..i]] + rest;
      JoinOnCons(s[..i], rest, sep);
      Seqs.AroundIndex(s, i);
    }
  }

  lemma JoinOnCons(p: string, rest: seq<string>, sep: char)
    requires |rest| > 0
    ensures JoinOn([p] + rest, sep) == p + [sep] + JoinOn(rest, sep)
  {
    assert ([p] + rest)[1..] == rest;
  }

  /** Splitting a join of separator-free pieces gives the pieces back. */
  lemma {:induction false} SplitOfJoin(ps: seq<string>, sep: char)
    requires |ps| > 0
    requires forall p <- ps :: sep !in p
    ensures SplitOn(JoinOn(ps, sep), sep) == ps
  {
    if |ps| > 1 {
      var p := ps[0];
      assert sep !in p by { assert ps[0] in ps; }
      var rest := JoinOn(ps[1..], sep);
      var s := p + [sep] + rest;
      assert sep in s by { assert s[|p|] == sep; }
      var i := IndexOf(s, sep);
      assert i == |p|;
      assert s[..i] == p;
      assert s[i + 1..] == rest;
      assert forall q <- ps[1..] :: q in ps;
      SplitOfJoin(ps[1..], sep);
      Seqs.HeadTail(ps);
    } else {
      assert sep !in ps[0];
    }
  }

  /** `p` occurs in `s` starting at position `i`. */
  predicate OccursAt(s: string, p: string, i: int) {
    0 <= i && i + |p| <= |s| && s[i..i + |p|] == p
  }

  /** Python's `p in s` for strings. */
  predicate Contains(s: string, p: string) {
    exists i | 0 <= i <= |s| - |p| :: OccursAt(s, p, i)
  }

  lemma ContainsAt(s: string, p: string, i: nat)
    requires OccursAt(s, p, i)
    ensures Contains(s, p)
  {
  }

  lemma ContainsPrefix(p: string, s: string)
    ensures Contains(p + s, p)
  {
    ContainsAt(p + s, p, 0);
  }

  lemma ContainsSuffix(s: string, p: string)
    ensures Contains(s + p, p)
  {
    ContainsAt(s + p, p, |s|);
  }

  lemma ContainsInLeft(a: string, b: string, p: string)
    requires Contains(a, p)
    ensures Contains(a + b, p)
  {
    var i :| 0 <= i <= |a| - |p| && OccursAt(a, p, i);
    assert (a + b)[i..i + |p|] == a[i..i + |p|];
    ContainsAt(a + b, p, i);
  }

  lemma ContainsInRight(a: string, b: string, p: string)
    requires Contains(b, p)
    ensures Contains(a + b, p)
  {
    var i :| 0 <= i <= |b| - |p| && OccursAt(b, p, i);
    assert (a + b)[|a| + i..|a| + i + |p|] == b[i..i + |p|];
    ContainsAt(a + b, p, |a| + i);
  }

  /** A text shorter than the pattern cannot contain it. */
  lemma ShorterNotContains(s: string, p: string)
    requires |s| < |p|
    ensures !Contains(s, p)
  {
  }

  /** If the pattern's first character never occurs early enough in `s`,
      `s` does not contain it. */
  lemma NotContainsByFirstChar(s: string, p: string)
    requires |p| > 0
    requires forall i | 0 <= i <= |s| - |p| :: s[i] != p[0]
    ensures !Contains(s, p)
  {
    forall i | 0 <= i <= |s| - |p|
      ensures !OccursAt(s, p, i)
    {
      assert s[i..i + |p|][0] == s[i];
    }
  }

  /** Away from position 0, an occurrence lies in the tail. */
  lemma ContainsTail(s: string, p: string)
    requires |s| > 0
    requires !(p <= s)
    ensures Contains(s, p) <==> Contains(s[1..], p)
  {
    if Contains(s, p) {
      var i :| 0 <= i <= |s| - |p| && OccursAt(s, p, i);
      assert s[1..][i - 1..i - 1 + |p|] == s[i..i + |p|];
      ContainsAt(s[1..], p, i - 1);
    }
    if Contains(s[1..], p) {
      var i :| 0 <= i <= |s[1..]| - |p| && OccursAt(s[1..], p, i);
      assert s[i + 1..i + 1 + |p|] == s[1..][i..i + |p|];
      ContainsAt(s, p, i + 1);
    }
  }

  /** `s.count(p)`: the number of non-overlapping occurrences of `p`,
      scanning left to right. */
  function CountOccurrences(s: string, p: string): (n: nat)
    requires |p| > 0
    ensures n * |p| <= |s|
    decreases |s|
  {
    if |s| < |p| then 0
    else if p <= s then
      var m := CountOccurrences(s[|p|..], p);
      assert (1 + m) * |p| == |p| + m * |p|;
      1 + m
    else CountOccurrences(s[1..], p)
  }

  /** The count is positive exactly when the pattern occurs. */
  lemma {:induction false} CountPositive(s: string, p: string)
    requires |p| > 0
    ensures CountOccurrences(s, p) > 0 <==> Contains(s, p)
    decreases |s|
  {
    if |s| < |p| {
      ShorterNotContains(s, p);
    } else if p <= s {
      assert s[0..|p|] == p;
      ContainsAt(s, p, 0);
    } else {
      ContainsTail(s, p);
      CountPositive(s[1..], p);
    }
  }

  /** A pattern whose first character does not occur again in it cannot
      straddle the start of a following occurrence, so counting splits at
      that occurrence. */
  lemma {:induction false} CountAppend(a: string, b: string, p: string)
    requires |p| > 0 && p <= b
    requires forall k | 1 <= k < |p| :: p[k] != p[0]
    ensures CountOccurrences(a + b, p) == CountOccurrences(a, p) + CountOccurrences(b, p)
    decreases |a|
  {
    if |a| == 0 {
      assert a + b == b;
    } else if |a| < |p| {
      assert (a + b)[|a|] == p[0];
      assert !(p <= a + b);
      assert (a + b)[1..] == a[1..] + b;
      CountAppend(a[1..], b, p);
    } else {
      assert (a + b)[..|p|] == a[..|p|];
      assert (a + b)[|p|..] == a[|p|..] + b;
      assert (a + b)[1..] == a[1..] + b;
      if p <= a {
        CountAppend(a[|p|..], b, p);
      } else {
        CountAppend(a[1..], b, p);
      }
    }
  }

  /** `k` back-to-back copies of `p`. */
  function Repeat(p: string, k: nat): string {
    if k == 0 then "" else p + Repeat(p, k - 1)
  }

  /** Counting the pattern in `k` copies of itself finds exactly `k`. */
  lemma {:induction false} CountOfRepeat(p: string, k: nat)
    requires |p| > 0
    ensures CountOccurrences(Repeat(p, k), p) == k
  {
    if k > 0 {
      var s := Repeat(p, k);
      assert p <= s;
      assert s[|p|..] == Repeat(p, k - 1);
      CountOfRepeat(p, k - 1);
    }
  }

  /** A pattern found inside a found string is found in the text. */
  lemma ContainsTrans(s: string, m: string, p: string)
    requires Contains(s, m) && Contains(m, p)
    ensures Contains(s, p)
  {
    var i :| 0 <= i <= |s| - |m| && OccursAt(s, m, i);
    var j :| 0 <= j <= |m| - |p| && OccursAt(m, p, j);
    assert m == s[i..i + |m|];
    forall k | 0 <= k < |p| ensures s[i + j + k] == p[k] {
      assert m[j + k] == p[k];
      assert s[i..i + |m|][j + k] == s[i + j + k];
    }
    assert s[i + j..i + j + |p|] == p;
    ContainsAt(s, p, i + j);
  }

  function DigitChar(d: nat): (c: char)
    requires d < 10
    ensures IsDigit(c)
  {
    ('0' as int + d) as char
  }

  function DigitValue(c: char): (d: nat)
    requires IsDigit(c)
    ensures d < 10
  {
    c as int - '0' as int
  }

  /** `str(n)` for a natural number: decimal digits, no leading zero. */
  function DecimalString(n: nat): (s: string)
    ensures |s| > 0
    ensures forall i | 0 <= i < |s| :: IsDigit(s[i])
    ensures s[0] == '0' <==> n == 0
  {
    if n < 10 then [DigitChar(n)] else DecimalString(n / 10) + [DigitChar(n % 10)]
  }

  /** The number a string of decimal digits denotes. */
  function DecimalValue(s: string): nat
    requires forall i | 0 <= i < |s| :: IsDigit(s[i])
  {
    if |s| == 0 then 0 else DecimalValue(s[..|s| - 1]) * 10 + DigitValue(s[|s| - 1])
  }

  /** Reading back the digits of `str(n)` gives `n`. */
  lemma {:induction false} DecimalRoundTrip(n: nat)
    ensures DecimalValue(DecimalString(n)) == n
  {
    if n >= 10 {
      DecimalRoundTrip(n / 10);
      var s := DecimalString(n);
      assert s[..|s| - 1] == DecimalString(n / 10);
    }
  }
}

=== FILE: wrappers.dfy ===
/** Failure-compatible wrappers used throughout the model: `Option` for a
    value that may be missing (a missing dictionary key, a `None`), and
    `Result` for an operation whose Python original raises. */
module Wrappers {

  datatype Option<+T> = None | Some(value: T) {

    /** The value, or `default` when missing (Python's `d.get(k, default)`). */
    function GetOr(default: T): T {
      match this
      case Some(v) => v
      case None => default
    }
  }

  datatype Result<+R, +E> = Success(value: R) | Failure(error: E)
}
